=== FILE: README.md ===
# DupFinder in Dafny

A model of the duplicate-file finder `find_dup` and of its companion
`del_file_list`, with proofs about the model.

`find_dup` walks a directory tree and puts every admitted regular file into a
bucket keyed by (little hash, size). The little hash is the hash of the
zero-padded first 4096 bytes. Inside each bucket, a leader-based loop groups
files that compare equal. The compare ladder is: size, first block, a "hash"
step, then a chunked byte comparison. The loop re-checks each file's metadata
snapshot (`changed()`) before trusting it. Groups of two or more files are
written to a JSON report. `del_file_list` reads a separate list, a JSON
object whose `items` is an array of path strings, and removes each listed
path. Fed the report of `find_dup` itself, it removes nothing and exits 1.

The filesystem is a map from path to entry. An entry is a file (bytes, three
times, inode, readable flag), a directory (non-empty child names, listable flag, inode), or an
entry whose status cannot be read. The hash function is a parameter.

The walk reads one filesystem. The grouping phase reads a *schedule*: a
filesystem per instant. Each `changed()` call consumes one instant, and each
`compare` consumes two, because the deep comparison re-reads the sizes. Each
file's staleness is therefore an input of the model, and a world that holds
still is a constant schedule.

Modules, one per file:

- `Common`: bytes, `u64`, `Option`, small sequence helpers.
- `FileSystem`: entries, `safe_file_size`, the stat times, `get_inode`,
  `legal_file`.
- `ByteCompare`: `memcmp`, the chunked stream comparison, `checkFileEqualDeep`.
- `FileRecord`: `MyFile`. That is the constructor, `changed`, the first-block
  and hash caches, `little_hash` and `compare`.
- `Walker`: the stack walk, the inode dedup and the buckets.
- `Grouping`: the leader loop of one bucket and the emission of its groups.
  It also holds a static reference: the groups a bucket has when nothing
  changes.
- `Finder`: `DuplicateFinder::process`, which runs the walk and then the
  buckets in `std::map` order.
- `ScanCli`: the argument and output-path checks of `find_dup`'s `main`.
- `DeleteCli`: `del_file_list`'s `main`.

The code and the design description disagree in a few places. The model
follows the code:

- A file's record is built before its inode is looked up.
- The hash step of the compare ladder compares the `hashed_` flags, not the
  hashes.
- The excluded string `xzfs_fuse_tmp` is tested only against the paths of
  directories about to be listed. A file whose own name contains it is still
  recorded.
- A non-string element in the deletion list stops the run only after the
  earlier paths were already removed.
- An output path `out` is accepted when `out.json` already exists.

## Model

| member | source | states |
|---|---|---|
| ByteCompare.MemCmp | src/find_dup/search.cc:174-178 | `memcmp` of equal-length buffers returns 0 exactly when the buffers are equal, and otherwise a sign, -1 or 1 |
| ByteCompare.ChunkCompareFrom | src/find_dup/search.cc:160-179 | from any position, the chunked read-and-compare loop reports "same" exactly when the unread rests of the two files are equal; a reported difference has a nonzero sign |
| ByteCompare.ChunkCompareIffEqual | src/find_dup/search.cc:160-179 | for every positive chunk size, the chunked comparison finds two byte sequences the same exactly when they are equal |
| ByteCompare.CheckFileEqualDeep | src/find_dup/search.cc:125-188 | identical paths give 0 without any read; for distinct paths, 0 needs both files readable, equal contents, and both sizes unchanged when re-read after the loop; with readable files whose sizes hold still, 0 is exactly content equality; 0 always comes with `state_ok` |
| FileSystem.SafeFileSize | src/find_dup/search.cc:17-23 | the size is the error sentinel UINT64_MAX exactly when the path is not a regular file, and the byte count otherwise |
| FileRecord.FirstBlock | src/find_dup/search.cc:277-291 | the first-block buffer holds the file's first bytes followed by zeros, 4096 bytes in all |
| FileRecord.FirstBlockEqualIff | src/find_dup/search.cc:228-231 | for files of equal size, the first-block step passes exactly when their first min(4096, size) bytes agree |
| FileRecord.Open | src/find_dup/search.cc:201-218 | a record is admitted exactly when the path is an existing regular file with all three times nonzero and a nonzero size; it starts with both caches empty |
| FileRecord.Changed | src/find_dup/search.cc:245-266 | a record is unchanged exactly when its path is still a regular file with the snapshot's atime, mtime, ctime and size |
| FileRecord.OpenIsUnchanged | src/find_dup/search.cc:201-266 | a record is never stale in the filesystem it was captured from |
| FileRecord.SetFirst4k | src/find_dup/search.cc:283-295 | the first call fills the buffer with the file's zero-padded first block, or leaves it zero if the file cannot be opened, and sets the flag either way; later calls change nothing and return true |
| FileRecord.FileHashByContent | src/find_dup/search.cc:74-113 | the full-file hash depends on the bytes alone: two readable files with equal contents hash alike, whatever their paths, times and inodes and whichever filesystem they are read from |
| FileRecord.Hash | src/find_dup/search.cc:297-303 | the full hash is computed on the first call only; once cached it is returned unchanged |
| FileRecord.LittleHash | src/find_dup/search.cc:305-309 | the little hash is the hash of the whole 4096-byte buffer, and the buffer is loaded first if needed |
| FileRecord.EqualContentsEqualKeys | src/find_dup/search.cc:305-309 | two readable, unchanged files with equal contents get the same little hash and the same size, so they share a bucket key |
| FileRecord.Compare | src/find_dup/search.cc:220-243 | different sizes give -1 or 1 by size order; 0 exactly when sizes, zero-padded first blocks and the deep comparison all agree, so the hash step never rejects; caches only get filled |
| FileRecord.CompareStatic | src/find_dup/search.cc:220-243 | in a filesystem that holds still, two distinct fresh records compare 0 exactly when both files are readable and equal |
| FileRecord.CompareIntended | src/find_dup/search.cc:234-239 | with the hash step comparing the hash values, a match also needs equal full-file hashes |
| FileRecord.CompareIntendedStatic | src/find_dup/search.cc:234-242 | with current hash caches in a filesystem that holds still, the intended ladder decides exactly as content equality does |
| FileRecord.HashFlagStepNeverRejects | src/find_dup/search.cc:237-239 | two records whose cached hashes differ but whose files are now identical compare 0 as written, and are rejected by the intended ladder |
| Walker.AdmitFile | src/find_dup/search.cc:338-359 | a listed file adds at most one record; it adds one exactly when the record constructor admits the file and its inode can be read and was not seen before, and that record is for this entry, with this inode, which joins the seen set; a rejected file leaves the whole state alone, so no inode is recorded as seen without its record; the walk invariant is kept |
| Walker.ScanRange | src/find_dup/search.cc:329-364 | listing a directory only appends accepted files and pushes subdirectories of it named by a visible (not dot-led) entry of its listing, at most one per entry |
| Walker.RaiseAbandonsRest | src/find_dup/search.cc:329-364 | an entry that raises a filesystem error abandons the rest of its directory and nothing else: listing stops where it was, with the earlier entries' effects kept |
| Walker.ExcludedRootYieldsNothing | src/find_dup/search.cc:319-326 | a root whose path contains the excluded string yields no accepted file |
| Walker.PushedUnderRoot | src/find_dup/search.cc:356-357 | a directory pushed while listing a reached directory under the root is itself under the root and reached through a visible name |
| FileSystem.Join | src/find_dup/search.cc:330-331 | the path of a listed entry starts with its directory's path, continues with a separator unless that path already ends in one, and ends with the entry's name, so the name can be read back from the path |
| Walker.Walk | src/find_dup/search.cc:312-366 | entry paths are formed as `path::operator/` forms them, with a separator inserted only when the directory path does not already end in one; every accepted file is a visible, admitted entry of a non-excluded, listable directory that the walk reaches from the root through visible names only, so nothing under a hidden directory is accepted; no two accepted files share an inode; each bucket holds exactly the accepted records with its key, in traversal order |
| Grouping.StaticPartition | src/find_dup/search.cc:374-410 | the reference groups partition a bucket by identity: members of a group share an identity, and two indices with the same identity share a group |
| Grouping.EmitOnceMembers | src/find_dup/search.cc:411-423 | emitting once reports exactly the groups with more than one member |
| Grouping.EmitOnceNoRepeats | src/find_dup/search.cc:411-423 | emitting once reports each of pairwise distinct groups at most once |
| Grouping.EmittedIgnoresLaterGroup | src/find_dup/search.cc:374-424 | a group led after every started leader changes nothing emitted so far |
| Grouping.EmittedFromGroups | src/find_dup/search.cc:411-423 | everything the report lists is a built group with more than one member |
| Grouping.EmittedEndsWithIntended | src/find_dup/search.cc:374-424 | the report as written is the intended report preceded by the copies pushed after earlier leaders |
| Grouping.EmittedCovers | src/find_dup/search.cc:374-424 | a group of two or more whose leader is no later than some started leader is in the report |
| Grouping.ReEmission | src/find_dup/search.cc:374-424 | with two leaders and a two-member group each, the first group is reported twice |
| Grouping.CompareAt | src/find_dup/search.cc:403 | a comparison only fills caches; in any world, a match of two distinct paths means equal snapshot sizes, both files read whole with the same bytes, and neither size moved before the re-read; in a world that holds still, a match is exactly content equality of two readable files, and the records stay fresh |
| Grouping.Visit | src/find_dup/search.cc:387-409 | one inner step skips the leader and checked indices; an index found changed is marked checked and nothing else moves; a leader found changed drops the group; otherwise the index joins the group and is marked checked exactly when the comparison returns 0; every join it records is backed by a match at some instant |
| Grouping.GrowGroup | src/find_dup/search.cc:384-410 | the group starts with its leader and lists the other indices unchecked at the start once each, in index order, including indices below the leader, and a leader is never marked checked, so in a changing world an earlier leader can join a later group and a file can appear in two groups; in any world each member after the leader matched it at some instant with neither found changed just before, each index marked checked joined or was found changed, and a dropped group means the leader was found changed; in a world that holds still, a representative's group is its identity class |
| Grouping.Lead | src/find_dup/search.cc:374-424 | one leader step keeps the loop invariant; checked marks only accumulate; a checked index changes nothing; an unchecked index found changed is marked checked and starts no group; any other index is started as a leader, and every group member stays justified by a match with its leader |
| Grouping.GroupBucket | src/find_dup/search.cc:368-424 | the report lists exactly the built groups with more than one member, as the in-loop emission repeats them; in any world, every member after a group's leader matched that leader at some instant, a started leader without a group was found changed, and every index was started, found changed, or joined a started leader; in a world that holds still, the groups are the reference groups |
| Finder.MinKey | src/find_dup/search.cc:367 | every non-empty set of keys has a least key in the lexicographic pair order |
| Finder.Ascending | src/find_dup/search.cc:316-367 | the buckets are visited once each, in strictly ascending key order, as `std::map` iterates |
| Finder.DistinctInodesDistinctPaths | src/find_dup/search.cc:345-354 | two accepted files have distinct paths, since their inodes differ |
| Finder.TwinsShareKey | src/find_dup/search.cc:338-359 | two accepted readable files with equal contents land in the same bucket |
| Finder.ReportBucket | src/find_dup/search.cc:368-424 | each item lists at least two distinct files of the bucket, displayed relative to the root; in any world, every file of an item held the same bytes as the item's first file at some instant of the grouping; in a world that holds still, items hold equal readable files, and every two equal files of the bucket share an item |
| Finder.Process | src/find_dup/search.cc:312-427 | each item lists at least two distinct accepted files; in any world, every file of an item held the same bytes as the item's first file at some instant after the walk; in a world that holds still, every item holds equal readable files, and any two accepted files with equal contents appear together in some item; an excluded root reports nothing |
| ScanCli.FileName | src/find_dup/main.cc:37 | a file name is the separator-free tail of the path, empty for a path ending in a separator |
| ScanCli.Extension | src/find_dup/main.cc:37-40 | an extension is empty or a dot-led tail of the file name with no further dot |
| ScanCli.AppendJsonExtension | src/find_dup/main.cc:37-38 | appending `.json` to a path with a non-empty file name gives a path whose extension is `.json` |
| ScanCli.StripSeparators | src/find_dup/main.cc:17-19 | a path without its trailing separators is a prefix of it followed only by separators, and ends in a separator only when it is the root `/` |
| ScanCli.Validate | src/find_dup/main.cc:7-60 | usage error exactly with fewer than two arguments; a run walks a directory, the root without its trailing separators, and writes to an output that opens: the given path when it ends in `.json`, or that path plus `.json` when it has no extension |
| ScanCli.ValidateOutcomes | src/find_dup/main.cc:19-53 | each failure comes exactly when the checks before it pass and its own fails, in the program's order: a missing root, a root that is not a directory, an output that exists as given, an extension other than `.json`, an output that does not open; the run comes exactly when all pass |
| ScanCli.RunWhenChecksPass | src/find_dup/main.cc:19-59 | a directory root, a missing output path with extension `.json` or none, and an opening output always give a run on the root without trailing separators and the completed output |
| ScanCli.ExtraArgumentsIgnored | src/find_dup/main.cc:7-15 | arguments after the second change nothing |
| ScanCli.UsageBeforeFilesystem | src/find_dup/main.cc:7-10 | with fewer than two arguments the answer, exit code 1, does not depend on the filesystem |
| ScanCli.RunOutputIsJson | src/find_dup/main.cc:37-45 | an accepted output path with a non-empty file name has extension `.json` after completion |
| ScanCli.OutputDirectoryRefused | src/find_dup/main.cc:32-35 | with an existing directory `out`, the output path `out/` is refused as existing |
| ScanCli.MissingOutputDirectoryCompleted | src/find_dup/main.cc:32-38 | with nothing at `out`, the output `out/` runs with the completed path `out/.json`, a hidden file that again has no extension |
| ScanCli.RootSeparatorDropped | src/find_dup/main.cc:17-27 | a root given as `d/` passes the directory checks and is walked as `d` |
| ScanCli.ExistingCompletedOutputAccepted | src/find_dup/main.cc:32-38 | with `out.json` present, the argument `out` is accepted and `out.json` is opened for writing |
| ScanCli.ValidateIntended | src/find_dup/main.cc:32-48 | checking existence after completion never opens an existing file, and agrees with the program whenever the completed path does not exist |
| DeleteCli.FirstNonString | src/del_file_list/main.cc:18-22 | every element before the returned index is a string and the one at it is not |
| DeleteCli.RemoveAll | src/del_file_list/main.cc:18-35 | the loop exits 0 exactly when every element is a string; it removes the paths of the strings before the first non-string whose removal does not fail, and nothing else; it logs one event per visited element |
| DeleteCli.Delete | src/del_file_list/main.cc:7-35 | the whole program matches the loop-free reference: usage error, then the `items` check, then the removal loop |
| DeleteCli.ChecksBeforeRemoval | src/del_file_list/main.cc:7-16 | a wrong argument count, or an `items` that is missing or not an array, removes nothing and never exits 0 |
| DeleteCli.ExitCodeIgnoresRemovalErrors | src/del_file_list/main.cc:18-35 | with a valid list, the exit code is 0 exactly when every element is a string, whatever the removals did |
| DeleteCli.ListedPathsRemoved | src/del_file_list/main.cc:18-27 | a path listed before the first non-string element is gone unless its removal failed, even when a later element stops the run |
| DeleteCli.UnlistedPathsKept | src/del_file_list/main.cc:18-22 | a path that appears only after the first non-string element, or whose removals all failed, is kept |
| DeleteCli.LogFollowsItems | src/del_file_list/main.cc:18-31 | the log has one event per visited element, in order; failed removals are reported and the loop goes on; an early stop ends with the offending element |
| DeleteCli.ReportIsNotAList | src/del_file_list/main.cc:11-21 | the report `find_dup` writes (`null` with no groups, otherwise groups of path objects) is refused with exit 1 and nothing removed |
| DeleteCli.RerunRemovesNothing | src/del_file_list/main.cc:18-31 | a second run on the same list with the same failures removes nothing more, and no run adds paths |

## Left out

- Real system calls and streams (`stat`, `std::filesystem`, `ifstream`, `ofstream`) are reads of the abstract filesystem. Opening the output stream is an oracle `opens`. Whether a removal raises a filesystem error is an oracle `fails`.
- XXH64 (`hash_data`, `hash_file_xxh64`) is an uninterpreted function `hasher`. A failed hash is just one of its possible values. A hash of a file that cannot be opened is 0.
- Building and dumping the JSON report, `nlohmann::json` parsing, and `std::filesystem::relative` are left out. The report is a sequence of items of (display, real) pairs. The display path is an uninterpreted function `rel` of the path and the root.
- Logging to stdout and stderr is left out, including the path printed by `set_first_4k`. The deletion utility's messages are an event log.
- Symbolic links are left out, and so are cycles: the tree is a finite map with no visited-directory set.
- Exceptions that `exists` raises inside the record constructor during the walk are modelled only as an entry whose status cannot be read. Such an entry ends the listing of its directory.
- FileRecord.Changed: an entry whose status cannot be read during grouping makes `exists` in `legal_file` (search.cc:116) throw from `changed` (search.cc:246). Nothing catches it, so the program terminates without writing a report. The model reads such an entry as changed instead.
- ByteCompare.CheckFileEqualDeep: the same unreadable status makes `legal_file` throw from `checkFileEqualDeep` (search.cc:132) and ends the program. The model returns -1 with the state not ok, as for a missing file.
- Finder.Process: its report and its `ItemMatched` guarantee also cover schedules in which an entry's status becomes unreadable during grouping. The program ends those runs without a report (the two lines above).
- ScanCli.Validate: a root with two or more trailing separators (`d//`) is walked as `d`, so an entry is reported as `d/x` where the program reports `d//x`. The files found are the same. With one trailing separator, or the root `/`, the reported paths are the program's.
- Host atime behaviour and other processes writing to the tree are not modelled as such. Their effect reaches the grouping only through the schedule. The walk reads the filesystem at instant 0.
- Walker.Walk: does not prove completeness, that is, that every eligible file reachable from the root is recorded. It proves only that what is recorded is eligible, deduplicated and bucketed.
- DeleteCli.Delete: a JSON parse error in the list file is not modelled, and that document is a parameter. A top-level value that is neither an object nor null raises an uncaught type error. It is modelled only as an `Aborted` status with nothing removed.
- ScanCli.Validate: a path whose status cannot be read, as root or as output, makes `exists` throw and the program terminate. The model treats such an output path as existing, and such a root as not a directory.
- DeleteCli.UnlistedPathsKept: the existing files are a set of path strings, so a file is identified by how its path is spelled. Removing `./x` removes the file that `x` names, while the model keeps `x`. Listed paths are assumed canonical.
- ScanCli.Validate: only trailing separators of an argument are normalised. Repeated separators inside it and `.` or `..` components are taken literally, so such arguments are assumed canonical.
- ByteCompare.MemCmp: returns -1 or 1 where `memcmp` may return any value of that sign. `CheckFileEqualDeep` and `Compare` pass that value on (search.cc:177 and :231), and every caller only tests it against 0.
- The report of `find_dup` keeps the repeated groups of the as-written emission, because the model follows the program. `Grouping.EmitOnce` and `FileRecord.CompareIntended` are the corrected definitions, and their properties are stated beside the as-written ones.

## Findings

| source | as written | input that shows it | evidently intended | confidence | as-written member | corrected member |
|---|---|---|---|---|---|---|
| src/find_dup/search.cc:237-239 | the hash step compares the `hashed_` flags, which are both true after `hash()` | two records with cached hashes 1 and 2 whose files now both hold `[7]` | compare the hash values `hash_` | not executed | FileRecord.HashFlagStepNeverRejects | FileRecord.CompareIntended |
| src/find_dup/search.cc:411-423 | the emit loop runs inside the leader loop, so every group built so far is pushed again after each later leader | groups `[0,1]` and `[2,3]` with leaders 0 and 2 give the report `[0,1], [0,1], [2,3]` | emit each group of two or more once, after the leader loop | not executed | Grouping.ReEmission | Grouping.EmitOnceNoRepeats |
| src/find_dup/main.cc:32-38 | existence is checked on the output path as given, before `.json` completion | arguments `d out` with directory `d` and an existing `out.json`: the program opens `out.json` for writing | refuse when the completed path exists | not executed | ScanCli.ExistingCompletedOutputAccepted | ScanCli.ValidateIntended |

=== FILE: common.dfy ===
/** Machine-level vocabulary shared by every module: bytes, 64-bit unsigned
    integers with the error sentinel the program uses, an optional value,
    and the few sequence and string helpers the other modules need. */
module Common {

  /** An unsigned byte, as `memcmp` and the stream reads see it. */
  type byte = x: int | 0 <= x < 256

  /** The values of a `uint64_t`. */
  type u64 = x: int | 0 <= x < 0x1_0000_0000_0000_0000

  /** `UINT64_MAX`, the error sentinel for sizes and inode numbers. */
  const UINT64_MAX: u64 := 0xFFFF_FFFF_FFFF_FFFF

  datatype Option<T> = None | Some(value: T)

  function Min(a: int, b: int): int
  {
    if a <= b then a else b
  }

  function Max(a: int, b: int): int
  {
    if a <= b then b else a
  }

  /** `n` zero bytes: the value-initialised contents of a buffer. */
  function Zeros(n: nat): (z: seq<byte>)
    ensures |z| == n
    ensures forall i :: 0 <= i < n ==> z[i] == 0
  {
    seq(n, _ => 0)
  }

  /** `s` begins with `prefix`. */
  predicate StartsWith(s: string, prefix: string)
  {
    |prefix| <= |s| && s[..|prefix|] == prefix
  }

  /** `s` contains `sub` as a contiguous substring (`std::string::find != npos`). */
  predicate Contains(s: string, sub: string)
    decreases |s|
  {
    StartsWith(s, sub) || (|s| > 0 && Contains(s[1..], sub))
  }

  /** Extending a string keeps every substring it already had. */
  lemma {:induction false} ContainsExtends(s: string, t: string, sub: string)
    requires Contains(s, sub)
    ensures Contains(s + t, sub)
    decreases |s|
  {
    if StartsWith(s, sub) {
      assert (s + t)[..|sub|] == s[..|sub|];
    } else {
      ContainsExtends(s[1..], t, sub);
      assert (s + t)[1..] == s[1..] + t;
    }
  }

  // ---- powers: these serve only the termination measure of the directory
  // walk (its `decreases` clause); they model nothing the program computes ----

  /** `b` to the power `e`. */
  function Pow(b: nat, e: nat): nat
  {
    if e == 0 then 1 else b * Pow(b, e - 1)
  }

  lemma {:induction false} PowMonotone(b: nat, e1: nat, e2: nat)
    requires 1 <= b && e1 <= e2
    ensures 1 <= Pow(b, e1) <= Pow(b, e2)
    decreases e2
  {
    if e2 > e1 {
      PowMonotone(b, e1, e2 - 1);
      var p := Pow(b, e2 - 1);
      assert Pow(b, e2) == b * p;
      MulAtLeast(b, p);
    } else {
      PowPositive(b, e1);
    }
  }

  lemma {:induction false} PowPositive(b: nat, e: nat)
    requires 1 <= b
    ensures 1 <= Pow(b, e)
  {
    if e > 0 {
      PowPositive(b, e - 1);
      MulAtLeast(b, Pow(b, e - 1));
    }
  }

  lemma {:induction false} MulAtLeast(b: nat, p: nat)
    requires 1 <= b
    ensures p <= b * p
  {
    assert b * p == p + (b - 1) * p;
  }
}

=== FILE: compare.dfy ===
/** Byte comparison of two files: `memcmp` on equal-length buffers, the
    chunk-by-chunk stream comparison, and `checkFileEqualDeep`, which wraps
    it with legality, size and re-read checks. */
module ByteCompare {
  import opened Common
  import opened FileSystem

  /** `kBufSz` of `checkFileEqualDeep`: 64 KiB per read. */
  const ChunkSize: nat := 64 * 1024

  /** `memcmp` over two buffers of the same length: the sign of the first
      differing byte, 0 when there is none. */
  function MemCmp(x: seq<byte>, y: seq<byte>): (r: int)
    requires |x| == |y|
    ensures -1 <= r <= 1
    ensures r == 0 <==> x == y
    decreases |x|
  {
    if |x| == 0 then 0
    else if x[0] < y[0] then -1
    else if x[0] > y[0] then 1
    else
      assert x == [x[0]] + x[1..] && y == [y[0]] + y[1..];
      MemCmp(x[1..], y[1..])
  }

  /** How the stream loop of `checkFileEqualDeep` ends. */
  datatype ChunkOutcome =
    | LengthMismatch    // the two reads returned different byte counts
    | Differ(sign: int) // a chunk pair differed; `memcmp`'s result
    | Same              // both streams reached their end without a difference

  /** The stream loop of `checkFileEqualDeep`, with both streams positioned at
      `pos`. Each round reads up to `k` bytes from each stream; a read that
      returns fewer than `k` bytes sets the stream's fail bit, which ends the
      loop after the round. */
  function ChunkCompare(a: seq<byte>, b: seq<byte>, k: nat, pos: nat): ChunkOutcome
    requires k > 0 && pos <= |a| && pos <= |b|
    decreases |a| - pos
  {
    var n1 := Min(k, |a| - pos);
    var n2 := Min(k, |b| - pos);
    if n1 != n2 then LengthMismatch
    else if n1 > 0 && MemCmp(a[pos..pos + n1], b[pos..pos + n2]) != 0 then
      Differ(MemCmp(a[pos..pos + n1], b[pos..pos + n2]))
    else if n1 == k then ChunkCompare(a, b, k, pos + k)
    else Same
  }

  /** The chunked comparison reports `Same` exactly when the unread rests of
      the two sequences are equal; `Differ` always carries a nonzero sign. */
  lemma {:induction false} ChunkCompareFrom(a: seq<byte>, b: seq<byte>, k: nat, pos: nat)
    requires k > 0 && pos <= |a| && pos <= |b|
    ensures ChunkCompare(a, b, k, pos) == Same <==> a[pos..] == b[pos..]
    ensures ChunkCompare(a, b, k, pos).Differ? ==> ChunkCompare(a, b, k, pos).sign != 0
    decreases |a| - pos
  {
    var r := ChunkCompare(a, b, k, pos);
    var n1 := Min(k, |a| - pos);
    var n2 := Min(k, |b| - pos);
    if n1 != n2 {
      assert r == LengthMismatch;
      assert |a[pos..]| != |b[pos..]|;
    } else {
      var x := a[pos..pos + n1];
      var y := b[pos..pos + n1];
      if n1 > 0 && MemCmp(x, y) != 0 {
        assert r == Differ(MemCmp(x, y));
        ChunkDiffers(a, b, pos, n1);
      } else if n1 == k {
        assert x == y;
        assert r == ChunkCompare(a, b, k, pos + k);
        ChunkCompareFrom(a, b, k, pos + k);
        ChunkThenRest(a, b, pos, k);
      } else {
        assert x == y;
        assert r == Same;
        assert a[pos..] == x && b[pos..] == y;
      }
    }
  }

  /** Differing chunks at `pos` make the rests differ. */
  lemma {:induction false} ChunkDiffers(a: seq<byte>, b: seq<byte>, pos: nat, n: nat)
    requires pos + n <= |a| && pos + n <= |b|
    requires a[pos..pos + n] != b[pos..pos + n]
    ensures a[pos..] != b[pos..]
  {
    assert a[pos..pos + n] == a[pos..][..n];
    assert b[pos..pos + n] == b[pos..][..n];
  }

  /** With equal chunks at `pos`, the rests are equal exactly when the rests
      after the chunk are. */
  lemma {:induction false} ChunkThenRest(a: seq<byte>, b: seq<byte>, pos: nat, n: nat)
    requires pos + n <= |a| && pos + n <= |b|
    requires a[pos..pos + n] == b[pos..pos + n]
    ensures a[pos..] == b[pos..] <==> a[pos + n..] == b[pos + n..]
  {
    assert a[pos..] == a[pos..pos + n] + a[pos + n..];
    assert b[pos..] == b[pos..pos + n] + b[pos + n..];
    if a[pos..] == b[pos..] {
      assert a[pos + n..] == a[pos..][n..] && b[pos + n..] == b[pos..][n..];
    }
  }

  /** Key property of the chunked comparison: for any positive chunk size it
      finds two byte sequences the same exactly when they are equal. */
  lemma {:induction false} ChunkCompareIffEqual(a: seq<byte>, b: seq<byte>, k: nat)
    requires k > 0
    ensures ChunkCompare(a, b, k, 0) == Same <==> a == b
  {
    ChunkCompareFrom(a, b, k, 0);
    assert a[0..] == a && b[0..] == b;
  }

  /** The result of `checkFileEqualDeep` and its `state_ok` out-parameter. */
  datatype DeepResult = DeepResult(code: int, stateOk: bool)

  /** `checkFileEqualDeep(p1, p2, state_ok)`. Everything up to and including
      the stream loop reads `fs`; the sizes re-read after the loop are read
      from `after`, the filesystem as it is once the loop has finished. */
  function CheckFileEqualDeep(fs: FileSystem, after: FileSystem, p1: Path, p2: Path): (r: DeepResult)
    // identical paths match without any read
    ensures p1 == p2 ==> r == DeepResult(0, true)
    // distinct paths match only if both files can be read, their contents are
    // equal, and neither size moved while they were read
    ensures r.code == 0 && p1 != p2 ==>
      && CanOpen(fs, p1) && CanOpen(fs, p2)
      && fs[p1].content == fs[p2].content
      && SafeFileSize(after, p1) == SafeFileSize(fs, p1)
      && SafeFileSize(after, p2) == SafeFileSize(fs, p2)
    // with readable files whose sizes hold still, a match is content equality
    ensures p1 != p2 && CanOpen(fs, p1) && CanOpen(fs, p2)
      && SafeFileSize(after, p1) == SafeFileSize(fs, p1)
      && SafeFileSize(after, p2) == SafeFileSize(fs, p2)
      ==> (r.code == 0 <==> fs[p1].content == fs[p2].content)
    ensures r.code == 0 ==> r.stateOk
  {
    if p1 == p2 then DeepResult(0, true)
    else if !LegalFile(fs, p1) || !LegalFile(fs, p2) then DeepResult(-1, false)
    else
      var totalSize := SafeFileSize(fs, p1);
      var totalSize1 := SafeFileSize(fs, p2);
      if Max(totalSize, totalSize1) == UINT64_MAX then DeepResult(-1, false)
      else if totalSize < totalSize1 then DeepResult(-1, false)
      else if totalSize > totalSize1 then DeepResult(1, false)
      else if !CanOpen(fs, p1) || !CanOpen(fs, p2) then DeepResult(-1, false)
      else
        var c1 := fs[p1].content;
        var c2 := fs[p2].content;
        ChunkCompareIffEqual(c1, c2, ChunkSize);
        ChunkCompareFrom(c1, c2, ChunkSize, 0);
        match ChunkCompare(c1, c2, ChunkSize, 0)
        case LengthMismatch => DeepResult(-1, false)
        case Differ(c) => DeepResult(c, true)
        case Same =>
          if SafeFileSize(after, p1) != totalSize || SafeFileSize(after, p2) != totalSize
          then DeepResult(-1, false)
          else DeepResult(0, true)
  }
}

=== FILE: delete_cli.dfy ===
/** The deletion-list utility: it reads a JSON object whose `items` is an
    array of path strings and removes each listed path in order. That list
    is written separately: the report of `find_dup` holds groups of path
    objects, which the utility refuses. The parsed document is a parameter;
    the filesystem is the set of existing paths, and whether a removal raises
    a filesystem error is an oracle `fails`. */
module DeleteCli {
  import opened Common
  import opened FileSystem
  import Finder

  /** A parsed JSON value. */
  datatype Json =
    | Null
    | Bool(b: bool)
    | Number(n: int)
    | Str(s: string)
    | Array(elems: seq<Json>)
    | Object(fields: map<string, Json>)

  /** What the utility reports, one event per step. */
  datatype Event =
    | Usage                 // the argument count is not one
    | NotAnArray            // `items` is not an array
    | Removing(p: Path)     // the removal of `p` raised no error
    | RemoveError(p: Path)  // the removal of `p` raised a filesystem error
    | NotAString(item: Json)

  /** How the process ends: with an exit code, or killed by an exception
      that nothing catches. */
  datatype Status = Exited(code: int) | Aborted

  datatype Result = Result(status: Status, remaining: set<Path>, log: seq<Event>)

  /** `doc["items"]` on a mutable document: a null document becomes an
      object and a missing key reads as null; any other kind of document
      raises a type error (`None`). */
  function Items(doc: Json): Option<Json>
  {
    match doc
    case Null => Some(Null)
    case Object(fields) => Some(if "items" in fields then fields["items"] else Null)
    case _ => None
  }

  // ---------------------------------------------------------------------
  // Reference definition
  // ---------------------------------------------------------------------

  /** The index of the first element that is not a string, or the length. */
  function FirstNonString(elems: seq<Json>): (n: nat)
    ensures n <= |elems|
    ensures forall k :: 0 <= k < n ==> elems[k].Str?
    ensures n < |elems| ==> !elems[n].Str?
  {
    if |elems| == 0 || !elems[0].Str? then 0
    else 1 + FirstNonString(elems[1..])
  }

  /** How many elements the loop looks at: every string before the first
      non-string, and that one. */
  function Visited(elems: seq<Json>): nat
  {
    if FirstNonString(elems) < |elems| then FirstNonString(elems) + 1 else |elems|
  }

  /** The paths whose removal succeeds among `elems`. */
  function Removed(elems: seq<Json>, fails: Path -> bool): set<Path>
  {
    set k | 0 <= k < |elems| && elems[k].Str? && !fails(elems[k].s) :: elems[k].s
  }

  /** Appending one element adds its path when it is a string whose removal
      succeeds, and nothing otherwise. */
  lemma {:induction false} RemovedAppend(elems: seq<Json>, item: Json, fails: Path -> bool)
    ensures Removed(elems + [item], fails) ==
      Removed(elems, fails) + (if item.Str? && !fails(item.s) then {item.s} else {})
  {
    var e := elems + [item];
    forall p | p in Removed(e, fails)
      ensures p in Removed(elems, fails) || (item.Str? && !fails(item.s) && p == item.s)
    {
      var k :| 0 <= k < |e| && e[k].Str? && !fails(e[k].s) && e[k].s == p;
      if k < |elems| {
        assert e[k] == elems[k];
      }
    }
    forall p | p in Removed(elems, fails)
      ensures p in Removed(e, fails)
    {
      var k :| 0 <= k < |elems| && elems[k].Str? && !fails(elems[k].s) && elems[k].s == p;
      assert e[k] == elems[k];
    }
    if item.Str? && !fails(item.s) {
      assert e[|elems|] == item;
    }
  }

  function EventOf(item: Json, fails: Path -> bool): Event
  {
    if !item.Str? then NotAString(item)
    else if fails(item.s) then RemoveError(item.s)
    else Removing(item.s)
  }

  /** One event per element, in order. */
  function Events(elems: seq<Json>, fails: Path -> bool): seq<Event>
  {
    seq(|elems|, k requires 0 <= k < |elems| => EventOf(elems[k], fails))
  }

  /** What a run does, stated without the loop. */
  function Expected(args: seq<string>, doc: Json, existing: set<Path>, fails: Path -> bool): Result
  {
    if |args| != 2 then Result(Exited(1), existing, [Usage])
    else match Items(doc)
      case None => Result(Aborted, existing, [])
      case Some(items) =>
        if !items.Array? then Result(Exited(1), existing, [NotAnArray])
        else
          var elems := items.elems;
          var n := FirstNonString(elems);
          Result(if n == |elems| then Exited(0) else Exited(1),
                 existing - Removed(elems[..n], fails),
                 Events(elems[..Visited(elems)], fails))
  }

  // ---------------------------------------------------------------------
  // The program
  // ---------------------------------------------------------------------

  /** The removal loop over the elements of `items`. It stops at the first
      element that is not a string; a failed removal is reported and the
      loop goes on. */
  method RemoveAll(elems: seq<Json>, existing: set<Path>, fails: Path -> bool)
    returns (code: int, remaining: set<Path>, log: seq<Event>)
    ensures code == 0 <==> FirstNonString(elems) == |elems|
    ensures code == 0 || code == 1
    ensures remaining == existing - Removed(elems[..FirstNonString(elems)], fails)
    ensures log == Events(elems[..Visited(elems)], fails)
  {
    remaining := existing;
    log := [];
    var i := 0;
    while i < |elems|
      invariant i <= FirstNonString(elems)
      invariant remaining == existing - Removed(elems[..i], fails)
      invariant log == Events(elems[..i], fails)
    {
      var item := elems[i];
      assert elems[..i + 1] == elems[..i] + [item];
      if !item.Str? {
        log := log + [NotAString(item)];
        return 1, remaining, log;
      }
      RemovedAppend(elems[..i], item, fails);
      if fails(item.s) {
        log := log + [RemoveError(item.s)];
      } else {
        remaining := remaining - {item.s};
        log := log + [Removing(item.s)];
      }
      i := i + 1;
    }
    return 0, remaining, log;
  }

  /** `main`: the argument check, the `items` check, then the loop. */
  method Delete(args: seq<string>, doc: Json, existing: set<Path>, fails: Path -> bool)
    returns (r: Result)
    ensures r == Expected(args, doc, existing, fails)
  {
    if |args| != 2 {
      return Result(Exited(1), existing, [Usage]);
    }
    var items := Items(doc);
    if items.None? {
      return Result(Aborted, existing, []);
    }
    if !items.value.Array? {
      return Result(Exited(1), existing, [NotAnArray]);
    }
    var code, remaining, log := RemoveAll(items.value.elems, existing, fails);
    return Result(Exited(code), remaining, log);
  }

  // ---------------------------------------------------------------------
  // Properties
  // ---------------------------------------------------------------------

  /** Nothing is removed, and the exit is not a success, unless there is
      exactly one argument and `items` is an array; a missing `items` key
      reads as null, which is not an array. */
  lemma {:induction false} ChecksBeforeRemoval(args: seq<string>, doc: Json, existing: set<Path>, fails: Path -> bool)
    requires |args| != 2 || Items(doc).None? || !Items(doc).value.Array?
    ensures Expected(args, doc, existing, fails).remaining == existing
    ensures Expected(args, doc, existing, fails).status != Exited(0)
    ensures forall k :: 0 <= k < |Expected(args, doc, existing, fails).log| ==>
      !Expected(args, doc, existing, fails).log[k].Removing?
  {
  }

  /** The exit code is 0 exactly when every element of `items` is a string,
      whatever the individual removals did. */
  lemma {:induction false} ExitCodeIgnoresRemovalErrors(args: seq<string>, doc: Json, existing: set<Path>, fails: Path -> bool)
    requires |args| == 2 && Items(doc).Some? && Items(doc).value.Array?
    ensures Expected(args, doc, existing, fails).status == Exited(0) <==>
      forall k :: 0 <= k < |Items(doc).value.elems| ==> Items(doc).value.elems[k].Str?
    ensures Expected(args, doc, existing, fails).status.Exited?
  {
    var elems := Items(doc).value.elems;
    if FirstNonString(elems) < |elems| {
      assert !elems[FirstNonString(elems)].Str?;
    }
  }

  /** A path listed as a string before the first non-string element is gone
      afterwards unless its removal failed: there is no rollback when a
      later element stops the loop. */
  lemma {:induction false} ListedPathsRemoved(args: seq<string>, doc: Json, elems: seq<Json>, existing: set<Path>,
                                              fails: Path -> bool, k: nat)
    requires |args| == 2 && Items(doc) == Some(Array(elems))
    requires k < FirstNonString(elems) && !fails(elems[k].s)
    ensures elems[k].s !in Expected(args, doc, existing, fails).remaining
  {
    var n := FirstNonString(elems);
    assert elems[..n][k] == elems[k];
    assert elems[k].s in Removed(elems[..n], fails);
  }

  /** A path that appears only after the first non-string element, or whose
      every removal failed, is left in place. */
  lemma {:induction false} UnlistedPathsKept(args: seq<string>, doc: Json, elems: seq<Json>, existing: set<Path>,
                                             fails: Path -> bool, p: Path)
    requires |args| == 2 && Items(doc) == Some(Array(elems))
    requires p in existing
    requires forall k :: 0 <= k < FirstNonString(elems) && elems[k] == Str(p) ==> fails(p)
    ensures p in Expected(args, doc, existing, fails).remaining
  {
  }

  /** The log names the listed paths in order, one event each, and ends
      with the offending element when the loop stops early. */
  lemma {:induction false} LogFollowsItems(args: seq<string>, doc: Json, elems: seq<Json>, existing: set<Path>,
                                           fails: Path -> bool)
    requires |args| == 2 && Items(doc) == Some(Array(elems))
    ensures var log := Expected(args, doc, existing, fails).log;
      && |log| == Visited(elems)
      && (forall k :: 0 <= k < FirstNonString(elems) ==>
            log[k] == Removing(elems[k].s) || log[k] == RemoveError(elems[k].s))
      && (FirstNonString(elems) < |elems| ==>
            log[|log| - 1] == NotAString(elems[FirstNonString(elems)]))
  {
    var log := Expected(args, doc, existing, fails).log;
    assert log == Events(elems[..Visited(elems)], fails);
    forall k | 0 <= k < FirstNonString(elems)
      ensures log[k] == Removing(elems[k].s) || log[k] == RemoveError(elems[k].s)
    {
      assert log[k] == EventOf(elems[k], fails);
    }
  }

  /** A reported group as `find_dup` renders it: an array of
      `{display_path, real_path}` objects, and `null` when nothing was
      pushed. */
  function GroupJson(group: seq<Finder.Pair>): Json
  {
    if group == [] then Null
    else Array(seq(|group|, b requires 0 <= b < |group| =>
      Object(map["display_path" := Str(group[b].display), "real_path" := Str(group[b].realPath)])))
  }

  /** The document `find_dup` writes for its report items: `null` when
      nothing was pushed, otherwise an object whose `items` holds the groups. */
  function ReportDocument(items: seq<seq<Finder.Pair>>): Json
  {
    if items == [] then Null
    else Object(map["items" := Array(seq(|items|, a requires 0 <= a < |items| => GroupJson(items[a])))])
  }

  /** Given a report of `find_dup` itself, the utility removes nothing and
      exits 1: an empty report has no `items` array, and the first element
      of a non-empty one is a group rather than a path string. */
  lemma {:induction false} ReportIsNotAList(args: seq<string>, items: seq<seq<Finder.Pair>>, existing: set<Path>,
                                            fails: Path -> bool)
    ensures Expected(args, ReportDocument(items), existing, fails).status == Exited(1)
    ensures Expected(args, ReportDocument(items), existing, fails).remaining == existing
  {
    if |args| == 2 && items != [] {
      var elems := Items(ReportDocument(items)).value.elems;
      assert elems[0] == GroupJson(items[0]);
      assert FirstNonString(elems) == 0;
    }
  }

  /** Running the utility a second time on the same list, with the same
      removal failures, removes nothing more. */
  lemma {:induction false} RerunRemovesNothing(args: seq<string>, doc: Json, existing: set<Path>, fails: Path -> bool)
    ensures var once := Expected(args, doc, existing, fails).remaining;
      Expected(args, doc, once, fails).remaining == once
    ensures Expected(args, doc, existing, fails).remaining <= existing
  {
  }
}

=== FILE: filesystem.dfy ===
/** An abstract filesystem: a finite map from path strings to entries, and the
    status queries the program makes of it (`stat`, `std::filesystem`), each
    returning the sentinel the program uses when the query fails. */
module FileSystem {
  import opened Common

  type Path = string

  /** File contents. No real file holds `UINT64_MAX` bytes or more, so a size
      read from a file never collides with the error sentinel. */
  type Content = s: seq<byte> | |s| < UINT64_MAX witness []

  /** A directory entry.
      - `File`: a regular file; `readable` is false when opening it for reading fails.
      - `Dir`: a directory with the names it lists; `listable` is false when
        opening it for iteration fails (for example, permission denied).
      - `Broken`: an entry that a directory listing reports but whose status
        cannot be read; querying its type raises a filesystem error.
      Files and directories both carry the inode number `stat` reports. */
  datatype Entry =
    | File(content: Content, atime: u64, mtime: u64, ctime: u64, inode: u64, readable: bool)
    | Dir(children: seq<Name>, listable: bool, inode: u64)
    | Broken

  /** A name a directory lists: never empty. */
  type Name = s: string | |s| > 0 witness "a"

  type FileSystem = map<Path, Entry>

  /** `dir` already ends in a separator, as the root `/` does. */
  predicate EndsInSeparator(dir: Path)
  {
    |dir| > 0 && dir[|dir| - 1] == '/'
  }

  /** Where the name of an entry of `dir` starts in the entry's path. */
  function NameStart(dir: Path): (k: nat)
    ensures |dir| <= k <= |dir| + 1
    ensures k == |dir| <==> EndsInSeparator(dir)
  {
    if EndsInSeparator(dir) then |dir| else |dir| + 1
  }

  /** The path of entry `name` inside directory `dir`, as `path::operator/`
      forms it: a separator is inserted only when `dir` does not already end
      in one. */
  function Join(dir: Path, name: Name): (p: Path)
    ensures |p| > |dir| && p[..|dir|] == dir && p[NameStart(dir)..] == name
    ensures !EndsInSeparator(dir) ==> p[|dir|] == '/'
  {
    if EndsInSeparator(dir) then dir + name else dir + "/" + name
  }

  /** A name the walker ignores: it starts with a dot. */
  predicate Hidden(name: string)
  {
    |name| > 0 && name[0] == '.'
  }

  predicate Exists(fs: FileSystem, p: Path)
  {
    p in fs
  }

  predicate IsDirectory(fs: FileSystem, p: Path)
  {
    p in fs && fs[p].Dir?
  }

  predicate IsRegularFile(fs: FileSystem, p: Path)
  {
    p in fs && fs[p].File?
  }

  /** `legal_file`: the path exists and is a regular file. */
  predicate LegalFile(fs: FileSystem, p: Path)
  {
    Exists(fs, p) && IsRegularFile(fs, p)
  }

  /** Opening the path as an input stream succeeds. */
  predicate CanOpen(fs: FileSystem, p: Path)
  {
    p in fs && fs[p].File? && fs[p].readable
  }

  /** `safe_file_size`: the size of a regular file, `UINT64_MAX` when the size
      cannot be read. */
  function SafeFileSize(fs: FileSystem, p: Path): (s: u64)
    ensures s == UINT64_MAX <==> !IsRegularFile(fs, p)
    ensures IsRegularFile(fs, p) ==> s == |fs[p].content|
  {
    if IsRegularFile(fs, p) then |fs[p].content| else UINT64_MAX
  }

  /** `Atime`, `Mtime`, `Ctime`: the stat time, 0 when `stat` fails. The
      program only asks them of paths it has just found to be regular files,
      so the model keeps times on files only. */
  function Atime(fs: FileSystem, p: Path): u64
  {
    if IsRegularFile(fs, p) then fs[p].atime else 0
  }

  function Mtime(fs: FileSystem, p: Path): u64
  {
    if IsRegularFile(fs, p) then fs[p].mtime else 0
  }

  function Ctime(fs: FileSystem, p: Path): u64
  {
    if IsRegularFile(fs, p) then fs[p].ctime else 0
  }

  /** `stat` succeeds on the path: it names a file or a directory. */
  predicate Stats(fs: FileSystem, p: Path)
  {
    p in fs && !fs[p].Broken?
  }

  /** `get_inode`: the inode number, `UINT64_MAX` when `stat` fails. */
  function GetInode(fs: FileSystem, p: Path): (ino: u64)
    ensures !Stats(fs, p) ==> ino == UINT64_MAX
    ensures Stats(fs, p) ==> ino == fs[p].inode
  {
    if Stats(fs, p) then fs[p].inode else UINT64_MAX
  }
}

=== FILE: finder.dfy ===
/** `DuplicateFinder::process` end to end: the walk fills the buckets, the
    buckets are taken in ascending key order, every bucket with more than one
    record is grouped, and each reported group becomes a list of
    (display path, real path) pairs. */
module Finder {
  import opened Common
  import opened FileSystem
  import opened FileRecord
  import opened Walker
  import opened Grouping

  /** One entry of a reported group: the path relative to the search root and
      the path as listed. */
  datatype Pair = Pair(display: string, realPath: Path)

  /** `std::filesystem::relative(path, base)`, left abstract. */
  type Relative = (Path, Path) -> string

  // ---------------------------------------------------------------------
  // Bucket order
  // ---------------------------------------------------------------------

  /** The order of `std::pair<uint64_t, uint64_t>`: lexicographic. */
  predicate KeyLess(a: Key, b: Key)
  {
    a.0 < b.0 || (a.0 == b.0 && a.1 < b.1)
  }

  /** The least key of a non-empty set. */
  method MinKey(keys: set<Key>) returns (m: Key)
    requires keys != {}
    ensures m in keys && forall k :: k in keys && k != m ==> KeyLess(m, k)
    decreases |keys|
  {
    var k :| k in keys;
    if keys == {k} {
      m := k;
    } else {
      var m' := MinKey(keys - {k});
      m := if KeyLess(m', k) then m' else k;
      forall k' | k' in keys && k' != m ensures KeyLess(m, k') {
        if k' != k && k' != m' {
          assert k' in keys - {k};
        }
      }
    }
  }

  /** The keys of a `std::map` in the order its iteration visits them. */
  method Ascending(keys: set<Key>) returns (ks: seq<Key>)
    ensures forall k :: k in keys <==> k in ks
    ensures forall a, b :: 0 <= a < b < |ks| ==> KeyLess(ks[a], ks[b])
  {
    ks := [];
    var rest := keys;
    while rest != {}
      invariant rest <= keys
      invariant forall k :: k in keys <==> k in ks || k in rest
      invariant forall a, b :: 0 <= a < b < |ks| ==> KeyLess(ks[a], ks[b])
      invariant forall a, k :: 0 <= a < |ks| && k in rest ==> KeyLess(ks[a], k)
      decreases |rest|
    {
      var m := MinKey(rest);
      ks := ks + [m];
      rest := rest - {m};
    }
  }

  // ---------------------------------------------------------------------
  // Buckets and the accepted files
  // ---------------------------------------------------------------------

  /** The positions in `trace` of the records of the bucket with key `k`. */
  ghost function Origins(trace: seq<Accepted>, k: Key, hasher: Hasher): (o: seq<nat>)
    ensures |o| == |RecordsWithKey(trace, k, hasher)|
    ensures forall x :: 0 <= x < |o| ==>
      o[x] < |trace| && trace[o[x]].record == RecordsWithKey(trace, k, hasher)[x]
    ensures forall x, y :: 0 <= x < y < |o| ==> o[x] < o[y]
    ensures forall m :: 0 <= m < |trace| && KeyOf(trace[m].record, hasher) == k ==> m in o
    decreases |trace|
  {
    if trace == [] then []
    else
      var n := |trace| - 1;
      var front := Origins(trace[..n], k, hasher);
      assert forall m :: 0 <= m < n ==> trace[..n][m] == trace[m];
      front + (if KeyOf(trace[n].record, hasher) == k then [n] else [])
  }

  /** An accepted record is fresh in the walked filesystem: its snapshot
      matches the file and its buffer holds the first block. */
  lemma {:induction false} AcceptedFresh(fs: FileSystem, root: Path, hasher: Hasher, e: Accepted)
    requires AcceptedOk(fs, root, hasher, e)
    ensures Fresh(fs, e.record) && e.record.path == Join(e.dir, e.name)
    ensures |fs[e.record.path].content| == e.record.size
  {
    var p := Join(e.dir, e.name);
    OpenIsUnchanged(fs, p);
  }

  /** Two accepted files with distinct inodes have distinct paths. */
  lemma {:induction false} DistinctInodesDistinctPaths(fs: FileSystem, root: Path, hasher: Hasher, e1: Accepted, e2: Accepted)
    requires AcceptedOk(fs, root, hasher, e1) && AcceptedOk(fs, root, hasher, e2)
    requires e1.inode != e2.inode
    ensures e1.record.path != e2.record.path
  {
    AcceptedFresh(fs, root, hasher, e1);
    AcceptedFresh(fs, root, hasher, e2);
  }

  /** Files listed under distinct paths, both readable, with equal contents. */
  ghost predicate Twins(fs: FileSystem, p: Path, q: Path)
  {
    CanOpen(fs, p) && CanOpen(fs, q) && fs[p].content == fs[q].content
  }

  /** Two accepted files with equal contents land in the same bucket. */
  lemma {:induction false} TwinsShareKey(fs: FileSystem, root: Path, hasher: Hasher, e1: Accepted, e2: Accepted)
    requires AcceptedOk(fs, root, hasher, e1) && AcceptedOk(fs, root, hasher, e2)
    requires Twins(fs, e1.record.path, e2.record.path)
    ensures KeyOf(e1.record, hasher) == KeyOf(e2.record, hasher)
  {
    var p1 := Join(e1.dir, e1.name);
    var p2 := Join(e2.dir, e2.name);
    OpenIsUnchanged(fs, p1);
    OpenIsUnchanged(fs, p2);
    EqualContentsEqualKeys(fs, Open(fs, p1).value, Open(fs, p2).value, hasher);
  }

  /** The paths of the records of a bucket. */
  ghost function PathsOf(bucket: seq<Record>): set<Path>
  {
    set x | 0 <= x < |bucket| :: bucket[x].path
  }

  /** The paths of the accepted files. */
  ghost function AcceptedPaths(trace: seq<Accepted>): set<Path>
  {
    set m | 0 <= m < |trace| :: trace[m].record.path
  }

  /** What the walk guarantees of a bucket: the first block of every record is
      loaded and current, and no path occurs twice. */
  lemma {:induction false} BucketFacts(fs: FileSystem, root: Path, hasher: Hasher, trace: seq<Accepted>, k: Key)
    requires forall m :: 0 <= m < |trace| ==> AcceptedOk(fs, root, hasher, trace[m])
    requires forall m, m' :: 0 <= m < m' < |trace| ==> trace[m].inode != trace[m'].inode
    ensures Sized(RecordsWithKey(trace, k, hasher))
    ensures AllFresh(fs, RecordsWithKey(trace, k, hasher))
    ensures DistinctPaths(RecordsWithKey(trace, k, hasher))
    ensures PathsOf(RecordsWithKey(trace, k, hasher)) <= AcceptedPaths(trace)
  {
    var bucket := RecordsWithKey(trace, k, hasher);
    var o := Origins(trace, k, hasher);
    forall x | 0 <= x < |bucket| ensures Fresh(fs, bucket[x]) && bucket[x].path in AcceptedPaths(trace) {
      AcceptedFresh(fs, root, hasher, trace[o[x]]);
    }
    forall a, b | 0 <= a < b < |bucket| ensures bucket[a].path != bucket[b].path {
      DistinctInodesDistinctPaths(fs, root, hasher, trace[o[a]], trace[o[b]]);
    }
  }

  // ---------------------------------------------------------------------
  // Reported items
  // ---------------------------------------------------------------------

  /** The real paths of an item, in order. */
  function Reals(item: seq<Pair>): (ps: seq<Path>)
    ensures |ps| == |item|
    ensures forall m :: 0 <= m < |item| ==> ps[m] == item[m].realPath
  {
    seq(|item|, m requires 0 <= m < |item| => item[m].realPath)
  }

  /** The JSON array of one group: each member's path relative to the root
      and its path as listed. */
  function RenderGroup(bucket: seq<Record>, g: seq<nat>, root: Path, rel: Relative): (item: seq<Pair>)
    requires forall m :: 0 <= m < |g| ==> g[m] < |bucket|
    ensures |item| == |g|
    ensures forall m :: 0 <= m < |g| ==> item[m].realPath == bucket[g[m]].path
    ensures forall m :: 0 <= m < |g| ==> item[m].display == rel(item[m].realPath, root)
  {
    seq(|g|, m requires 0 <= m < |g| => Pair(rel(bucket[g[m]].path, root), bucket[g[m]].path))
  }

  /** An item lists at least two files, each drawn from `paths` and displayed
      relative to the root, none twice. */
  ghost predicate ItemFrom(item: seq<Pair>, paths: set<Path>, root: Path, rel: Relative)
  {
    && |item| >= 2
    && (forall m :: 0 <= m < |item| ==>
          item[m].realPath in paths && item[m].display == rel(item[m].realPath, root))
    && (forall m, m' :: 0 <= m < m' < |item| ==> item[m].realPath != item[m'].realPath)
  }

  /** Every file of an item can be read and has the contents of the first. */
  ghost predicate SameContents(fs: FileSystem, item: seq<Pair>)
  {
    |item| > 0 && forall m :: 0 <= m < |item| ==> Twins(fs, item[0].realPath, item[m].realPath)
  }

  /** Files `p` and `q` held the same bytes at some instant from `t0` on,
      and neither size had moved when they were checked again. */
  ghost predicate MatchedSince(sched: Schedule, t0: nat, p: Path, q: Path)
  {
    exists u: nat :: t0 <= u && SameBytes(sched(u), sched(u + 1), p, q)
  }

  /** Every file of an item after the first matched the first at some instant
      from `t0` on. */
  ghost predicate ItemMatched(sched: Schedule, t0: nat, item: seq<Pair>)
  {
    forall m :: 1 <= m < |item| ==> MatchedSince(sched, t0, item[0].realPath, item[m].realPath)
  }

  /** A match from a later instant on is a match from an earlier one. */
  lemma {:induction false} ItemMatchedEarlier(sched: Schedule, t0: nat, t1: nat, item: seq<Pair>)
    requires t0 <= t1 && ItemMatched(sched, t1, item)
    ensures ItemMatched(sched, t0, item)
  {
    forall m | 1 <= m < |item| ensures MatchedSince(sched, t0, item[0].realPath, item[m].realPath) {
      var u: nat :| t1 <= u && SameBytes(sched(u), sched(u + 1), item[0].realPath, item[m].realPath);
    }
  }

  /** Some item lists both `p` and `q`. */
  ghost predicate Covers(items: seq<seq<Pair>>, p: Path, q: Path)
  {
    exists a :: 0 <= a < |items| && p in Reals(items[a]) && q in Reals(items[a])
  }

  lemma {:induction false} CoversGrows(items: seq<seq<Pair>>, more: seq<seq<Pair>>, p: Path, q: Path)
    requires Covers(items, p, q) || Covers(more, p, q)
    ensures Covers(items + more, p, q)
  {
    if Covers(items, p, q) {
      var a :| 0 <= a < |items| && p in Reals(items[a]) && q in Reals(items[a]);
      assert (items + more)[a] == items[a];
    } else {
      var a :| 0 <= a < |more| && p in Reals(more[a]) && q in Reals(more[a]);
      assert (items + more)[|items| + a] == more[a];
    }
  }

  /** The groups a bucket emits, each with more than one index below `n`, no
      index twice. */
  ghost predicate EmittedShape(emitted: seq<seq<nat>>, n: nat)
  {
    forall a :: 0 <= a < |emitted| ==> GroupShape(emitted[a], n) && |emitted[a]| > 1
  }

  lemma {:induction false} EmittedIsShaped(groups: seq<seq<nat>>, emitted: seq<seq<nat>>, n: nat)
    requires forall k :: 0 <= k < |groups| ==> GroupShape(groups[k], n)
    requires forall g :: g in emitted <==> g in groups && |g| > 1
    ensures EmittedShape(emitted, n)
  {
    forall a | 0 <= a < |emitted| ensures GroupShape(emitted[a], n) && |emitted[a]| > 1 {
      assert emitted[a] in groups;
    }
  }

  function RenderAll(bucket: seq<Record>, emitted: seq<seq<nat>>, root: Path, rel: Relative): (items: seq<seq<Pair>>)
    requires EmittedShape(emitted, |bucket|)
    ensures |items| == |emitted|
    ensures forall a :: 0 <= a < |emitted| ==> items[a] == RenderGroup(bucket, emitted[a], root, rel)
  {
    seq(|emitted|, a requires 0 <= a < |emitted| => RenderGroup(bucket, emitted[a], root, rel))
  }

  lemma {:induction false} RenderedFrom(bucket: seq<Record>, emitted: seq<seq<nat>>, root: Path, rel: Relative)
    requires DistinctPaths(bucket) && EmittedShape(emitted, |bucket|)
    ensures forall a :: 0 <= a < |emitted| ==>
      ItemFrom(RenderAll(bucket, emitted, root, rel)[a], PathsOf(bucket), root, rel)
  {
    var items := RenderAll(bucket, emitted, root, rel);
    forall a | 0 <= a < |emitted| ensures ItemFrom(items[a], PathsOf(bucket), root, rel) {
      var g := emitted[a];
      forall m | 0 <= m < |g| ensures items[a][m].realPath in PathsOf(bucket) {
        assert items[a][m].realPath == bucket[g[m]].path;
      }
    }
  }

  /** Two distinct records of a bucket share an identity exactly when their
      files are twins. */
  lemma {:induction false} IdentityTwins(fs: FileSystem, bucket: seq<Record>, x: nat, y: nat)
    requires x < |bucket| && y < |bucket| && x != y
    ensures Identities(fs, bucket)[x] == Identities(fs, bucket)[y] <==>
      Twins(fs, bucket[x].path, bucket[y].path)
  {
    var keys := Identities(fs, bucket);
    assert keys[x] == IdentityOf(fs, bucket[x].path, x);
    assert keys[y] == IdentityOf(fs, bucket[y].path, y);
  }

  /** A readable file's identity is shared exactly by its twins. */
  lemma {:induction false} SameIdentityTwin(fs: FileSystem, bucket: seq<Record>, x: nat, y: nat)
    requires x < |bucket| && y < |bucket| && CanOpen(fs, bucket[x].path)
    ensures Identities(fs, bucket)[x] == Identities(fs, bucket)[y] <==>
      Twins(fs, bucket[x].path, bucket[y].path)
  {
    var keys := Identities(fs, bucket);
    assert keys[x] == IdentityOf(fs, bucket[x].path, x);
    assert keys[y] == IdentityOf(fs, bucket[y].path, y);
  }

  /** The members of a static group share the identity of its first. */
  lemma {:induction false} StaticGroupSame(keys: seq<Identity>, g: seq<nat>)
    requires g in StaticGroups(keys, |keys|)
    ensures |g| > 0 && g[0] < |keys|
    ensures forall m :: 0 <= m < |g| ==> g[m] < |keys| && keys[g[m]] == keys[g[0]]
  {
    StaticGroupsAreClasses(keys, |keys|);
    var r :| 0 <= r < |keys| && Rep(keys, r) == r && g == ClassOf(keys, r);
    ClassOfMembers(keys, r);
  }

  /** In a world that holds still, every file of a static group with more
      than one member is readable and has the contents of the first: an
      unreadable file is a group of its own. */
  lemma {:induction false} StaticGroupTwins(fs: FileSystem, bucket: seq<Record>, g: seq<nat>)
    requires g in StaticGroups(Identities(fs, bucket), |bucket|)
    requires |g| > 1 && GroupShape(g, |bucket|)
    ensures forall m :: 0 <= m < |g| ==> Twins(fs, bucket[g[0]].path, bucket[g[m]].path)
  {
    StaticGroupSame(Identities(fs, bucket), g);
    IdentityTwins(fs, bucket, g[0], g[1]);
    forall m | 0 <= m < |g| ensures Twins(fs, bucket[g[0]].path, bucket[g[m]].path) {
      SameIdentityTwin(fs, bucket, g[0], g[m]);
    }
  }

  lemma {:induction false} RenderedSame(fs: FileSystem, bucket: seq<Record>, emitted: seq<seq<nat>>, root: Path, rel: Relative)
    requires EmittedShape(emitted, |bucket|)
    requires forall a :: 0 <= a < |emitted| ==> emitted[a] in StaticGroups(Identities(fs, bucket), |bucket|)
    ensures forall a :: 0 <= a < |emitted| ==> SameContents(fs, RenderAll(bucket, emitted, root, rel)[a])
  {
    var items := RenderAll(bucket, emitted, root, rel);
    forall a | 0 <= a < |emitted| ensures SameContents(fs, items[a]) {
      StaticGroupTwins(fs, bucket, emitted[a]);
    }
  }

  /** In a world that holds still, two distinct files of a bucket with equal
      contents are listed together by some rendered group. */
  lemma {:induction false} RenderedCovers(fs: FileSystem, bucket: seq<Record>, emitted: seq<seq<nat>>, root: Path, rel: Relative)
    requires EmittedShape(emitted, |bucket|)
    requires forall g :: g in StaticGroups(Identities(fs, bucket), |bucket|) && |g| > 1 ==> g in emitted
    ensures forall x, y ::
      0 <= x < |bucket| && 0 <= y < |bucket| && x != y && Twins(fs, bucket[x].path, bucket[y].path) ==>
      Covers(RenderAll(bucket, emitted, root, rel), bucket[x].path, bucket[y].path)
  {
    forall x, y | 0 <= x < |bucket| && 0 <= y < |bucket| && x != y && Twins(fs, bucket[x].path, bucket[y].path)
      ensures Covers(RenderAll(bucket, emitted, root, rel), bucket[x].path, bucket[y].path)
    {
      PairCovered(fs, bucket, emitted, root, rel, x, y);
    }
  }

  lemma {:induction false} PairCovered(fs: FileSystem, bucket: seq<Record>, emitted: seq<seq<nat>>, root: Path, rel: Relative, x: nat, y: nat)
    requires EmittedShape(emitted, |bucket|)
    requires forall g :: g in StaticGroups(Identities(fs, bucket), |bucket|) && |g| > 1 ==> g in emitted
    requires x < |bucket| && y < |bucket| && x != y && Twins(fs, bucket[x].path, bucket[y].path)
    ensures Covers(RenderAll(bucket, emitted, root, rel), bucket[x].path, bucket[y].path)
  {
    var keys := Identities(fs, bucket);
    IdentityTwins(fs, bucket, x, y);
    SharedClass(keys, x, y);
    var g := ClassOf(keys, Rep(keys, x));
    var a :| 0 <= a < |emitted| && emitted[a] == g;
    GroupCovers(bucket, emitted, root, rel, a, x, y);
  }

  /** Two distinct indices with the same identity share a static group. */
  lemma {:induction false} SharedClass(keys: seq<Identity>, x: nat, y: nat)
    requires x < |keys| && y < |keys| && x != y && keys[x] == keys[y]
    ensures ClassOf(keys, Rep(keys, x)) in StaticGroups(keys, |keys|)
    ensures x in ClassOf(keys, Rep(keys, x)) && y in ClassOf(keys, Rep(keys, x))
    ensures |ClassOf(keys, Rep(keys, x))| > 1
  {
    var r := Rep(keys, x);
    assert Rep(keys, y) == r;
    RepIsRep(keys, x);
    ClassInStaticGroups(keys, r, |keys|);
    ClassOfMembers(keys, r);
    var g := ClassOf(keys, r);
    assert x in g && y in g;
    var mx :| 0 <= mx < |g| && g[mx] == x;
    var my :| 0 <= my < |g| && g[my] == y;
    assert mx != my;
  }

  /** A rendered group lists the paths of all its members. */
  lemma {:induction false} GroupCovers(bucket: seq<Record>, emitted: seq<seq<nat>>, root: Path, rel: Relative, a: nat, x: nat, y: nat)
    requires EmittedShape(emitted, |bucket|)
    requires a < |emitted| && x in emitted[a] && y in emitted[a]
    ensures x < |bucket| && y < |bucket|
    ensures Covers(RenderAll(bucket, emitted, root, rel), bucket[x].path, bucket[y].path)
  {
    var items := RenderAll(bucket, emitted, root, rel);
    var g := emitted[a];
    var mx :| 0 <= mx < |g| && g[mx] == x;
    var my :| 0 <= my < |g| && g[my] == y;
    assert Reals(items[a])[mx] == bucket[x].path;
    assert Reals(items[a])[my] == bucket[y].path;
    assert 0 <= a < |items| && bucket[x].path in Reals(items[a]) && bucket[y].path in Reals(items[a]);
  }

  /** Rendering groups whose members joined their leaders yields items whose
      files matched the first. */
  lemma {:induction false} RenderedMatched(sched: Schedule, t0: nat, bucket: seq<Record>, groups: seq<seq<nat>>,
                                           emitted: seq<seq<nat>>, root: Path, rel: Relative)
    requires EmittedShape(emitted, |bucket|)
    requires forall g :: g in emitted ==> g in groups
    requires forall k, m :: 0 <= k < |groups| && 1 <= m < |groups[k]| ==>
      Joined(sched, bucket, groups[k][0], groups[k][m], t0)
    ensures forall a :: 0 <= a < |emitted| ==> ItemMatched(sched, t0, RenderAll(bucket, emitted, root, rel)[a])
  {
    var items := RenderAll(bucket, emitted, root, rel);
    forall a | 0 <= a < |emitted| ensures ItemMatched(sched, t0, items[a]) {
      var g := emitted[a];
      assert g in groups;
      var k :| 0 <= k < |groups| && groups[k] == g;
      forall m | 1 <= m < |items[a]| ensures MatchedSince(sched, t0, items[a][0].realPath, items[a][m].realPath) {
        assert Joined(sched, bucket, g[0], g[m], t0);
        var u: nat :| t0 <= u && JoinedAt(sched, bucket, g[0], g[m], u);
        assert SameBytes(sched(u + 2), sched(u + 2 + 1), items[a][0].realPath, items[a][m].realPath);
      }
    }
  }

  /** Records with the same paths render the same way. */
  lemma {:induction false} RenderSamePaths(b1: seq<Record>, b2: seq<Record>, emitted: seq<seq<nat>>, root: Path, rel: Relative)
    requires RefinesAll(b1, b2) && EmittedShape(emitted, |b1|)
    ensures RenderAll(b1, emitted, root, rel) == RenderAll(b2, emitted, root, rel)
  {
    var i1 := RenderAll(b1, emitted, root, rel);
    var i2 := RenderAll(b2, emitted, root, rel);
    forall a | 0 <= a < |emitted| ensures i1[a] == i2[a] {
      var g := emitted[a];
      forall m | 0 <= m < |g| ensures i1[a][m] == i2[a][m] {
        assert Refines(b1[g[m]], b2[g[m]]);
      }
    }
  }

  // ---------------------------------------------------------------------
  // One bucket
  // ---------------------------------------------------------------------

  /** One bucket of more than one record: group it, then render every group
      the emission loop pushes, in the order it pushes them. */
  method ReportBucket(bucket: seq<Record>, sched: Schedule, t: nat, hasher: Hasher, root: Path, rel: Relative)
    returns (rendered: seq<seq<Pair>>, t': nat)
    requires Sized(bucket) && DistinctPaths(bucket)
    ensures t' >= t
    // every item lists at least two distinct files of the bucket
    ensures forall a :: 0 <= a < |rendered| ==> ItemFrom(rendered[a], PathsOf(bucket), root, rel)
    // when nothing changes: every item lists readable files with equal contents ...
    ensures Quiet(sched, bucket) ==>
      forall a :: 0 <= a < |rendered| ==> SameContents(sched(0), rendered[a])
    // ... and every two such files of the bucket appear in a common item
    ensures Quiet(sched, bucket) ==> forall x, y ::
      0 <= x < |bucket| && 0 <= y < |bucket| && x != y && Twins(sched(0), bucket[x].path, bucket[y].path) ==>
      Covers(rendered, bucket[x].path, bucket[y].path)
    // in any world: every file of an item matched the item's first file at
    // some instant from t on
    ensures forall a :: 0 <= a < |rendered| ==> ItemMatched(sched, t, rendered[a])
  {
    var bucket', groups, emitted, t1, started := GroupBucket(bucket, sched, t, hasher);
    EmittedIsShaped(groups, emitted, |bucket|);
    rendered := RenderAll(bucket', emitted, root, rel);
    t' := t1;
    RenderSamePaths(bucket, bucket', emitted, root, rel);
    RenderedFrom(bucket, emitted, root, rel);
    RenderedMatched(sched, t, bucket, groups, emitted, root, rel);
    if Quiet(sched, bucket) {
      RenderedSame(sched(0), bucket, emitted, root, rel);
      RenderedCovers(sched(0), bucket, emitted, root, rel);
    }
  }

  // ---------------------------------------------------------------------
  // The whole run
  // ---------------------------------------------------------------------

  lemma {:induction false} ItemFromWider(item: seq<Pair>, p1: set<Path>, p2: set<Path>, root: Path, rel: Relative)
    requires ItemFrom(item, p1, root, rel) && p1 <= p2
    ensures ItemFrom(item, p2, root, rel)
  {
  }

  /** What holds once the buckets of the first `x` keys have been reported. */
  ghost predicate ProcessOk(sched: Schedule, root: Path, hasher: Hasher, rel: Relative,
                            trace: seq<Accepted>, keys: seq<Key>, x: nat, items: seq<seq<Pair>>)
    requires x <= |keys|
  {
    && (forall a :: 0 <= a < |items| ==> ItemFrom(items[a], AcceptedPaths(trace), root, rel))
    && (Static(sched) ==> forall a :: 0 <= a < |items| ==> SameContents(sched(0), items[a]))
    && (Static(sched) ==> forall m, m' ::
          0 <= m < |trace| && 0 <= m' < |trace| && m != m' &&
          KeyOf(trace[m].record, hasher) in keys[..x] &&
          Twins(sched(0), trace[m].record.path, trace[m'].record.path) ==>
          Covers(items, trace[m].record.path, trace[m'].record.path))
  }

  /** What the walk guarantees of the trace. */
  ghost predicate WalkOk(fs: FileSystem, root: Path, hasher: Hasher, trace: seq<Accepted>)
  {
    && (forall m :: 0 <= m < |trace| ==> AcceptedOk(fs, root, hasher, trace[m]))
    && (forall m, m' :: 0 <= m < m' < |trace| ==> trace[m].inode != trace[m'].inode)
  }

  /** Two twins in the trace sit at distinct positions of their common bucket. */
  lemma {:induction false} TwinsInBucket(fs: FileSystem, root: Path, hasher: Hasher, trace: seq<Accepted>, m: nat, m': nat)
    requires WalkOk(fs, root, hasher, trace)
    requires m < |trace| && m' < |trace| && m != m'
    requires Twins(fs, trace[m].record.path, trace[m'].record.path)
    ensures var bucket := RecordsWithKey(trace, KeyOf(trace[m].record, hasher), hasher);
      exists x, y :: 0 <= x < |bucket| && 0 <= y < |bucket| && x != y &&
        bucket[x] == trace[m].record && bucket[y] == trace[m'].record
  {
    var k := KeyOf(trace[m].record, hasher);
    TwinsShareKey(fs, root, hasher, trace[m], trace[m']);
    var o := Origins(trace, k, hasher);
    assert m in o && m' in o;
    var x :| 0 <= x < |o| && o[x] == m;
    var y :| 0 <= y < |o| && o[y] == m';
    assert RecordsWithKey(trace, k, hasher)[x] == trace[m].record;
    assert RecordsWithKey(trace, k, hasher)[y] == trace[m'].record;
  }

  /** Two distinct accepted twins make their bucket hold at least two records. */
  lemma {:induction false} TwinsShareBucket(fs: FileSystem, root: Path, hasher: Hasher, trace: seq<Accepted>, m: nat, m': nat)
    requires WalkOk(fs, root, hasher, trace)
    requires m < |trace| && m' < |trace| && m != m'
    requires Twins(fs, trace[m].record.path, trace[m'].record.path)
    ensures |RecordsWithKey(trace, KeyOf(trace[m].record, hasher), hasher)| >= 2
  {
    TwinsInBucket(fs, root, hasher, trace, m, m');
  }

  /** What reporting one bucket guarantees: the contract of `ReportBucket`. */
  ghost predicate BucketReported(sched: Schedule, root: Path, rel: Relative, bucket: seq<Record>, rendered: seq<seq<Pair>>)
  {
    && (forall a :: 0 <= a < |rendered| ==> ItemFrom(rendered[a], PathsOf(bucket), root, rel))
    && (Quiet(sched, bucket) ==> forall a :: 0 <= a < |rendered| ==> SameContents(sched(0), rendered[a]))
    && (Quiet(sched, bucket) ==> forall x, y ::
          0 <= x < |bucket| && 0 <= y < |bucket| && x != y && Twins(sched(0), bucket[x].path, bucket[y].path) ==>
          Covers(rendered, bucket[x].path, bucket[y].path))
  }

  /** Reporting the bucket of key `keys[x]` extends the items by `rendered`. */
  lemma {:induction false} ProcessStep(sched: Schedule, root: Path, hasher: Hasher, rel: Relative,
                                       trace: seq<Accepted>, keys: seq<Key>, x: nat, items: seq<seq<Pair>>,
                                       rendered: seq<seq<Pair>>)
    requires x < |keys| && WalkOk(sched(0), root, hasher, trace)
    requires ProcessOk(sched, root, hasher, rel, trace, keys, x, items)
    requires BucketReported(sched, root, rel, RecordsWithKey(trace, keys[x], hasher), rendered)
    ensures ProcessOk(sched, root, hasher, rel, trace, keys, x + 1, items + rendered)
  {
    var bucket := RecordsWithKey(trace, keys[x], hasher);
    BucketFacts(sched(0), root, hasher, trace, keys[x]);
    StepItems(sched, root, rel, trace, bucket, items, rendered);
    if Static(sched) {
      assert Quiet(sched, bucket);
      StepPairs(sched(0), root, hasher, trace, keys, x, items, rendered);
    }
  }

  lemma {:induction false} StepItems(sched: Schedule, root: Path, rel: Relative, trace: seq<Accepted>,
                                     bucket: seq<Record>, items: seq<seq<Pair>>, rendered: seq<seq<Pair>>)
    requires PathsOf(bucket) <= AcceptedPaths(trace)
    requires forall a :: 0 <= a < |items| ==> ItemFrom(items[a], AcceptedPaths(trace), root, rel)
    requires Static(sched) ==> forall a :: 0 <= a < |items| ==> SameContents(sched(0), items[a])
    requires BucketReported(sched, root, rel, bucket, rendered)
    requires Static(sched) ==> Quiet(sched, bucket)
    ensures forall a :: 0 <= a < |items + rendered| ==> ItemFrom((items + rendered)[a], AcceptedPaths(trace), root, rel)
    ensures Static(sched) ==> forall a :: 0 <= a < |items + rendered| ==> SameContents(sched(0), (items + rendered)[a])
  {
    var all := items + rendered;
    forall a | 0 <= a < |all| ensures ItemFrom(all[a], AcceptedPaths(trace), root, rel) {
      if a >= |items| {
        assert all[a] == rendered[a - |items|];
        ItemFromWider(all[a], PathsOf(bucket), AcceptedPaths(trace), root, rel);
      }
    }
    if Static(sched) {
      forall a | 0 <= a < |all| ensures SameContents(sched(0), all[a]) {
        if a >= |items| {
          assert all[a] == rendered[a - |items|];
        }
      }
    }
  }

  lemma {:induction false} StepPairs(fs: FileSystem, root: Path, hasher: Hasher, trace: seq<Accepted>, keys: seq<Key>, x: nat,
                                     items: seq<seq<Pair>>, rendered: seq<seq<Pair>>)
    requires x < |keys| && WalkOk(fs, root, hasher, trace)
    requires forall m, m' ::
      0 <= m < |trace| && 0 <= m' < |trace| && m != m' &&
      KeyOf(trace[m].record, hasher) in keys[..x] &&
      Twins(fs, trace[m].record.path, trace[m'].record.path) ==>
      Covers(items, trace[m].record.path, trace[m'].record.path)
    requires var bucket := RecordsWithKey(trace, keys[x], hasher);
      forall x, y ::
        0 <= x < |bucket| && 0 <= y < |bucket| && x != y && Twins(fs, bucket[x].path, bucket[y].path) ==>
        Covers(rendered, bucket[x].path, bucket[y].path)
    ensures forall m, m' ::
      0 <= m < |trace| && 0 <= m' < |trace| && m != m' &&
      KeyOf(trace[m].record, hasher) in keys[..x + 1] &&
      Twins(fs, trace[m].record.path, trace[m'].record.path) ==>
      Covers(items + rendered, trace[m].record.path, trace[m'].record.path)
  {
    assert keys[..x + 1] == keys[..x] + [keys[x]];
    forall m, m' | 0 <= m < |trace| && 0 <= m' < |trace| && m != m' &&
        KeyOf(trace[m].record, hasher) in keys[..x + 1] &&
        Twins(fs, trace[m].record.path, trace[m'].record.path)
      ensures Covers(items + rendered, trace[m].record.path, trace[m'].record.path)
    {
      if KeyOf(trace[m].record, hasher) !in keys[..x] {
        NewPairCovered(fs, root, hasher, trace, keys[x], rendered, m, m');
      }
      CoversGrows(items, rendered, trace[m].record.path, trace[m'].record.path);
    }
  }

  lemma {:induction false} NewPairCovered(fs: FileSystem, root: Path, hasher: Hasher, trace: seq<Accepted>, k: Key,
                                          rendered: seq<seq<Pair>>, m: nat, m': nat)
    requires WalkOk(fs, root, hasher, trace)
    requires m < |trace| && m' < |trace| && m != m' && KeyOf(trace[m].record, hasher) == k
    requires Twins(fs, trace[m].record.path, trace[m'].record.path)
    requires var bucket := RecordsWithKey(trace, k, hasher);
      forall x, y ::
        0 <= x < |bucket| && 0 <= y < |bucket| && x != y && Twins(fs, bucket[x].path, bucket[y].path) ==>
        Covers(rendered, bucket[x].path, bucket[y].path)
    ensures Covers(rendered, trace[m].record.path, trace[m'].record.path)
  {
    var bucket := RecordsWithKey(trace, k, hasher);
    TwinsInBucket(fs, root, hasher, trace, m, m');
    var x, y :| 0 <= x < |bucket| && 0 <= y < |bucket| && x != y &&
      bucket[x] == trace[m].record && bucket[y] == trace[m'].record;
  }

  /** Items matched from instant 1 on, followed by items matched from a later
      instant on, all matched from instant 1 on. */
  lemma {:induction false} MatchedAppend(sched: Schedule, t: nat, items: seq<seq<Pair>>, rendered: seq<seq<Pair>>)
    requires t >= 1
    requires forall a :: 0 <= a < |items| ==> ItemMatched(sched, 1, items[a])
    requires forall a :: 0 <= a < |rendered| ==> ItemMatched(sched, t, rendered[a])
    ensures forall a :: 0 <= a < |items + rendered| ==> ItemMatched(sched, 1, (items + rendered)[a])
  {
    forall a | 0 <= a < |items + rendered| ensures ItemMatched(sched, 1, (items + rendered)[a]) {
      if a < |items| {
        assert (items + rendered)[a] == items[a];
      } else {
        assert (items + rendered)[a] == rendered[a - |items|];
        ItemMatchedEarlier(sched, 1, t, rendered[a - |items|]);
      }
    }
  }

  /** A key among the first `x + 1` keys but not the first `x` is key `x`. */
  lemma {:induction false} NewKeyIsLast(keys: seq<Key>, x: nat, k: Key)
    requires x < |keys| && k in keys[..x + 1] && k !in keys[..x]
    ensures k == keys[x]
  {
    assert keys[..x + 1] == keys[..x] + [keys[x]];
  }

  /** A bucket of at most one record holds no two twins. */
  lemma {:induction false} ProcessSkip(sched: Schedule, root: Path, hasher: Hasher, rel: Relative,
                                       trace: seq<Accepted>, keys: seq<Key>, x: nat, items: seq<seq<Pair>>)
    requires x < |keys| && WalkOk(sched(0), root, hasher, trace)
    requires ProcessOk(sched, root, hasher, rel, trace, keys, x, items)
    requires |RecordsWithKey(trace, keys[x], hasher)| <= 1
    ensures ProcessOk(sched, root, hasher, rel, trace, keys, x + 1, items)
  {
    if Static(sched) {
      forall m, m' | 0 <= m < |trace| && 0 <= m' < |trace| && m != m' &&
          KeyOf(trace[m].record, hasher) in keys[..x + 1] &&
          Twins(sched(0), trace[m].record.path, trace[m'].record.path)
        ensures Covers(items, trace[m].record.path, trace[m'].record.path)
      {
        if KeyOf(trace[m].record, hasher) !in keys[..x] {
          NewKeyIsLast(keys, x, KeyOf(trace[m].record, hasher));
          TwinsShareBucket(sched(0), root, hasher, trace, m, m');
          assert false;
        }
      }
    }
  }

  /** Once every key is done, every key of the trace has been covered. */
  lemma {:induction false} ProcessDone(sched: Schedule, root: Path, hasher: Hasher, rel: Relative,
                                       trace: seq<Accepted>, buckets: map<Key, seq<Record>>,
                                       keys: seq<Key>, items: seq<seq<Pair>>)
    requires forall k :: RecordsWithKey(trace, k, hasher) != [] ==> k in buckets
    requires forall k :: k in buckets.Keys <==> k in keys
    requires ProcessOk(sched, root, hasher, rel, trace, keys, |keys|, items)
    ensures Static(sched) ==> forall m, m' ::
      0 <= m < |trace| && 0 <= m' < |trace| && m != m' &&
      Twins(sched(0), trace[m].record.path, trace[m'].record.path) ==>
      Covers(items, trace[m].record.path, trace[m'].record.path)
  {
    assert keys[..|keys|] == keys;
    forall m | 0 <= m < |trace| ensures KeyOf(trace[m].record, hasher) in keys {
      var k := KeyOf(trace[m].record, hasher);
      var o := Origins(trace, k, hasher);
      assert m in o;
    }
  }

  /** `DuplicateFinder::process`: walk the tree under `root` in the filesystem
      as it stands at instant 0, then report the buckets in ascending key
      order, grouping from instant 1 on. Returns `output["items"]`, and the
      accepted files as a ghost. */
  method Process(sched: Schedule, root: Path, hasher: Hasher, rel: Relative)
    returns (items: seq<seq<Pair>>, ghost trace: seq<Accepted>)
    // the accepted files are those the walk admitted, one per inode
    ensures WalkOk(sched(0), root, hasher, trace)
    // every item lists at least two distinct accepted files
    ensures forall a :: 0 <= a < |items| ==> ItemFrom(items[a], AcceptedPaths(trace), root, rel)
    // when nothing changes: every item lists readable files with equal contents ...
    ensures Static(sched) ==> forall a :: 0 <= a < |items| ==> SameContents(sched(0), items[a])
    // ... and every two accepted files with equal contents appear in a common item
    ensures Static(sched) ==> forall m, m' ::
      0 <= m < |trace| && 0 <= m' < |trace| && m != m' &&
      Twins(sched(0), trace[m].record.path, trace[m'].record.path) ==>
      Covers(items, trace[m].record.path, trace[m'].record.path)
    // in any world: every file of an item matched the item's first file at
    // some instant after the walk
    ensures forall a :: 0 <= a < |items| ==> ItemMatched(sched, 1, items[a])
    // a root inside the excluded directory reports nothing
    ensures Contains(root, ExcludedDir) ==> items == []
  {
    var buckets;
    buckets, trace := Walk(sched(0), root, hasher);
    var keys := Ascending(buckets.Keys);
    items := [];
    var t := 1;
    var x := 0;
    while x < |keys|
      invariant x <= |keys|
      invariant ProcessOk(sched, root, hasher, rel, trace, keys, x, items)
      invariant trace == [] ==> items == []
      invariant t >= 1 && forall a :: 0 <= a < |items| ==> ItemMatched(sched, 1, items[a])
    {
      var bucket := buckets[keys[x]];
      BucketFacts(sched(0), root, hasher, trace, keys[x]);
      if |bucket| > 1 {
        var rendered, t' := ReportBucket(bucket, sched, t, hasher, root, rel);
        ProcessStep(sched, root, hasher, rel, trace, keys, x, items, rendered);
        MatchedAppend(sched, t, items, rendered);
        items := items + rendered;
        t := t';
      } else {
        ProcessSkip(sched, root, hasher, rel, trace, keys, x, items);
      }
      x := x + 1;
    }
    ProcessDone(sched, root, hasher, rel, trace, buckets, keys, items);
  }
}

=== FILE: grouping.dfy ===
/** The leader-based grouping of one bucket in `DuplicateFinder::process`,
    and the emission of groups into the report as the program writes it.

    The filesystem may change while the bucket is processed (another process
    writing to it). A schedule gives the filesystem at every instant; each
    `changed()` call reads one instant and each `compare` reads two (the
    second is the deep comparison's re-read of the sizes). A world that holds
    still is a constant schedule. */
module Grouping {
  import opened Common
  import opened FileSystem
  import opened ByteCompare
  import opened FileRecord

  type Schedule = nat -> FileSystem

  /** The filesystem never changes. */
  ghost predicate Static(sched: Schedule)
  {
    forall u: nat :: sched(u) == sched(0)
  }

  // ---------------------------------------------------------------------
  // Reference: the groups a bucket has when nothing changes
  // ---------------------------------------------------------------------

  /** What decides whether two distinct records of a bucket compare equal in
      a filesystem that holds still: the contents of a readable file; an
      unreadable file equals nothing but itself. */
  datatype Identity = Readable(content: seq<byte>) | Unreadable(index: nat)

  /** The identity of the file at `p`, the `k`-th of its bucket. */
  function IdentityOf(fs: FileSystem, p: Path, k: nat): Identity
  {
    if CanOpen(fs, p) then Readable(fs[p].content) else Unreadable(k)
  }

  function Identities(fs: FileSystem, bucket: seq<Record>): (keys: seq<Identity>)
    ensures |keys| == |bucket|
    ensures forall k :: 0 <= k < |bucket| ==> keys[k] == IdentityOf(fs, bucket[k].path, k)
  {
    seq(|bucket|, k requires 0 <= k < |bucket| => IdentityOf(fs, bucket[k].path, k))
  }

  /** The first index holding `x`. */
  function FirstIndex(keys: seq<Identity>, x: Identity): (r: nat)
    requires x in keys
    ensures r < |keys| && keys[r] == x
    ensures forall k :: 0 <= k < r ==> keys[k] != x
  {
    if keys[0] == x then 0 else 1 + FirstIndex(keys[1..], x)
  }

  /** The representative of index `j`: the first index with the same identity. */
  function Rep(keys: seq<Identity>, j: nat): (r: nat)
    requires j < |keys|
    ensures r <= j && keys[r] == keys[j]
    ensures forall k :: 0 <= k < r ==> keys[k] != keys[j]
  {
    FirstIndex(keys, keys[j])
  }

  /** The indices in `[lo, hi)` whose identity is `x`, in increasing order. */
  function ClassBetween(keys: seq<Identity>, x: Identity, lo: nat, hi: nat): (c: seq<nat>)
    requires hi <= |keys|
    ensures forall m :: 0 <= m < |c| ==> lo <= c[m] < hi && keys[c[m]] == x
    ensures forall m, m' :: 0 <= m < m' < |c| ==> c[m] < c[m']
    ensures forall k :: lo <= k < hi && keys[k] == x ==> k in c
    decreases hi
  {
    if hi <= lo then [] else ClassBetween(keys, x, lo, hi - 1) + (if keys[hi - 1] == x then [hi - 1] else [])
  }

  /** The group led by representative `l`: `l` followed by the later indices
      with its identity. */
  function ClassOf(keys: seq<Identity>, l: nat): seq<nat>
    requires l < |keys|
  {
    [l] + ClassBetween(keys, keys[l], l + 1, |keys|)
  }

  /** The groups of the first `i` leaders, when nothing changes. */
  function StaticGroups(keys: seq<Identity>, i: nat): seq<seq<nat>>
    requires i <= |keys|
  {
    if i == 0 then []
    else StaticGroups(keys, i - 1) + (if Rep(keys, i - 1) == i - 1 then [ClassOf(keys, i - 1)] else [])
  }

  /** The leaders among the first `i` indices, when nothing changes. */
  function StaticLeaders(keys: seq<Identity>, i: nat): seq<nat>
    requires i <= |keys|
  {
    if i == 0 then []
    else StaticLeaders(keys, i - 1) + (if Rep(keys, i - 1) == i - 1 then [i - 1] else [])
  }

  /** The indices marked checked once the first `i` leaders are done, when
      nothing changes: those that joined an earlier leader. */
  ghost function StaticChecked(keys: seq<Identity>, i: nat): set<nat>
  {
    set j | 0 <= j < |keys| && Rep(keys, j) < i && Rep(keys, j) != j
  }

  /** Leader `i` marks exactly the later indices with its identity. */
  lemma {:induction false} StaticCheckedLeader(keys: seq<Identity>, i: nat)
    requires i < |keys| && Rep(keys, i) == i
    ensures StaticChecked(keys, i + 1) == StaticChecked(keys, i) + Marked(keys, i, |keys|)
  {
    forall j | 0 <= j < |keys| && Rep(keys, j) == i && j != i
      ensures i < j && keys[j] == keys[i]
    {
    }
    forall m | i < m < |keys| && keys[m] == keys[i]
      ensures Rep(keys, m) == i
    {
    }
  }

  /** An index that is not a representative marks nothing. */
  lemma {:induction false} StaticCheckedSkip(keys: seq<Identity>, i: nat)
    requires i < |keys| && Rep(keys, i) != i
    ensures StaticChecked(keys, i + 1) == StaticChecked(keys, i)
  {
  }

  /** A representative's class lists it first, then every later index with
      its identity; nothing else. */
  lemma {:induction false} ClassOfMembers(keys: seq<Identity>, r: nat)
    requires r < |keys| && Rep(keys, r) == r
    ensures forall a :: 0 <= a < |keys| && keys[a] == keys[r] ==> a in ClassOf(keys, r)
    ensures forall m :: 0 <= m < |ClassOf(keys, r)| ==>
      ClassOf(keys, r)[m] < |keys| && keys[ClassOf(keys, r)[m]] == keys[r]
  {
    forall a | 0 <= a < |keys| && keys[a] == keys[r]
      ensures a in ClassOf(keys, r)
    {
      if a != r {
        assert Rep(keys, a) == r;
      }
    }
  }

  /** The representative of an index is its own representative. */
  lemma {:induction false} RepIsRep(keys: seq<Identity>, a: nat)
    requires a < |keys|
    ensures Rep(keys, Rep(keys, a)) == Rep(keys, a)
  {
  }

  /** The class of every representative below `i` is among the static
      groups of the first `i` leaders. */
  lemma {:induction false} ClassInStaticGroups(keys: seq<Identity>, r: nat, i: nat)
    requires r < i <= |keys| && Rep(keys, r) == r
    ensures ClassOf(keys, r) in StaticGroups(keys, i)
    decreases i
  {
    if r < i - 1 {
      ClassInStaticGroups(keys, r, i - 1);
    }
  }

  /** Every static group is the class of a representative. */
  lemma {:induction false} StaticGroupsAreClasses(keys: seq<Identity>, i: nat)
    requires i <= |keys|
    ensures forall g :: g in StaticGroups(keys, i) ==>
      exists r :: 0 <= r < i && Rep(keys, r) == r && g == ClassOf(keys, r)
    decreases i
  {
    if i > 0 {
      StaticGroupsAreClasses(keys, i - 1);
    }
  }

  /** A non-empty list of indices that all have the identity of the first. */
  ghost predicate SameIdentity(keys: seq<Identity>, g: seq<nat>)
  {
    && |g| > 0 && g[0] < |keys|
    && forall m :: 0 <= m < |g| ==> g[m] < |keys| && keys[g[m]] == keys[g[0]]
  }

  /** The static groups partition the bucket by identity: the members of a
      group share an identity, and two indices with the same identity sit in
      a common group. */
  lemma {:induction false} StaticPartition(keys: seq<Identity>)
    ensures forall g :: g in StaticGroups(keys, |keys|) ==> SameIdentity(keys, g)
    ensures forall a, b :: 0 <= a < |keys| && 0 <= b < |keys| && keys[a] == keys[b] ==>
      exists g :: g in StaticGroups(keys, |keys|) && a in g && b in g
  {
    StaticGroupsAreClasses(keys, |keys|);
    forall g | g in StaticGroups(keys, |keys|)
      ensures SameIdentity(keys, g)
    {
      var r :| 0 <= r < |keys| && Rep(keys, r) == r && g == ClassOf(keys, r);
      ClassOfMembers(keys, r);
    }
    forall a, b | 0 <= a < |keys| && 0 <= b < |keys| && keys[a] == keys[b]
      ensures exists g :: g in StaticGroups(keys, |keys|) && a in g && b in g
    {
      var r := Rep(keys, a);
      RepIsRep(keys, a);
      ClassOfMembers(keys, r);
      ClassInStaticGroups(keys, r, |keys|);
    }
  }

  // ---------------------------------------------------------------------
  // Emission
  // ---------------------------------------------------------------------

  /** The groups worth reporting: those with more than one member. */
  function EmitOnce(groups: seq<seq<nat>>): seq<seq<nat>>
  {
    if groups == [] then []
    else EmitOnce(groups[..|groups| - 1]) + (if |groups[|groups| - 1]| > 1 then [groups[|groups| - 1]] else [])
  }

  lemma {:induction false} EmitOnceMembers(groups: seq<seq<nat>>)
    ensures forall g :: g in EmitOnce(groups) <==> g in groups && |g| > 1
    decreases |groups|
  {
    if groups != [] {
      EmitOnceMembers(groups[..|groups| - 1]);
      assert groups == groups[..|groups| - 1] + [groups[|groups| - 1]];
    }
  }

  /** Emitting once reports each of pairwise distinct groups at most once. */
  lemma {:induction false} EmitOnceNoRepeats(groups: seq<seq<nat>>)
    requires forall a, b :: 0 <= a < b < |groups| ==> groups[a] != groups[b]
    ensures forall a, b :: 0 <= a < b < |EmitOnce(groups)| ==> EmitOnce(groups)[a] != EmitOnce(groups)[b]
    decreases |groups|
  {
    if groups != [] {
      var init := groups[..|groups| - 1];
      var g := groups[|groups| - 1];
      EmitOnceNoRepeats(init);
      EmitOnceMembers(init);
      assert g !in init;
    }
  }

  /** The groups led by index `l` or an earlier one. */
  function LedUpTo(groups: seq<seq<nat>>, l: nat): seq<seq<nat>>
  {
    if groups == [] then []
    else
      var g := groups[|groups| - 1];
      LedUpTo(groups[..|groups| - 1], l) + (if |g| > 0 && g[0] <= l then [g] else [])
  }

  lemma {:induction false} LedUpToMembers(groups: seq<seq<nat>>, l: nat)
    ensures forall g :: g in LedUpTo(groups, l) <==> g in groups && |g| > 0 && g[0] <= l
    decreases |groups|
  {
    if groups != [] {
      LedUpToMembers(groups[..|groups| - 1], l);
      assert groups == groups[..|groups| - 1] + [groups[|groups| - 1]];
    }
  }

  /** The report as the program writes it: the emit loop sits inside the
      leader loop, so after each leader whose scan ran (`started`), every
      group built so far with more than one member is appended again. */
  function Emitted(groups: seq<seq<nat>>, started: seq<nat>): seq<seq<nat>>
  {
    if started == [] then []
    else Emitted(groups, started[..|started| - 1]) + EmitOnce(LedUpTo(groups, started[|started| - 1]))
  }

  lemma {:induction false} LedUpToIgnoresLater(groups: seq<seq<nat>>, g: seq<nat>, l: nat)
    requires |g| > 0 && l < g[0]
    ensures LedUpTo(groups + [g], l) == LedUpTo(groups, l)
  {
    assert (groups + [g])[..|groups|] == groups;
  }

  /** A group led after every started leader changes no earlier emission. */
  lemma {:induction false} EmittedIgnoresLaterGroup(groups: seq<seq<nat>>, started: seq<nat>, g: seq<nat>)
    requires |g| > 0 && forall k :: 0 <= k < |started| ==> started[k] < g[0]
    ensures Emitted(groups + [g], started) == Emitted(groups, started)
    decreases |started|
  {
    if started != [] {
      var init := started[..|started| - 1];
      var l := started[|started| - 1];
      EmittedIgnoresLaterGroup(groups, init, g);
      LedUpToIgnoresLater(groups, g, l);
      calc {
        Emitted(groups + [g], started);
        Emitted(groups + [g], init) + EmitOnce(LedUpTo(groups + [g], l));
        Emitted(groups, init) + EmitOnce(LedUpTo(groups, l));
        Emitted(groups, started);
      }
    }
  }

  /** Every emitted group is a built group with more than one member. */
  lemma {:induction false} EmittedFromGroups(groups: seq<seq<nat>>, started: seq<nat>)
    ensures forall g :: g in Emitted(groups, started) ==> g in groups && |g| > 1
    decreases |started|
  {
    if started != [] {
      EmittedFromGroups(groups, started[..|started| - 1]);
      LedUpToMembers(groups, started[|started| - 1]);
      EmitOnceMembers(LedUpTo(groups, started[|started| - 1]));
    }
  }

  /** The intended report is what the last started leader's emission appends:
      as written, the report is the intended one preceded by copies of groups
      that were already emitted. */
  lemma {:induction false} EmittedEndsWithIntended(groups: seq<seq<nat>>, started: seq<nat>)
    requires started != []
    requires forall k :: 0 <= k < |groups| ==> |groups[k]| > 0 && groups[k][0] <= started[|started| - 1]
    ensures Emitted(groups, started) ==
      Emitted(groups, started[..|started| - 1]) + EmitOnce(groups)
  {
    LedUpToAll(groups, started[|started| - 1]);
  }

  lemma {:induction false} LedUpToAll(groups: seq<seq<nat>>, l: nat)
    requires forall k :: 0 <= k < |groups| ==> |groups[k]| > 0 && groups[k][0] <= l
    ensures LedUpTo(groups, l) == groups
    decreases |groups|
  {
    if groups != [] {
      LedUpToAll(groups[..|groups| - 1], l);
      assert groups == groups[..|groups| - 1] + [groups[|groups| - 1]];
    }
  }

  /** A group with more than one member whose leader is no later than some
      started leader is in the report. */
  lemma {:induction false} EmittedCovers(groups: seq<seq<nat>>, started: seq<nat>, g: seq<nat>, k: nat)
    requires g in groups && |g| > 1 && k < |started| && g[0] <= started[k]
    ensures g in Emitted(groups, started)
    decreases |started|
  {
    var last := |started| - 1;
    if k == last {
      LedUpToMembers(groups, started[last]);
      EmitOnceMembers(LedUpTo(groups, started[last]));
    } else {
      EmittedCovers(groups, started[..last], g, k);
    }
  }

  /** Two leaders with a two-member group each: the first group is reported
      twice. */
  lemma {:induction false} ReEmission()
    ensures Emitted([[0, 1], [2, 3]], [0, 2]) == [[0, 1], [0, 1], [2, 3]]
    ensures EmitOnce([[0, 1], [2, 3]]) == [[0, 1], [2, 3]]
  {
    assert [[0, 1], [2, 3]][..1] == [[0, 1]];
    assert [0, 2][..1] == [0];
    assert LedUpTo([[0, 1]], 0) == [[0, 1]];
    assert LedUpTo([[0, 1], [2, 3]], 0) == [[0, 1]];
    assert LedUpTo([[0, 1], [2, 3]], 2) == [[0, 1], [2, 3]];
  }

  // ---------------------------------------------------------------------
  // The grouping loops
  // ---------------------------------------------------------------------

  predicate Sized(bucket: seq<Record>)
  {
    forall k :: 0 <= k < |bucket| ==> |bucket[k].first| == BlockSize
  }

  ghost predicate AllFresh(fs: FileSystem, bucket: seq<Record>)
  {
    forall k :: 0 <= k < |bucket| ==> Fresh(fs, bucket[k])
  }

  ghost predicate DistinctPaths(bucket: seq<Record>)
  {
    forall a, b :: 0 <= a < b < |bucket| ==> bucket[a].path != bucket[b].path
  }

  /** Every record of `b2` refines the record at the same index of `b1`. */
  ghost predicate RefinesAll(b1: seq<Record>, b2: seq<Record>)
  {
    |b1| == |b2| && forall k :: 0 <= k < |b1| ==> Refines(b1[k], b2[k])
  }

  lemma {:induction false} RefinesAllTrans(b1: seq<Record>, b2: seq<Record>, b3: seq<Record>)
    requires RefinesAll(b1, b2) && RefinesAll(b2, b3)
    ensures RefinesAll(b1, b3)
  {
  }

  /** The bucket holds still and every record is fresh in it, with distinct
      paths: the setting in which the static reference applies. */
  ghost predicate Quiet(sched: Schedule, bucket: seq<Record>)
  {
    Static(sched) && AllFresh(sched(0), bucket) && DistinctPaths(bucket)
  }

  /** The indices after `i` and before `j` with the identity of `i`. */
  ghost function Marked(keys: seq<Identity>, i: nat, j: nat): set<nat>
    requires i < |keys|
  {
    set m | i < m < j && m < |keys| && keys[m] == keys[i]
  }

  /** One step of the inner scan in a world that holds still: index `j` joins
      exactly when it comes after the leader and shares its identity. */
  lemma {:induction false} QuietAdvance(keys: seq<Identity>, i: nat, j: nat, took: bool)
    requires i < |keys| && j < |keys|
    requires took <==> (i < j && keys[j] == keys[i])
    ensures ClassBetween(keys, keys[i], i + 1, j + 1) ==
      ClassBetween(keys, keys[i], i + 1, j) + (if took then [j] else [])
    ensures Marked(keys, i, j + 1) == Marked(keys, i, j) + (if took then {j} else {})
  {
  }

  /** What the inner scan of a representative `i` has built once it has
      looked at every index below `j`, in a world that holds still. */
  ghost predicate ScannedTo(keys: seq<Identity>, i: nat, j: nat, checked: set<nat>,
                            checked': set<nat>, group: seq<nat>)
    requires i < |keys| && j <= |keys|
  {
    && group == [i] + ClassBetween(keys, keys[i], i + 1, j)
    && checked' == checked + Marked(keys, i, j)
  }

  lemma {:induction false} ScannedToStep(keys: seq<Identity>, i: nat, j: nat, checked: set<nat>,
                      c0: set<nat>, g0: seq<nat>, c1: set<nat>, g1: seq<nat>, took: bool)
    requires i < |keys| && j < |keys|
    requires ScannedTo(keys, i, j, checked, c0, g0)
    requires took <==> (i < j && keys[j] == keys[i])
    requires c1 == (if took then c0 + {j} else c0)
    requires g1 == (if took then g0 + [j] else g0)
    ensures ScannedTo(keys, i, j + 1, checked, c1, g1)
  {
    GroupStep(keys, i, j, g0, g1, took);
    MarkedStep(keys, i, j, checked, c0, c1, took);
  }

  lemma {:induction false} GroupStep(keys: seq<Identity>, i: nat, j: nat, g0: seq<nat>, g1: seq<nat>, took: bool)
    requires i < |keys| && j < |keys|
    requires g0 == [i] + ClassBetween(keys, keys[i], i + 1, j)
    requires took <==> (i < j && keys[j] == keys[i])
    requires g1 == (if took then g0 + [j] else g0)
    ensures g1 == [i] + ClassBetween(keys, keys[i], i + 1, j + 1)
  {
    var cls := ClassBetween(keys, keys[i], i + 1, j);
    if j < i + 1 {
      assert ClassBetween(keys, keys[i], i + 1, j + 1) == [] == cls;
    } else if took {
      assert ClassBetween(keys, keys[i], i + 1, j + 1) == cls + [j];
      assert g1 == ([i] + cls) + [j] == [i] + (cls + [j]);
    } else {
      assert ClassBetween(keys, keys[i], i + 1, j + 1) == cls + [];
      assert cls + [] == cls;
    }
  }

  lemma {:induction false} MarkedStep(keys: seq<Identity>, i: nat, j: nat, checked: set<nat>,
                                      c0: set<nat>, c1: set<nat>, took: bool)
    requires i < |keys| && j < |keys|
    requires c0 == checked + Marked(keys, i, j)
    requires took <==> (i < j && keys[j] == keys[i])
    requires c1 == (if took then c0 + {j} else c0)
    ensures c1 == checked + Marked(keys, i, j + 1)
  {
    assert Marked(keys, i, j + 1) == Marked(keys, i, j) + (if took then {j} else {});
  }

  /** An index marked by an earlier representative does not share the
      identity of a later representative. */
  lemma {:induction false} CheckedIsOther(keys: seq<Identity>, i: nat, j: nat)
    requires i < |keys| && Rep(keys, i) == i && j in StaticChecked(keys, i)
    ensures keys[j] != keys[i]
  {
  }

  /** Two distinct records of a bucket share an identity exactly when both
      files can be read and hold the same bytes. */
  lemma {:induction false} IdentityEq(fs: FileSystem, bucket: seq<Record>, a: nat, b: nat)
    requires a < |bucket| && b < |bucket| && a != b
    ensures Identities(fs, bucket)[a] == Identities(fs, bucket)[b] <==>
      CanOpen(fs, bucket[a].path) && CanOpen(fs, bucket[b].path)
      && fs[bucket[a].path].content == fs[bucket[b].path].content
  {
  }

  // ---------------------------------------------------------------------
  // What a changing world still guarantees
  // ---------------------------------------------------------------------

  /** Both files could be read at `fs` and held the same bytes, and neither
      size had moved when `after` was read: what a deep comparison that
      returns 0 establishes of two distinct paths. */
  ghost predicate SameBytes(fs: FileSystem, after: FileSystem, p: Path, q: Path)
  {
    p != q ==>
      && CanOpen(fs, p) && CanOpen(fs, q) && fs[p].content == fs[q].content
      && SafeFileSize(after, p) == SafeFileSize(fs, p)
      && SafeFileSize(after, q) == SafeFileSize(fs, q)
  }

  /** From instant `u` on, the inner loop found index `j` unchanged, then the
      leader `i` unchanged, then the pair equal. */
  ghost predicate JoinedAt(sched: Schedule, bucket: seq<Record>, i: nat, j: nat, u: nat)
    requires i < |bucket| && j < |bucket|
  {
    && !Changed(sched(u), bucket[j]) && !Changed(sched(u + 1), bucket[i])
    && SameBytes(sched(u + 2), sched(u + 3), bucket[i].path, bucket[j].path)
  }

  /** Index `j` joined leader `i` at some instant from `t0` on. */
  ghost predicate Joined(sched: Schedule, bucket: seq<Record>, i: nat, j: nat, t0: nat)
  {
    i < |bucket| && j < |bucket| && exists u: nat :: t0 <= u && JoinedAt(sched, bucket, i, j, u)
  }

  /** Index `k` was found changed at some instant from `t0` on. */
  ghost predicate SeenChanged(sched: Schedule, bucket: seq<Record>, k: nat, t0: nat)
  {
    k < |bucket| && exists u: nat :: t0 <= u && Changed(sched(u), bucket[k])
  }

  /** Filling caches does not affect the staleness test. */
  lemma {:induction false} ChangedRefined(fs: FileSystem, r1: Record, r2: Record)
    requires Refines(r1, r2)
    ensures Changed(fs, r1) == Changed(fs, r2)
  {
  }

  /** What was observed of the records of `b2` was observed of those of
      `b1` they refine, and from any earlier instant on. */
  lemma {:induction false} ObservedRefined(sched: Schedule, b1: seq<Record>, b2: seq<Record>, t0: nat, t1: nat)
    requires RefinesAll(b1, b2) && t0 <= t1
    ensures forall i: nat, j: nat :: Joined(sched, b2, i, j, t1) ==> Joined(sched, b1, i, j, t0)
    ensures forall k: nat :: SeenChanged(sched, b2, k, t1) ==> SeenChanged(sched, b1, k, t0)
  {
    forall i: nat, j: nat | Joined(sched, b2, i, j, t1) ensures Joined(sched, b1, i, j, t0) {
      var u: nat :| t1 <= u && JoinedAt(sched, b2, i, j, u);
      ChangedRefined(sched(u), b1[j], b2[j]);
      ChangedRefined(sched(u + 1), b1[i], b2[i]);
      assert JoinedAt(sched, b1, i, j, u);
    }
    forall k: nat | SeenChanged(sched, b2, k, t1) ensures SeenChanged(sched, b1, k, t0) {
      var u: nat :| t1 <= u && Changed(sched(u), b2[k]);
      ChangedRefined(sched(u), b1[k], b2[k]);
    }
  }

  /** In a world that holds still, with fresh records for two distinct
      paths, `took` says exactly that both files can be read and hold the
      same bytes, and the refreshed bucket stays fresh. */
  ghost predicate StillMatch(fs: FileSystem, after: FileSystem, bucket: seq<Record>, bucket': seq<Record>,
                             i: nat, j: nat, took: bool)
    requires i < |bucket| && j < |bucket|
  {
    fs == after && AllFresh(fs, bucket) && bucket[i].path != bucket[j].path ==>
      && (took <==> CanOpen(fs, bucket[i].path) && CanOpen(fs, bucket[j].path)
                    && fs[bucket[i].path].content == fs[bucket[j].path].content)
      && AllFresh(fs, bucket')
  }

  /** `bucket[i].compare(bucket[j])` with the caches it fills written back
      into the bucket. */
  method CompareAt(bucket: seq<Record>, i: nat, j: nat, fs: FileSystem, after: FileSystem, hasher: Hasher)
    returns (bucket': seq<Record>, result: int)
    requires i < |bucket| && j < |bucket| && i != j && Sized(bucket)
    ensures RefinesAll(bucket, bucket') && Sized(bucket')
    ensures result == Compare(fs, after, bucket[i], bucket[j], hasher).result
    // in any world, a match means equal snapshot sizes, both files read whole
    // with the same bytes, and neither size moved before the re-read
    ensures result == 0 ==> bucket[i].size == bucket[j].size
    ensures result == 0 ==> SameBytes(fs, after, bucket[i].path, bucket[j].path)
    // in a world that holds still, a pair matches exactly when both files
    // can be read and hold the same bytes, and the records stay fresh
    ensures StillMatch(fs, after, bucket, bucket', i, j, result == 0)
  {
    var o := Compare(fs, after, bucket[i], bucket[j], hasher);
    if fs == after && AllFresh(fs, bucket) && bucket[i].path != bucket[j].path {
      CompareStatic(fs, bucket[i], bucket[j], hasher);
      RefinesKeepsFresh(fs, bucket[i], o.a);
      RefinesKeepsFresh(fs, bucket[j], o.b);
    }
    bucket' := bucket[i := o.a][j := o.b];
    result := o.result;
  }

  /** The state of the inner scan of one leader: the bucket with its caches,
      the checked marks, the group so far, whether the leader is still
      trusted, and the instant reached. */
  datatype Scan = Scan(bucket: seq<Record>, checked: set<nat>, group: seq<nat>, kept: bool, t: nat)

  /** What holds of the scan of leader `i` once every index below `j` was
      visited, starting from `bucket0` and `checked0`. */
  ghost predicate ScanOk(bucket0: seq<Record>, i: nat, checked0: set<nat>, j: nat, sc: Scan)
  {
    && i < |bucket0| && j <= |bucket0|
    && RefinesAll(bucket0, sc.bucket) && Sized(sc.bucket)
    && |sc.group| >= 1 && sc.group[0] == i
    && (forall m :: 1 <= m < |sc.group| ==> sc.group[m] < j && sc.group[m] != i)
    && (forall m, m' :: 1 <= m < m' < |sc.group| ==> sc.group[m] < sc.group[m'])
    && checked0 <= sc.checked && i !in sc.checked
    && (forall m :: 1 <= m < |sc.group| ==> sc.group[m] !in checked0 && sc.group[m] in sc.checked)
    && (forall k :: k in sc.checked && k !in checked0 ==> k < j)
  }

  /** Visiting `j` may mark it checked, and may take it into the group with
      fresher caches in the bucket. */
  lemma {:induction false} ScanOkStep(bucket0: seq<Record>, i: nat, checked0: set<nat>, j: nat, sc: Scan, sc': Scan)
    requires ScanOk(bucket0, i, checked0, j, sc) && j < |bucket0| && j != i && j !in checked0
    requires RefinesAll(bucket0, sc'.bucket) && Sized(sc'.bucket)
    requires sc'.checked == sc.checked + {j}
    requires sc'.group == sc.group || sc'.group == sc.group + [j]
    ensures ScanOk(bucket0, i, checked0, j + 1, sc')
  {
  }

  /** The scan moves on without touching the checked marks or the group. */
  lemma {:induction false} ScanOkMove(bucket0: seq<Record>, i: nat, checked0: set<nat>, j: nat, j': nat, sc: Scan, sc': Scan)
    requires ScanOk(bucket0, i, checked0, j, sc) && j <= j' <= |bucket0|
    requires RefinesAll(bucket0, sc'.bucket) && Sized(sc'.bucket)
    requires sc'.checked == sc.checked && sc'.group == sc.group
    ensures ScanOk(bucket0, i, checked0, j', sc')
  {
  }

  /** Why the scan of leader `i`, started at instant `t0`, holds what it
      holds, in any world: every member after the leader joined it, every
      index it marked checked joined it or was found changed, and a dropped
      group means the leader was found changed. */
  ghost predicate ScanJustified(sched: Schedule, bucket0: seq<Record>, i: nat, checked0: set<nat>, t0: nat, sc: Scan)
  {
    && (forall m :: 1 <= m < |sc.group| ==> Joined(sched, bucket0, i, sc.group[m], t0))
    && (forall k :: k in sc.checked && k !in checked0 ==> k in sc.group || SeenChanged(sched, bucket0, k, t0))
    && (!sc.kept ==> SeenChanged(sched, bucket0, i, t0))
  }

  /** What one visit of index `j` does to the scan of leader `i`, case by
      case: the leader and checked indices are skipped; a changed index is
      marked checked and the group stays; a changed leader drops the group;
      otherwise `j` joins the group, and is marked checked, exactly when the
      comparison returns 0. */
  ghost predicate Stepped(sched: Schedule, hasher: Hasher, i: nat, j: nat, sc: Scan, sc': Scan)
    requires i < |sc.bucket| && j < |sc.bucket| && Sized(sc.bucket)
  {
    if j == i || j in sc.checked then sc' == sc
    else if Changed(sched(sc.t), sc.bucket[j]) then sc' == sc.(checked := sc.checked + {j}, t := sc.t + 1)
    else if Changed(sched(sc.t + 1), sc.bucket[i]) then
      !sc'.kept && sc'.group == sc.group && sc'.checked == sc.checked
    else
      var took := Compare(sched(sc.t + 2), sched(sc.t + 3), sc.bucket[i], sc.bucket[j], hasher).result == 0;
      && sc'.kept
      && sc'.group == (if took then sc.group + [j] else sc.group)
      && sc'.checked == (if took then sc.checked + {j} else sc.checked)
  }

  /** In a world that holds still, the pair test of `j` keeps the scan on
      the leader's class. */
  lemma {:induction false} PairStepQuiet(sched: Schedule, bucket0: seq<Record>, i: nat, checked0: set<nat>,
                                         j: nat, sc: Scan, sc': Scan, took: bool)
    requires j < |bucket0| && j != i && LeaderQuiet(sched, bucket0, i, checked0)
    requires ScanQuiet(sched, bucket0, i, checked0, j, sc) && RefinesAll(bucket0, sc.bucket)
    requires sc'.kept
    requires sc'.group == (if took then sc.group + [j] else sc.group)
    requires sc'.checked == (if took then sc.checked + {j} else sc.checked)
    requires StillMatch(sched(sc.t + 2), sched(sc.t + 3), sc.bucket, sc'.bucket, i, j, took)
    ensures ScanQuiet(sched, bucket0, i, checked0, j + 1, sc')
  {
    ScanQuietCompare(sched, bucket0, i, checked0, j, sc, sc', took);
  }

  /** After the pair test of `j`, the scan stays well formed and justified
      whether or not `j` was taken. */
  lemma {:induction false} PairStepOk(sched: Schedule, bucket0: seq<Record>, i: nat, checked0: set<nat>, t0: nat,
                                      j: nat, sc: Scan, sc': Scan, took: bool)
    requires j < |bucket0| && ScanOk(bucket0, i, checked0, j, sc) && j != i && j !in sc.checked
    requires t0 <= sc.t && ScanJustified(sched, bucket0, i, checked0, t0, sc)
    requires sc.kept && RefinesAll(bucket0, sc'.bucket) && Sized(sc'.bucket) && sc'.kept
    requires sc'.group == (if took then sc.group + [j] else sc.group)
    requires sc'.checked == (if took then sc.checked + {j} else sc.checked)
    requires took ==> !Changed(sched(sc.t), sc.bucket[j]) && !Changed(sched(sc.t + 1), sc.bucket[i])
    requires took ==> SameBytes(sched(sc.t + 2), sched(sc.t + 3), sc.bucket[i].path, sc.bucket[j].path)
    ensures ScanOk(bucket0, i, checked0, j + 1, sc')
    ensures ScanJustified(sched, bucket0, i, checked0, t0, sc')
  {
    if took {
      ScanOkStep(bucket0, i, checked0, j, sc, sc');
      JoinedAppend(sched, bucket0, i, checked0, t0, sc, sc', j, sc.t);
    } else {
      ScanOkMove(bucket0, i, checked0, j, j + 1, sc, sc');
    }
  }

  /** Taking in an index found unchanged, after a leader found unchanged,
      with the same bytes, keeps the scan justified. */
  lemma {:induction false} JoinedAppend(sched: Schedule, bucket0: seq<Record>, i: nat, checked0: set<nat>, t0: nat,
                                        sc: Scan, sc': Scan, j: nat, u: nat)
    requires ScanJustified(sched, bucket0, i, checked0, t0, sc) && RefinesAll(bucket0, sc.bucket)
    requires i < |bucket0| && j < |bucket0| && t0 <= u
    requires !Changed(sched(u), sc.bucket[j]) && !Changed(sched(u + 1), sc.bucket[i])
    requires SameBytes(sched(u + 2), sched(u + 3), sc.bucket[i].path, sc.bucket[j].path)
    requires sc'.group == sc.group + [j] && sc'.checked == sc.checked + {j} && sc'.kept == sc.kept
    ensures ScanJustified(sched, bucket0, i, checked0, t0, sc')
  {
    ChangedRefined(sched(u), bucket0[j], sc.bucket[j]);
    ChangedRefined(sched(u + 1), bucket0[i], sc.bucket[i]);
    assert JoinedAt(sched, bucket0, i, j, u);
    assert Joined(sched, bucket0, i, j, t0);
    assert j in sc'.group;
  }

  /** The leader is a representative, the world holds still, and the checked
      marks are those the earlier representatives set. */
  ghost predicate LeaderQuiet(sched: Schedule, bucket0: seq<Record>, i: nat, checked0: set<nat>)
  {
    && i < |bucket0| && Quiet(sched, bucket0)
    && Rep(Identities(sched(0), bucket0), i) == i
    && checked0 == StaticChecked(Identities(sched(0), bucket0), i)
  }

  /** In a world that holds still the scan so far matches the class. */
  ghost predicate ScanQuiet(sched: Schedule, bucket0: seq<Record>, i: nat, checked0: set<nat>, j: nat, sc: Scan)
    requires i < |bucket0| && j <= |bucket0|
  {
    && sc.kept && AllFresh(sched(0), sc.bucket)
    && ScannedTo(Identities(sched(0), bucket0), i, j, checked0, sc.checked, sc.group)
  }

  /** In a world that holds still, skipping the leader or an index another
      representative took keeps the scan on its class. */
  lemma {:induction false} ScanQuietSkip(sched: Schedule, bucket0: seq<Record>, i: nat, checked0: set<nat>, j: nat, sc: Scan)
    requires j < |bucket0| && LeaderQuiet(sched, bucket0, i, checked0)
    requires ScanQuiet(sched, bucket0, i, checked0, j, sc)
    requires j == i || j in sc.checked
    ensures ScanQuiet(sched, bucket0, i, checked0, j + 1, sc)
  {
    var keys := Identities(sched(0), bucket0);
    if j != i {
      CheckedIsOther(keys, i, j);
    }
    ScannedToStep(keys, i, j, checked0, sc.checked, sc.group, sc.checked, sc.group, false);
  }

  /** In a world that holds still, a comparison takes `j` exactly when it has
      the identity of the leader. */
  lemma {:induction false} ScanQuietCompare(sched: Schedule, bucket0: seq<Record>, i: nat, checked0: set<nat>, j: nat,
                         sc: Scan, sc': Scan, took: bool)
    requires j < |bucket0| && j != i && LeaderQuiet(sched, bucket0, i, checked0)
    requires ScanQuiet(sched, bucket0, i, checked0, j, sc) && RefinesAll(bucket0, sc.bucket)
    requires took <==> CanOpen(sched(0), sc.bucket[i].path) && CanOpen(sched(0), sc.bucket[j].path)
                       && sched(0)[sc.bucket[i].path].content == sched(0)[sc.bucket[j].path].content
    requires sc'.kept && AllFresh(sched(0), sc'.bucket)
    requires sc'.group == (if took then sc.group + [j] else sc.group)
    requires sc'.checked == (if took then sc.checked + {j} else sc.checked)
    ensures ScanQuiet(sched, bucket0, i, checked0, j + 1, sc')
  {
    var keys := Identities(sched(0), bucket0);
    IdentityEq(sched(0), bucket0, i, j);
    ScannedToStep(keys, i, j, checked0, sc.checked, sc.group, sc'.checked, sc'.group, took);
  }

  /** One pass of the inner loop, at index `j`: skip the leader and checked
      indices; mark a changed index checked; drop the group if the leader has
      changed; otherwise compare and take `j` into the group on a match. */
  method Visit(bucket0: seq<Record>, i: nat, checked0: set<nat>, j: nat, sc: Scan, sched: Schedule, hasher: Hasher,
               ghost t0: nat)
    returns (sc': Scan)
    requires j < |bucket0| && sc.kept && ScanOk(bucket0, i, checked0, j, sc)
    requires t0 <= sc.t && ScanJustified(sched, bucket0, i, checked0, t0, sc)
    ensures sc'.t >= sc.t
    ensures ScanOk(bucket0, i, checked0, if sc'.kept then j + 1 else j, sc')
    ensures ScanJustified(sched, bucket0, i, checked0, t0, sc')
    ensures Stepped(sched, hasher, i, j, sc, sc')
    ensures LeaderQuiet(sched, bucket0, i, checked0) && ScanQuiet(sched, bucket0, i, checked0, j, sc) ==>
      ScanQuiet(sched, bucket0, i, checked0, j + 1, sc')
  {
    ghost var quiet := LeaderQuiet(sched, bucket0, i, checked0) && ScanQuiet(sched, bucket0, i, checked0, j, sc);
    var t := sc.t;
    if j == i || j in sc.checked {
      sc' := sc;
      ScanOkMove(bucket0, i, checked0, j, j + 1, sc, sc');
      if quiet {
        ScanQuietSkip(sched, bucket0, i, checked0, j, sc);
      }
    } else if Changed(sched(t), sc.bucket[j]) {
      assert !quiet;
      sc' := sc.(checked := sc.checked + {j}, t := t + 1);
      ScanOkStep(bucket0, i, checked0, j, sc, sc');
      ChangedRefined(sched(t), bucket0[j], sc.bucket[j]);
      assert SeenChanged(sched, bucket0, j, t0);
    } else if Changed(sched(t + 1), sc.bucket[i]) {
      assert !quiet;
      sc' := sc.(kept := false, t := t + 2);
      ScanOkMove(bucket0, i, checked0, j, j, sc, sc');
      ChangedRefined(sched(t + 1), bucket0[i], sc.bucket[i]);
      assert SeenChanged(sched, bucket0, i, t0);
    } else {
      sc' := JoinStep(bucket0, i, checked0, j, sc, sched, hasher, t0);
    }
  }

  /** What the scan loop of `GrowGroup` carries once the indices below `j`
      are visited. */
  ghost predicate ScanAt(sched: Schedule, bucket0: seq<Record>, i: nat, checked0: set<nat>, t0: nat, j: nat, sc: Scan)
  {
    && i < |bucket0| && j <= |bucket0| && t0 <= sc.t
    && ScanOk(bucket0, i, checked0, j, sc)
    && ScanJustified(sched, bucket0, i, checked0, t0, sc)
    && (LeaderQuiet(sched, bucket0, i, checked0) ==> ScanQuiet(sched, bucket0, i, checked0, j, sc))
  }

  /** The scan starts with the leader alone and the given checked marks. */
  lemma {:induction false} ScanStart(sched: Schedule, bucket0: seq<Record>, i: nat, checked0: set<nat>, t0: nat, sc: Scan)
    requires i < |bucket0| && i !in checked0 && Sized(bucket0)
    requires sc == Scan(bucket0, checked0, [i], true, t0)
    ensures ScanAt(sched, bucket0, i, checked0, t0, 0, sc)
  {
  }

  /** When the scan stops, at the end or on a dropped group, what
      `GrowGroup` promises of it. */
  lemma {:induction false} ScanDone(sched: Schedule, bucket0: seq<Record>, i: nat, checked0: set<nat>, t0: nat, j: nat, sc: Scan)
    requires ScanAt(sched, bucket0, i, checked0, t0, j, sc) && (sc.kept ==> j == |bucket0|)
    ensures ScanOk(bucket0, i, checked0, |bucket0|, sc)
    ensures ScanJustified(sched, bucket0, i, checked0, t0, sc)
    ensures LeaderQuiet(sched, bucket0, i, checked0) ==>
        && sc.kept && AllFresh(sched(0), sc.bucket)
        && sc.group == ClassOf(Identities(sched(0), bucket0), i)
        && sc.checked == checked0 + Marked(Identities(sched(0), bucket0), i, |bucket0|)
  {
    ScanOkMove(bucket0, i, checked0, j, |bucket0|, sc, sc);
  }

  /** `Visit` with only the facts the scan loop carries. */
  method VisitInScan(bucket0: seq<Record>, i: nat, checked0: set<nat>, j: nat, sc: Scan, sched: Schedule, hasher: Hasher,
                     ghost t0: nat)
    returns (sc': Scan)
    requires j < |bucket0| && sc.kept && ScanAt(sched, bucket0, i, checked0, t0, j, sc)
    ensures sc'.kept ==> ScanAt(sched, bucket0, i, checked0, t0, j + 1, sc')
    ensures !sc'.kept ==> ScanAt(sched, bucket0, i, checked0, t0, j, sc')
  {
    sc' := Visit(bucket0, i, checked0, j, sc, sched, hasher, t0);
  }

  /** The last case of `Visit`: the pair test, with the scan kept well
      formed and justified. */
  method JoinStep(bucket0: seq<Record>, i: nat, checked0: set<nat>, j: nat, sc: Scan, sched: Schedule, hasher: Hasher,
                  ghost t0: nat)
    returns (sc': Scan)
    requires j < |bucket0| && sc.kept && ScanOk(bucket0, i, checked0, j, sc) && j != i && j !in sc.checked
    requires !Changed(sched(sc.t), sc.bucket[j]) && !Changed(sched(sc.t + 1), sc.bucket[i])
    requires t0 <= sc.t && ScanJustified(sched, bucket0, i, checked0, t0, sc)
    ensures sc'.t == sc.t + 4 && sc'.kept
    ensures ScanOk(bucket0, i, checked0, j + 1, sc')
    ensures ScanJustified(sched, bucket0, i, checked0, t0, sc')
    ensures var took := Compare(sched(sc.t + 2), sched(sc.t + 3), sc.bucket[i], sc.bucket[j], hasher).result == 0;
      && sc'.group == (if took then sc.group + [j] else sc.group)
      && sc'.checked == (if took then sc.checked + {j} else sc.checked)
    ensures LeaderQuiet(sched, bucket0, i, checked0) && ScanQuiet(sched, bucket0, i, checked0, j, sc) ==>
      ScanQuiet(sched, bucket0, i, checked0, j + 1, sc')
  {
    var result;
    sc', result := TryJoin(sc, i, j, sched, hasher);
    RefinesAllTrans(bucket0, sc.bucket, sc'.bucket);
    PairStepOk(sched, bucket0, i, checked0, t0, j, sc, sc', result == 0);
    if LeaderQuiet(sched, bucket0, i, checked0) && ScanQuiet(sched, bucket0, i, checked0, j, sc) {
      PairStepQuiet(sched, bucket0, i, checked0, j, sc, sc', result == 0);
    }
  }

  /** The pair test of `Visit` once neither index was found changed: the
      caches the comparison fills go back into the bucket, and `j` joins the
      group, and is marked checked, exactly when the comparison returns 0. */
  method TryJoin(sc: Scan, i: nat, j: nat, sched: Schedule, hasher: Hasher) returns (sc': Scan, result: int)
    requires i < |sc.bucket| && j < |sc.bucket| && i != j && Sized(sc.bucket)
    ensures sc'.t == sc.t + 4 && sc'.kept
    ensures RefinesAll(sc.bucket, sc'.bucket) && Sized(sc'.bucket)
    ensures result == Compare(sched(sc.t + 2), sched(sc.t + 3), sc.bucket[i], sc.bucket[j], hasher).result
    ensures sc'.group == (if result == 0 then sc.group + [j] else sc.group)
    ensures sc'.checked == (if result == 0 then sc.checked + {j} else sc.checked)
    ensures result == 0 ==> SameBytes(sched(sc.t + 2), sched(sc.t + 3), sc.bucket[i].path, sc.bucket[j].path)
    ensures StillMatch(sched(sc.t + 2), sched(sc.t + 3), sc.bucket, sc'.bucket, i, j, result == 0)
  {
    var bucket';
    bucket', result := CompareAt(sc.bucket, i, j, sched(sc.t + 2), sched(sc.t + 3), hasher);
    var took := result == 0;
    sc' := Scan(bucket', if took then sc.checked + {j} else sc.checked,
                if took then sc.group + [j] else sc.group, true, sc.t + 4);
  }

  /** The inner scan of leader `i`: every other unchecked index is tested for
      staleness, the leader is re-tested, and the pair is compared. `kept` is
      false when the leader was found changed, which pops the group. */
  method GrowGroup(bucket: seq<Record>, i: nat, checked: set<nat>, sched: Schedule, t: nat, hasher: Hasher)
    returns (sc: Scan)
    requires i < |bucket| && i !in checked && Sized(bucket)
    ensures sc.t >= t
    // the group starts with its leader and lists other indices unchecked at
    // the start once each, in index order (in a changing world these may lie
    // below the leader); they are marked checked even if the group is dropped
    ensures ScanOk(bucket, i, checked, |bucket|, sc)
    // in any world, every member after the leader joined it, every index the
    // scan marked checked joined it or was found changed, and a dropped group
    // means the leader was found changed
    ensures ScanJustified(sched, bucket, i, checked, t, sc)
    // in a world that holds still, the group of a representative is its class
    ensures LeaderQuiet(sched, bucket, i, checked) ==>
        && sc.kept && AllFresh(sched(0), sc.bucket)
        && sc.group == ClassOf(Identities(sched(0), bucket), i)
        && sc.checked == checked + Marked(Identities(sched(0), bucket), i, |bucket|)
  {
    var j;
    sc, j := ScanLoop(bucket, i, checked, sched, t, hasher);
    ScanDone(sched, bucket, i, checked, t, j, sc);
  }

  /** The loop of `GrowGroup`: visits the indices in order until the end or
      until the group is dropped, and returns where it stopped. */
  method ScanLoop(bucket: seq<Record>, i: nat, checked: set<nat>, sched: Schedule, t: nat, hasher: Hasher)
    returns (sc: Scan, j: nat)
    requires i < |bucket| && i !in checked && Sized(bucket)
    ensures ScanAt(sched, bucket, i, checked, t, j, sc) && (sc.kept ==> j == |bucket|)
  {
    var n := |bucket|;
    sc := Scan(bucket, checked, [i], true, t);
    ScanStart(sched, bucket, i, checked, t, sc);
    j := 0;
    while j < n && sc.kept
      invariant ScanAt(sched, bucket, i, checked, t, j, sc)
      decreases n - j, if sc.kept then 1 else 0
    {
      sc := VisitInScan(bucket, i, checked, j, sc, sched, hasher, t);
      if sc.kept {
        j := j + 1;
      }
    }
  }

  /** A group lists indices of the bucket, each once, leader first. */
  ghost predicate GroupShape(g: seq<nat>, n: nat)
  {
    && |g| >= 1
    && (forall m :: 0 <= m < |g| ==> g[m] < n)
    && (forall m, m' :: 0 <= m < m' < |g| ==> g[m] != g[m'])
  }

  lemma {:induction false} ScanGroupShape(bucket0: seq<Record>, i: nat, checked0: set<nat>, sc: Scan)
    requires ScanOk(bucket0, i, checked0, |bucket0|, sc)
    ensures GroupShape(sc.group, |bucket0|)
  {
  }

  lemma {:induction false} RefinedIdentities(fs: FileSystem, b1: seq<Record>, b2: seq<Record>)
    requires RefinesAll(b1, b2)
    ensures Identities(fs, b1) == Identities(fs, b2)
    ensures DistinctPaths(b1) ==> DistinctPaths(b2)
  {
  }

  /** Every group is well shaped and led by index `l` or an earlier one. */
  ghost predicate GroupsLed(groups: seq<seq<nat>>, n: nat, l: nat)
  {
    forall k :: 0 <= k < |groups| ==> GroupShape(groups[k], n) && groups[k][0] <= l
  }

  lemma {:induction false} GroupsLedAppend(groups: seq<seq<nat>>, n: nat, l: nat, l': nat, groups': seq<seq<nat>>)
    requires GroupsLed(groups, n, l) && l <= l'
    requires groups' == groups || (|groups'| == |groups| + 1 && groups'[..|groups|] == groups
                                   && GroupShape(groups'[|groups|], n) && groups'[|groups|][0] <= l')
    ensures GroupsLed(groups', n, l')
  {
    forall k | 0 <= k < |groups'|
      ensures GroupShape(groups'[k], n) && groups'[k][0] <= l'
    {
      if k < |groups| {
        assert groups'[k] == groups[k];
      }
    }
  }

  /** The state of the leader loop over one bucket. */
  datatype Outer = Outer(bucket: seq<Record>, checked: set<nat>, groups: seq<seq<nat>>, items: seq<seq<nat>>, t: nat)

  /** What holds once the leaders below `i` are done: checked marks and group
      members are indices of the bucket; the started leaders increase and are
      below `i`; no group is led after the last started leader; the report is what the
      emission after each started leader appended. */
  ghost predicate OuterOk(bucket0: seq<Record>, i: nat, st: Outer, started: seq<nat>)
  {
    && i <= |bucket0|
    && RefinesAll(bucket0, st.bucket) && Sized(st.bucket)
    && (forall k :: k in st.checked ==> k < |bucket0|)
    && StartedBelow(started, i)
    && (|st.groups| > 0 ==> |started| > 0)
    && GroupsLed(st.groups, |bucket0|, LastLeader(started))
    && st.items == Emitted(st.groups, started)
  }

  /** Index `l` leads one of the groups. */
  ghost predicate Leads(groups: seq<seq<nat>>, l: nat)
  {
    exists k :: 0 <= k < |groups| && |groups[k]| > 0 && groups[k][0] == l
  }

  /** Index `k` joined one of the started leaders from instant `t0` on. */
  ghost predicate JoinedSome(sched: Schedule, bucket0: seq<Record>, started: seq<nat>, k: nat, t0: nat)
  {
    exists a :: 0 <= a < |started| && Joined(sched, bucket0, started[a], k, t0)
  }

  /** Why the leader loop, started at instant `t0`, holds what it holds once
      the indices below `i` are done, in any world: every member after a
      group's leader joined that leader; a started leader without a group was
      found changed; every index below `i` was started or is checked; and a
      checked index was found changed or joined a started leader. */
  ghost predicate OuterJustified(sched: Schedule, bucket0: seq<Record>, t0: nat, i: nat, st: Outer, started: seq<nat>)
  {
    && (forall k, m :: 0 <= k < |st.groups| && 1 <= m < |st.groups[k]| ==>
          Joined(sched, bucket0, st.groups[k][0], st.groups[k][m], t0))
    && (forall a :: 0 <= a < |started| ==> Leads(st.groups, started[a]) || SeenChanged(sched, bucket0, started[a], t0))
    && (forall k :: 0 <= k < i ==> k in started || k in st.checked)
    && (forall k :: k in st.checked ==> SeenChanged(sched, bucket0, k, t0) || JoinedSome(sched, bucket0, started, k, t0))
  }

  /** The scan's justification carries over to the records it refines, and
      to any earlier starting instant. */
  lemma {:induction false} ScanJustifiedRefined(sched: Schedule, b1: seq<Record>, b2: seq<Record>, i: nat,
                                                checked0: set<nat>, t0: nat, t1: nat, sc: Scan)
    requires RefinesAll(b1, b2) && t0 <= t1 && ScanJustified(sched, b2, i, checked0, t1, sc)
    ensures ScanJustified(sched, b1, i, checked0, t0, sc)
  {
    ObservedRefined(sched, b1, b2, t0, t1);
  }

  /** Skipping a checked index keeps the leader loop justified. */
  lemma {:induction false} OuterJustifiedSkip(sched: Schedule, bucket0: seq<Record>, t0: nat, i: nat, st: Outer,
                                              started: seq<nat>)
    requires OuterJustified(sched, bucket0, t0, i, st, started) && i in st.checked
    ensures OuterJustified(sched, bucket0, t0, i + 1, st, started)
  {
  }

  /** Marking a leader found changed keeps the leader loop justified. */
  lemma {:induction false} OuterJustifiedChanged(sched: Schedule, bucket0: seq<Record>, t0: nat, i: nat, st: Outer,
                                                 started: seq<nat>, st': Outer)
    requires OuterJustified(sched, bucket0, t0, i, st, started) && SeenChanged(sched, bucket0, i, t0)
    requires st'.checked == st.checked + {i} && st'.groups == st.groups
    ensures OuterJustified(sched, bucket0, t0, i + 1, st', started)
  {
  }

  /** Starting leader `i`, whose scan is justified, keeps the leader loop
      justified: its group (if kept) joined it, and every index its scan
      marked checked joined it or was found changed. */
  lemma {:induction false} OuterJustifiedLead(sched: Schedule, bucket0: seq<Record>, t0: nat, i: nat, st: Outer,
                                              started: seq<nat>, sc: Scan, st': Outer)
    requires OuterJustified(sched, bucket0, t0, i, st, started) && i !in st.checked
    requires ScanJustified(sched, bucket0, i, st.checked, t0, sc)
    requires |sc.group| >= 1 && sc.group[0] == i && st.checked <= sc.checked && i !in sc.checked
    requires st'.checked == sc.checked
    requires st'.groups == (if sc.kept then st.groups + [sc.group] else st.groups)
    ensures OuterJustified(sched, bucket0, t0, i + 1, st', started + [i])
  {
    var started' := started + [i];
    forall k, m | 0 <= k < |st'.groups| && 1 <= m < |st'.groups[k]|
      ensures Joined(sched, bucket0, st'.groups[k][0], st'.groups[k][m], t0)
    {
      if k == |st.groups| {
        assert st'.groups[k] == sc.group;
      } else {
        assert st'.groups[k] == st.groups[k];
      }
    }
    forall a | 0 <= a < |started'|
      ensures Leads(st'.groups, started'[a]) || SeenChanged(sched, bucket0, started'[a], t0)
    {
      if a == |started| {
        if sc.kept {
          assert st'.groups[|st.groups|] == sc.group;
        }
      } else if Leads(st.groups, started[a]) {
        var k :| 0 <= k < |st.groups| && |st.groups[k]| > 0 && st.groups[k][0] == started[a];
        assert st'.groups[k] == st.groups[k];
      }
    }
    forall k | k in st'.checked
      ensures SeenChanged(sched, bucket0, k, t0) || JoinedSome(sched, bucket0, started', k, t0)
    {
      if k in st.checked {
        if JoinedSome(sched, bucket0, started, k, t0) {
          var a :| 0 <= a < |started| && Joined(sched, bucket0, started[a], k, t0);
          assert started'[a] == started[a];
        }
      } else if k in sc.group {
        var m :| 0 <= m < |sc.group| && sc.group[m] == k;
        assert m != 0;
        assert started'[|started|] == i;
      }
    }
  }

  /** The started leaders increase and are below `i`. */
  ghost predicate StartedBelow(started: seq<nat>, i: nat)
  {
    && (forall a, b :: 0 <= a < b < |started| ==> started[a] < started[b])
    && (forall a :: 0 <= a < |started| ==> started[a] < i)
  }

  function LastLeader(started: seq<nat>): nat
  {
    if |started| > 0 then started[|started| - 1] else 0
  }

  lemma {:induction false} StartedAppend(started: seq<nat>, i: nat)
    requires StartedBelow(started, i)
    ensures StartedBelow(started + [i], i + 1) && LastLeader(started + [i]) == i
    ensures LastLeader(started) <= i
  {
  }

  /** Visiting `i` without starting it: at most `i` is marked checked. */
  lemma {:induction false} OuterOkSkip(bucket0: seq<Record>, i: nat, st: Outer, started: seq<nat>, st': Outer)
    requires i < |bucket0| && OuterOk(bucket0, i, st, started)
    requires st' == st || st' == st.(checked := st.checked + {i}, t := st'.t)
    ensures OuterOk(bucket0, i + 1, st', started)
  {
  }

  /** Starting leader `i`, keeping its group or not, and emitting. */
  lemma {:induction false} OuterOkLead(bucket0: seq<Record>, i: nat, st: Outer, started: seq<nat>, st': Outer, g: seq<nat>)
    requires i < |bucket0| && OuterOk(bucket0, i, st, started)
    requires RefinesAll(bucket0, st'.bucket) && Sized(st'.bucket)
    requires forall k :: k in st'.checked ==> k < |bucket0|
    requires GroupShape(g, |bucket0|) && g[0] == i
    requires st'.groups == st.groups || st'.groups == st.groups + [g]
    requires st'.items == st.items + EmitOnce(st'.groups)
    ensures OuterOk(bucket0, i + 1, st', started + [i])
  {
    StartedAppend(started, i);
    assert (st.groups + [g])[..|st.groups|] == st.groups;
    GroupsLedAppend(st.groups, |bucket0|, LastLeader(started), i, st'.groups);
    forall k | 0 <= k < |st.groups|
      ensures |st.groups[k]| > 0 && st.groups[k][0] < i
    {
      assert GroupShape(st.groups[k], |bucket0|);
    }
    EmitAfterLeader(st.groups, started, i, st'.groups);
  }

  /** The report lists exactly the groups with more than one member, when no
      group is led after the last started leader. */
  lemma {:induction false} ReportIsMultiGroups(groups: seq<seq<nat>>, started: seq<nat>, n: nat)
    requires |groups| > 0 ==> |started| > 0
    requires GroupsLed(groups, n, LastLeader(started))
    ensures forall g :: g in Emitted(groups, started) <==> g in groups && |g| > 1
  {
    EmittedFromGroups(groups, started);
    forall g | g in groups && |g| > 1
      ensures g in Emitted(groups, started)
    {
      var k :| 0 <= k < |groups| && groups[k] == g;
      assert GroupShape(groups[k], n);
      EmittedCovers(groups, started, g, |started| - 1);
    }
  }

  /** In a world that holds still the loop follows the static reference. */
  ghost predicate OuterQuiet(sched: Schedule, bucket0: seq<Record>, i: nat, st: Outer, started: seq<nat>)
    requires i <= |bucket0|
  {
    && AllFresh(sched(0), st.bucket)
    && st.checked == StaticChecked(Identities(sched(0), bucket0), i)
    && st.groups == StaticGroups(Identities(sched(0), bucket0), i)
    && started == StaticLeaders(Identities(sched(0), bucket0), i)
  }

  /** A checked index in a world that holds still is not a representative,
      and visiting it changes nothing of the reference. */
  lemma {:induction false} OuterQuietSkip(sched: Schedule, bucket0: seq<Record>, i: nat, st: Outer, started: seq<nat>)
    requires i < |bucket0| && OuterQuiet(sched, bucket0, i, st, started) && i in st.checked
    ensures OuterQuiet(sched, bucket0, i + 1, st, started)
  {
    var keys := Identities(sched(0), bucket0);
    StaticCheckedSkip(keys, i);
  }

  /** An unchecked index in a world that holds still is a representative:
      its class joins the groups and the rest of its class is checked. */
  lemma {:induction false} OuterQuietLeader(sched: Schedule, bucket0: seq<Record>, i: nat, st: Outer, started: seq<nat>, st': Outer)
    requires i < |bucket0| && OuterQuiet(sched, bucket0, i, st, started) && i !in st.checked
    requires AllFresh(sched(0), st'.bucket)
    requires st'.groups == st.groups + [ClassOf(Identities(sched(0), bucket0), i)]
    requires st'.checked == st.checked + Marked(Identities(sched(0), bucket0), i, |bucket0|)
    ensures OuterQuiet(sched, bucket0, i + 1, st', started + [i])
  {
    var keys := Identities(sched(0), bucket0);
    assert Rep(keys, i) == i;
    StaticCheckedLeader(keys, i);
  }

  /** An unchecked index in a world that holds still leads a scan that sees
      the world as the reference does. */
  lemma {:induction false} OuterQuietLeads(sched: Schedule, bucket0: seq<Record>, i: nat, st: Outer, started: seq<nat>)
    requires i < |bucket0| && Quiet(sched, bucket0) && OuterQuiet(sched, bucket0, i, st, started)
    requires i !in st.checked && RefinesAll(bucket0, st.bucket)
    ensures LeaderQuiet(sched, st.bucket, i, st.checked)
    ensures Identities(sched(0), st.bucket) == Identities(sched(0), bucket0)
  {
    RefinedIdentities(sched(0), bucket0, st.bucket);
  }

  /** Appending a group led by `i`, after every started leader, and starting
      `i` extends the report by one emission of all groups. */
  lemma {:induction false} EmitAfterLeader(groups: seq<seq<nat>>, started: seq<nat>, i: nat, groups': seq<seq<nat>>)
    requires forall a :: 0 <= a < |started| ==> started[a] < i
    requires forall k :: 0 <= k < |groups| ==> |groups[k]| > 0 && groups[k][0] < i
    requires groups' == groups || (|groups'| == |groups| + 1 && groups'[..|groups|] == groups
                                   && |groups'[|groups|]| > 0 && groups'[|groups|][0] == i)
    ensures Emitted(groups', started + [i]) == Emitted(groups, started) + EmitOnce(groups')
  {
    var started' := started + [i];
    assert started'[..|started|] == started;
    if groups' != groups {
      assert groups' == groups + [groups'[|groups|]];
      EmittedIgnoresLaterGroup(groups, started, groups'[|groups|]);
    }
    LedUpToAll(groups', i);
  }

  /** The leader loop's invariant after the leaders below `i`. */
  ghost predicate Progress(sched: Schedule, bucket0: seq<Record>, i: nat, st: Outer, started: seq<nat>)
  {
    && OuterOk(bucket0, i, st, started)
    && (Quiet(sched, bucket0) ==> OuterQuiet(sched, bucket0, i, st, started))
  }

  lemma {:induction false} ProgressStart(sched: Schedule, bucket0: seq<Record>, t: nat)
    requires Sized(bucket0)
    ensures Progress(sched, bucket0, 0, Outer(bucket0, {}, [], [], t), [])
  {
  }

  /** After the last leader: the report lists exactly the groups with more
      than one member, and a world that holds still yields the reference. */
  lemma {:induction false} ProgressDone(sched: Schedule, bucket0: seq<Record>, st: Outer, started: seq<nat>)
    requires Progress(sched, bucket0, |bucket0|, st, started)
    ensures RefinesAll(bucket0, st.bucket)
    ensures forall k :: 0 <= k < |st.groups| ==> GroupShape(st.groups[k], |bucket0|)
    ensures forall g :: g in st.items <==> g in st.groups && |g| > 1
    ensures st.items == Emitted(st.groups, started)
    ensures Quiet(sched, bucket0) ==>
      && AllFresh(sched(0), st.bucket)
      && st.groups == StaticGroups(Identities(sched(0), bucket0), |bucket0|)
      && started == StaticLeaders(Identities(sched(0), bucket0), |bucket0|)
  {
    ReportIsMultiGroups(st.groups, started, |bucket0|);
  }

  /** One pass of the leader loop, at index `i`: skip a checked index; mark a
      changed one checked; otherwise grow its group, keep it unless the leader
      changed meanwhile, and emit every group built so far. */
  method Lead(bucket0: seq<Record>, i: nat, st: Outer, ghost started: seq<nat>, sched: Schedule, hasher: Hasher,
              ghost t0: nat)
    returns (st': Outer, ghost started': seq<nat>)
    requires i < |bucket0| && Progress(sched, bucket0, i, st, started)
    requires t0 <= st.t && OuterJustified(sched, bucket0, t0, i, st, started)
    ensures st'.t >= st.t
    ensures Progress(sched, bucket0, i + 1, st', started')
    ensures OuterJustified(sched, bucket0, t0, i + 1, st', started')
    // checked marks only accumulate
    ensures st.checked <= st'.checked
    // a checked index is skipped
    ensures i in st.checked ==> st' == st && started' == started
    // a changed index is marked checked, and starts nothing
    ensures i !in st.checked && Changed(sched(st.t), st.bucket[i]) ==>
      st'.checked == st.checked + {i} && st'.groups == st.groups && started' == started
    // any other index is started as a leader
    ensures i !in st.checked && !Changed(sched(st.t), st.bucket[i]) ==> started' == started + [i]
  {
    ghost var quiet := Quiet(sched, bucket0) && OuterQuiet(sched, bucket0, i, st, started);
    if i in st.checked {
      st', started' := st, started;
      OuterOkSkip(bucket0, i, st, started, st');
      OuterJustifiedSkip(sched, bucket0, t0, i, st, started);
      if quiet {
        OuterQuietSkip(sched, bucket0, i, st, started);
      }
    } else if Changed(sched(st.t), st.bucket[i]) {
      assert !quiet;
      st', started' := st.(checked := st.checked + {i}, t := st.t + 1), started;
      OuterOkSkip(bucket0, i, st, started, st');
      ChangedRefined(sched(st.t), bucket0[i], st.bucket[i]);
      assert SeenChanged(sched, bucket0, i, t0);
      OuterJustifiedChanged(sched, bucket0, t0, i, st, started, st');
    } else {
      if quiet {
        OuterQuietLeads(sched, bucket0, i, st, started);
      }
      var sc := GrowGroup(st.bucket, i, st.checked, sched, st.t + 1, hasher);
      ScanGroupShape(st.bucket, i, st.checked, sc);
      RefinesAllTrans(bucket0, st.bucket, sc.bucket);
      var groups := if sc.kept then st.groups + [sc.group] else st.groups;
      started' := started + [i];
      st' := Outer(sc.bucket, sc.checked, groups, st.items + EmitOnce(groups), sc.t);
      OuterOkLead(bucket0, i, st, started, st', sc.group);
      ScanJustifiedRefined(sched, bucket0, st.bucket, i, st.checked, t0, st.t + 1, sc);
      OuterJustifiedLead(sched, bucket0, t0, i, st, started, sc, st');
      if quiet {
        OuterQuietLeader(sched, bucket0, i, st, started, st');
      }
    }
  }

  /** What the leader loop of `GroupBucket` carries once the indices below
      `i` are done. */
  ghost predicate OuterAt(sched: Schedule, bucket0: seq<Record>, t0: nat, i: nat, st: Outer, started: seq<nat>)
  {
    && i <= |bucket0| && t0 <= st.t
    && Progress(sched, bucket0, i, st, started)
    && OuterJustified(sched, bucket0, t0, i, st, started)
  }

  /** After the last leader, what `GroupBucket` promises of the final state. */
  lemma {:induction false} OuterDone(sched: Schedule, bucket0: seq<Record>, t0: nat, st: Outer, started: seq<nat>)
    requires OuterAt(sched, bucket0, t0, |bucket0|, st, started)
    ensures RefinesAll(bucket0, st.bucket)
    ensures forall k :: 0 <= k < |st.groups| ==> GroupShape(st.groups[k], |bucket0|)
    ensures forall g :: g in st.items <==> g in st.groups && |g| > 1
    ensures st.items == Emitted(st.groups, started)
    ensures Quiet(sched, bucket0) ==>
      && AllFresh(sched(0), st.bucket)
      && st.groups == StaticGroups(Identities(sched(0), bucket0), |bucket0|)
      && started == StaticLeaders(Identities(sched(0), bucket0), |bucket0|)
    ensures forall k, m :: 0 <= k < |st.groups| && 1 <= m < |st.groups[k]| ==>
      Joined(sched, bucket0, st.groups[k][0], st.groups[k][m], t0)
    ensures forall a :: 0 <= a < |started| ==> Leads(st.groups, started[a]) || SeenChanged(sched, bucket0, started[a], t0)
    ensures forall k :: 0 <= k < |bucket0| ==>
      k in started || SeenChanged(sched, bucket0, k, t0) || JoinedSome(sched, bucket0, started, k, t0)
  {
    ProgressDone(sched, bucket0, st, started);
  }

  /** `Lead` with only the facts the leader loop carries. */
  method LeadInLoop(bucket0: seq<Record>, i: nat, st: Outer, ghost started: seq<nat>, sched: Schedule, hasher: Hasher,
                    ghost t0: nat)
    returns (st': Outer, ghost started': seq<nat>)
    requires i < |bucket0| && OuterAt(sched, bucket0, t0, i, st, started)
    ensures OuterAt(sched, bucket0, t0, i + 1, st', started')
  {
    st', started' := Lead(bucket0, i, st, started, sched, hasher, t0);
  }

  /** The leader loop of `GroupBucket`. */
  method LeaderLoop(bucket: seq<Record>, sched: Schedule, t: nat, hasher: Hasher)
    returns (st: Outer, ghost started: seq<nat>)
    requires Sized(bucket)
    ensures OuterAt(sched, bucket, t, |bucket|, st, started)
  {
    var n := |bucket|;
    st := Outer(bucket, {}, [], [], t);
    started := [];
    ProgressStart(sched, bucket, t);
    var i := 0;
    while i < n
      invariant OuterAt(sched, bucket, t, i, st, started)
    {
      st, started := LeadInLoop(bucket, i, st, started, sched, hasher, t);
      i := i + 1;
    }
  }

  /** The grouping of one bucket: the leader loop over its indices. The
      report lists exactly the groups with more than one member, each as often
      as leaders were started after it; in a world that holds still the groups
      are the identity classes, one per representative. */
  method GroupBucket(bucket: seq<Record>, sched: Schedule, t: nat, hasher: Hasher)
    returns (bucket': seq<Record>, groups: seq<seq<nat>>, items: seq<seq<nat>>, t': nat, ghost started: seq<nat>)
    requires Sized(bucket)
    ensures RefinesAll(bucket, bucket') && t' >= t
    ensures forall k :: 0 <= k < |groups| ==> GroupShape(groups[k], |bucket|)
    ensures forall g :: g in items <==> g in groups && |g| > 1
    ensures items == Emitted(groups, started)
    ensures Quiet(sched, bucket) ==>
      && AllFresh(sched(0), bucket')
      && groups == StaticGroups(Identities(sched(0), bucket), |bucket|)
      && started == StaticLeaders(Identities(sched(0), bucket), |bucket|)
    // in any world: every member after a group's leader joined that leader
    // from instant t on, a started leader without a group was found changed,
    // and every index was started, found changed, or joined a started leader
    ensures forall k, m :: 0 <= k < |groups| && 1 <= m < |groups[k]| ==>
      Joined(sched, bucket, groups[k][0], groups[k][m], t)
    ensures forall a :: 0 <= a < |started| ==> Leads(groups, started[a]) || SeenChanged(sched, bucket, started[a], t)
    ensures forall k :: 0 <= k < |bucket| ==>
      k in started || SeenChanged(sched, bucket, k, t) || JoinedSome(sched, bucket, started, k, t)
  {
    var st;
    st, started := LeaderLoop(bucket, sched, t, hasher);
    OuterDone(sched, bucket, t, st, started);
    bucket', groups, items, t' := st.bucket, st.groups, st.items, st.t;
  }
}

=== FILE: record.dfy ===
/** `MyFile`: the metadata snapshot of a candidate file, its lazily filled
    caches (the first 4096 bytes and the full-file hash), the staleness test
    and the verification ladder `compare`. The C++ class mutates its caches
    through `mutable` members; here every operation that fills a cache
    returns the updated record. */
module FileRecord {
  import opened Common
  import opened FileSystem
  import opened ByteCompare

  /** Size of the first-block buffer `first_4k_data_`. */
  const BlockSize: nat := 4096

  /** A 64-bit hash function over bytes: XXH64 with the fixed seed 42, which
      both `hash_data` and `hash_file_xxh64` use. Its internals are not
      modelled; only its determinism matters. */
  type Hasher = seq<byte> -> u64

  datatype Record = Record(
    path: Path,
    size: u64,
    atime: u64,
    mtime: u64,
    ctime: u64,
    firstSet: bool,        // `first_4k_`
    first: seq<byte>,      // `first_4k_data_`
    hashed: bool,          // `hashed_`
    hash: u64              // `hash_`
  )

  /** The buffer of a record: 4096 bytes, all zero until the first read. */
  predicate WellFormed(r: Record)
  {
    |r.first| == BlockSize && (!r.firstSet ==> r.first == Zeros(BlockSize))
  }

  /** The first block of `c`: its first (at most) 4096 bytes, zero-padded. */
  function FirstBlock(c: seq<byte>): (b: seq<byte>)
    ensures |b| == BlockSize
    ensures forall i :: 0 <= i < BlockSize ==> b[i] == if i < |c| then c[i] else 0
  {
    var m := Min(BlockSize, |c|);
    c[..m] + Zeros(BlockSize - m)
  }

  /** The buffer a first read of `p` leaves behind: the file's first block, or
      the untouched zero buffer when the file cannot be opened. */
  function BlockOf(fs: FileSystem, p: Path): seq<byte>
  {
    if CanOpen(fs, p) then FirstBlock(fs[p].content) else Zeros(BlockSize)
  }

  /** Two files of the same length have the same first block exactly when
      their first `min(4096, length)` bytes agree. */
  lemma {:induction false} FirstBlockEqualIff(c1: seq<byte>, c2: seq<byte>)
    requires |c1| == |c2|
    ensures FirstBlock(c1) == FirstBlock(c2) <==>
      c1[..Min(BlockSize, |c1|)] == c2[..Min(BlockSize, |c2|)]
  {
    var m := Min(BlockSize, |c1|);
    if FirstBlock(c1) == FirstBlock(c2) {
      forall i | 0 <= i < m ensures c1[i] == c2[i] {
        assert FirstBlock(c1)[i] == FirstBlock(c2)[i];
      }
    }
  }

  /** The record constructor `MyFile(p, ok)`: `None` when `ok` ends false. */
  function Open(fs: FileSystem, p: Path): (r: Option<Record>)
    // admitted exactly when p is an existing regular file with all three
    // times nonzero and a nonzero size
    ensures r.Some? <==>
      && p in fs && fs[p].File?
      && fs[p].atime != 0 && fs[p].mtime != 0 && fs[p].ctime != 0
      && |fs[p].content| != 0
    ensures r.Some? ==> r.value.path == p && WellFormed(r.value)
    ensures r.Some? ==> !r.value.firstSet && !r.value.hashed
  {
    if !LegalFile(fs, p) then None
    else
      var atime := Atime(fs, p);
      var mtime := Mtime(fs, p);
      var ctime := Ctime(fs, p);
      var size := SafeFileSize(fs, p);
      if Min(Min(atime, mtime), ctime) == 0 then None
      else if size == 0 || size == UINT64_MAX then None
      else Some(Record(p, size, atime, mtime, ctime, false, Zeros(BlockSize), false, 0))
  }

  /** `changed()`: the path is no longer a legal file, or one of the three
      times or the size differs from the snapshot. */
  function Changed(fs: FileSystem, r: Record): (c: bool)
    ensures !c <==>
      && r.path in fs && fs[r.path].File?
      && fs[r.path].atime == r.atime && fs[r.path].mtime == r.mtime
      && fs[r.path].ctime == r.ctime && |fs[r.path].content| == r.size
  {
    if !LegalFile(fs, r.path) then true
    else if r.atime != Atime(fs, r.path) then true
    else if r.mtime != Mtime(fs, r.path) then true
    else if r.ctime != Ctime(fs, r.path) then true
    else if r.size != SafeFileSize(fs, r.path) then true
    else false
  }

  /** A record is never stale in the filesystem it was captured from. */
  lemma {:induction false} OpenIsUnchanged(fs: FileSystem, p: Path)
    requires Open(fs, p).Some?
    ensures !Changed(fs, Open(fs, p).value)
  {
  }

  /** The result of `set_first_4k`: the updated record and the returned flag. */
  datatype Loaded = Loaded(rec: Record, ok: bool)

  /** `set_first_4k()`. The flag is set before the file is opened, so a failed
      open leaves the buffer as it was for good. A read of a short file fills
      only the first `size` bytes of the buffer. */
  function SetFirst4k(fs: FileSystem, r: Record): (l: Loaded)
    requires |r.first| == BlockSize
    // memoised: a second call reads nothing and changes nothing
    ensures r.firstSet ==> l == Loaded(r, true)
    // the first call leaves the file's zero-padded first block in the buffer
    ensures WellFormed(r) && !r.firstSet ==>
      l.rec.first == BlockOf(fs, r.path) && l.ok == CanOpen(fs, r.path)
    ensures l.rec.firstSet && WellFormed(l.rec)
    ensures l.rec == r.(firstSet := true, first := l.rec.first)
  {
    if !r.firstSet then
      var r1 := r.(firstSet := true);
      if !CanOpen(fs, r.path) then Loaded(r1, false)
      else
        var c := fs[r.path].content;
        var m := Min(BlockSize, |c|);
        var buf := c[..m] + r.first[m..];
        assert WellFormed(r) ==> buf == FirstBlock(c);
        Loaded(r1.(first := buf), true)
    else Loaded(r, true)
  }

  /** `hash_file_xxh64`: the hash of the whole file, 0 when it cannot be opened. */
  function FileHash(fs: FileSystem, p: Path, hasher: Hasher): (h: u64)
    ensures !CanOpen(fs, p) ==> h == 0
    ensures CanOpen(fs, p) ==> h == hasher(fs[p].content)
  {
    if CanOpen(fs, p) then hasher(fs[p].content) else 0
  }

  /** The full-file hash depends on the bytes alone: two readable files with
      the same contents hash alike, whatever their paths, times or inodes and
      whichever filesystem they are read from. */
  lemma {:induction false} FileHashByContent(fs1: FileSystem, p: Path, fs2: FileSystem, q: Path, hasher: Hasher)
    requires CanOpen(fs1, p) && CanOpen(fs2, q)
    requires fs1[p].content == fs2[q].content
    ensures FileHash(fs1, p, hasher) == FileHash(fs2, q, hasher)
  {
  }

  /** The result of `hash()` and of `little_hash()`: the updated record and
      the returned value. */
  datatype Hashed = Hashed(rec: Record, value: u64)

  /** `hash()`: computes the full-file hash on the first call only. */
  function Hash(fs: FileSystem, r: Record, hasher: Hasher): (h: Hashed)
    // memoised: once computed, the cached value is returned and kept
    ensures r.hashed ==> h == Hashed(r, r.hash)
    ensures !r.hashed ==> h.value == FileHash(fs, r.path, hasher)
    ensures h.rec.hashed && h.value == h.rec.hash
    ensures h.rec == r.(hashed := true, hash := h.rec.hash)
  {
    if !r.hashed then
      var r1 := r.(hashed := true, hash := FileHash(fs, r.path, hasher));
      Hashed(r1, r1.hash)
    else Hashed(r, r.hash)
  }

  /** `little_hash()`: loads the first block if needed and hashes all 4096
      bytes of the buffer. */
  function LittleHash(fs: FileSystem, r: Record, hasher: Hasher): (h: Hashed)
    requires |r.first| == BlockSize
    ensures h.value == hasher(h.rec.first)
    ensures h.rec.firstSet && WellFormed(h.rec)
    ensures WellFormed(r) && !r.firstSet ==> h.rec.first == BlockOf(fs, r.path)
    ensures r.firstSet ==> h.rec == r
  {
    var l := SetFirst4k(fs, r);
    Hashed(l.rec, hasher(l.rec.first))
  }

  /** Files with the same contents, both readable, get the same little hash
      and the same size: they land under the same bucket key. */
  lemma {:induction false} EqualContentsEqualKeys(fs: FileSystem, r1: Record, r2: Record, hasher: Hasher)
    requires WellFormed(r1) && WellFormed(r2) && !r1.firstSet && !r2.firstSet
    requires CanOpen(fs, r1.path) && CanOpen(fs, r2.path)
    requires !Changed(fs, r1) && !Changed(fs, r2)
    requires fs[r1.path].content == fs[r2.path].content
    ensures LittleHash(fs, r1, hasher).value == LittleHash(fs, r2, hasher).value
    ensures r1.size == r2.size
  {
  }

  /** `r2` is `r1` with possibly more of its caches filled in; a filled cache
      is never recomputed or changed. */
  predicate Refines(r1: Record, r2: Record)
  {
    && r2.path == r1.path && r2.size == r1.size
    && r2.atime == r1.atime && r2.mtime == r1.mtime && r2.ctime == r1.ctime
    && (r1.firstSet ==> r2.firstSet && r2.first == r1.first)
    && (r1.hashed ==> r2.hashed && r2.hash == r1.hash)
    && (WellFormed(r1) ==> WellFormed(r2))
  }

  /** The result of `compare`, with both records' updated caches. */
  datatype CompareOutcome = CompareOutcome(result: int, a: Record, b: Record)

  /** `a.compare(b)`, with the deep comparison's re-read of the sizes taken
      from `after`. The hash step compares the `hashed_` flags, as the program
      does; `CompareIntended` compares the hash values. */
  function Compare(fs: FileSystem, after: FileSystem, a: Record, b: Record, hasher: Hasher): (o: CompareOutcome)
    requires |a.first| == BlockSize && |b.first| == BlockSize
    // different sizes: -1 or 1 by size order
    ensures a.size != b.size ==> o.result == (if a.size < b.size then -1 else 1)
    // a match passes the size, first-block and deep steps, and nothing else:
    // the hash step never rejects a pair
    ensures o.result == 0 <==>
      && a.size == b.size
      && SetFirst4k(fs, a).rec.first == SetFirst4k(fs, b).rec.first
      && CheckFileEqualDeep(fs, after, a.path, b.path).code == 0
    ensures Refines(a, o.a) && Refines(b, o.b)
  {
    if a.size != b.size then CompareOutcome(if a.size < b.size then -1 else 1, a, b)
    else
      var a1 := SetFirst4k(fs, a).rec;
      var b1 := SetFirst4k(fs, b).rec;
      var c := MemCmp(a1.first, b1.first);
      if c != 0 then CompareOutcome(c, a1, b1)
      else
        var a2 := Hash(fs, a1, hasher).rec;
        var b2 := Hash(fs, b1, hasher).rec;
        if a2.hashed != b2.hashed then CompareOutcome(if !a2.hashed then -1 else 1, a2, b2)
        else CompareOutcome(CheckFileEqualDeep(fs, after, a.path, b.path).code, a2, b2)
  }

  /** The snapshot still describes the file, and the buffer holds what a first
      read of it yields. */
  predicate Fresh(fs: FileSystem, r: Record)
  {
    !Changed(fs, r) && r.firstSet && |r.first| == BlockSize && r.first == BlockOf(fs, r.path)
  }

  lemma {:induction false} RefinesKeepsFresh(fs: FileSystem, r1: Record, r2: Record)
    requires Fresh(fs, r1) && Refines(r1, r2)
    ensures Fresh(fs, r2)
  {
  }

  /** In a filesystem that holds still, `compare` of two distinct fresh records
      returns 0 exactly when both files can be read and their contents are
      equal. */
  lemma {:induction false} CompareStatic(fs: FileSystem, a: Record, b: Record, hasher: Hasher)
    requires Fresh(fs, a) && Fresh(fs, b) && a.path != b.path
    ensures Compare(fs, fs, a, b, hasher).result == 0 <==>
      CanOpen(fs, a.path) && CanOpen(fs, b.path) && fs[a.path].content == fs[b.path].content
  {
    var o := Compare(fs, fs, a, b, hasher);
    if CanOpen(fs, a.path) && CanOpen(fs, b.path) {
      var ca := fs[a.path].content;
      var cb := fs[b.path].content;
      if ca == cb {
        assert a.size == b.size;
        assert a.first == b.first;
      }
    }
  }

  /** The evidently intended `compare`: the hash step compares the full-file
      hashes `hash_`, not the `hashed_` flags. */
  function CompareIntended(fs: FileSystem, after: FileSystem, a: Record, b: Record, hasher: Hasher): (o: CompareOutcome)
    requires |a.first| == BlockSize && |b.first| == BlockSize
    ensures a.size != b.size ==> o.result == (if a.size < b.size then -1 else 1)
    // a match now also requires equal full-file hashes
    ensures o.result == 0 <==>
      && a.size == b.size
      && SetFirst4k(fs, a).rec.first == SetFirst4k(fs, b).rec.first
      && Hash(fs, SetFirst4k(fs, a).rec, hasher).value == Hash(fs, SetFirst4k(fs, b).rec, hasher).value
      && CheckFileEqualDeep(fs, after, a.path, b.path).code == 0
    ensures Refines(a, o.a) && Refines(b, o.b)
  {
    if a.size != b.size then CompareOutcome(if a.size < b.size then -1 else 1, a, b)
    else
      var a1 := SetFirst4k(fs, a).rec;
      var b1 := SetFirst4k(fs, b).rec;
      var c := MemCmp(a1.first, b1.first);
      if c != 0 then CompareOutcome(c, a1, b1)
      else
        var a2 := Hash(fs, a1, hasher);
        var b2 := Hash(fs, b1, hasher);
        if a2.value != b2.value then CompareOutcome(if a2.value < b2.value then -1 else 1, a2.rec, b2.rec)
        else CompareOutcome(CheckFileEqualDeep(fs, after, a.path, b.path).code, a2.rec, b2.rec)
  }

  /** A cached full-file hash, if any, is the hash of the file as it is now. */
  predicate HashCurrent(fs: FileSystem, r: Record, hasher: Hasher)
  {
    r.hashed ==> r.hash == FileHash(fs, r.path, hasher)
  }

  /** In a filesystem that holds still and with current hash caches, the
      intended ladder decides like the written one: the defect costs full
      reads, not answers. */
  lemma {:induction false} CompareIntendedStatic(fs: FileSystem, a: Record, b: Record, hasher: Hasher)
    requires Fresh(fs, a) && Fresh(fs, b) && a.path != b.path
    requires HashCurrent(fs, a, hasher) && HashCurrent(fs, b, hasher)
    ensures CompareIntended(fs, fs, a, b, hasher).result == 0 <==>
      CanOpen(fs, a.path) && CanOpen(fs, b.path) && fs[a.path].content == fs[b.path].content
  {
    CompareStatic(fs, a, b, hasher);
  }

  /** The hash step as written never rejects: two records whose cached full
      hashes differ (hashed at different moments, say) but whose files are now
      identical still compare equal, while the intended ladder rejects them. */
  lemma {:induction false} HashFlagStepNeverRejects(hasher: Hasher)
    ensures
      var c: Content := [7];
      var fs := map["/r/a" := File(c, 1, 1, 1, 10, true), "/r/b" := File(c, 1, 1, 1, 11, true)];
      var a := Record("/r/a", 1, 1, 1, 1, true, FirstBlock(c), true, 1);
      var b := Record("/r/b", 1, 1, 1, 1, true, FirstBlock(c), true, 2);
      Compare(fs, fs, a, b, hasher).result == 0 && CompareIntended(fs, fs, a, b, hasher).result != 0
  {
  }
}

=== FILE: scan_cli.dfy ===
/** The scanner's command line: the checks `main` makes on its arguments
    before it starts a `DuplicateFinder`, as a decision over the filesystem.
    Opening the output stream is an oracle `opens`. */
module ScanCli {
  import opened Common
  import opened FileSystem

  /** Where the decision sequence ends. Every outcome but `Run` exits with 1
      before anything is searched. */
  datatype Outcome =
    | Usage                          // fewer than two arguments
    | NoSuchDirectory                // the search root does not exist
    | NotADirectory                  // the search root is not a directory
    | OutputExists                   // the output path, as given, exists
    | BadExtension                   // the output path has an extension other than `.json`
    | OpenFailed                     // the (completed) output path cannot be opened for writing
    | Run(dir: Path, output: Path)   // search `dir`, write the report to `output`

  function ExitCode(o: Outcome): int
  {
    if o.Run? then 0 else 1
  }

  // ---------------------------------------------------------------------
  // std::filesystem::path, restricted to POSIX separators
  // ---------------------------------------------------------------------

  /** The index of the last `c` in `s`, or -1. */
  function LastIndex(s: string, c: char): (i: int)
    ensures -1 <= i < |s|
    ensures i >= 0 ==> s[i] == c
    ensures forall k :: i < k < |s| ==> s[k] != c
    decreases |s|
  {
    if |s| == 0 then -1
    else if s[|s| - 1] == c then |s| - 1
    else LastIndex(s[..|s| - 1], c)
  }

  /** The contract of `LastIndex` pins its value down. */
  lemma {:induction false} LastIndexUnique(s: string, c: char, i: int)
    requires -1 <= i < |s|
    requires i >= 0 ==> s[i] == c
    requires forall k :: i < k < |s| ==> s[k] != c
    ensures LastIndex(s, c) == i
  {
  }

  /** The last `c` of `s + t` is the last one of `t` if `t` has one, and
      otherwise the last one of `s`. */
  lemma {:induction false} LastIndexAppend(s: string, t: string, c: char)
    ensures LastIndex(s + t, c) ==
      if LastIndex(t, c) >= 0 then |s| + LastIndex(t, c) else LastIndex(s, c)
  {
    var j := LastIndex(t, c);
    var i := if j >= 0 then |s| + j else LastIndex(s, c);
    forall k | i < k < |s + t|
      ensures (s + t)[k] != c
    {
      if k >= |s| {
        assert (s + t)[k] == t[k - |s|];
      } else {
        assert (s + t)[k] == s[k];
      }
    }
    LastIndexUnique(s + t, c, i);
  }

  /** `path::filename()`: the text after the last separator, empty for a
      path that ends in one. */
  function FileName(p: Path): (f: string)
    ensures |f| <= |p| && p[|p| - |f|..] == f
    ensures forall k :: 0 <= k < |f| ==> f[k] != '/'
    ensures |f| < |p| ==> p[|p| - |f| - 1] == '/'
  {
    p[LastIndex(p, '/') + 1..]
  }

  /** `path::extension()`: the file name from its last dot on. Empty for the
      names "." and "..", for a name without a dot, and for a name whose
      only dot is its first character. */
  function Extension(p: Path): (e: string)
    ensures e != [] ==> e[0] == '.' && |e| < |FileName(p)|
    ensures e != [] ==> FileName(p)[|FileName(p)| - |e|..] == e
    ensures forall k :: 0 < k < |e| ==> e[k] != '.'
  {
    var f := FileName(p);
    var d := LastIndex(f, '.');
    if f == "." || f == ".." || d <= 0 then "" else f[d..]
  }

  /** `path::replace_extension(r)` for a replacement that starts with a dot:
      the extension, if any, gives way to `r`. */
  function ReplaceExtension(p: Path, r: string): (q: Path)
    requires |r| > 0 && r[0] == '.'
    ensures Extension(p) == [] ==> q == p + r
  {
    p[..|p| - |Extension(p)|] + r
  }

  /** Appending `.json` extends the file name by `.json`. */
  lemma {:induction false} FileNameAppendJson(p: Path)
    ensures FileName(p + ".json") == FileName(p) + ".json"
  {
    var json := ".json";
    LastIndexUnique(json, '/', -1);
    LastIndexAppend(p, json, '/');
    var i := LastIndex(p, '/') + 1;
    assert (p + json)[i..] == p[i..] + json;
  }

  /** A file name gains the extension `.json` when `.json` is appended. */
  lemma {:induction false} AppendJsonExtension(p: Path)
    requires FileName(p) != []
    ensures FileName(p + ".json") == FileName(p) + ".json"
    ensures Extension(p + ".json") == ".json"
  {
    var json := ".json";
    FileNameAppendJson(p);
    var f := FileName(p);
    LastIndexUnique(json, '.', 0);
    LastIndexAppend(f, json, '.');
    assert (f + json)[|f|..] == json;
  }

  // ---------------------------------------------------------------------
  // The decision
  // ---------------------------------------------------------------------

  /** A path without its trailing separators; a path made only of
      separators keeps one. */
  function StripSeparators(p: Path): (q: Path)
    ensures |q| <= |p| && q == p[..|q|]
    ensures forall k :: |q| <= k < |p| ==> p[k] == '/'
    ensures |q| <= 1 || q[|q| - 1] != '/'
    ensures |p| > 0 ==> |q| > 0
    decreases |p|
  {
    if |p| > 1 && p[|p| - 1] == '/' then StripSeparators(p[..|p| - 1]) else p
  }

  /** `filesystem::exists` on an argument: the path names an entry once its
      trailing separators are dropped, and with separators only a directory. */
  predicate ArgExists(fs: FileSystem, p: Path)
  {
    var q := StripSeparators(p);
    Exists(fs, q) && (q != p ==> IsDirectory(fs, q))
  }

  /** `filesystem::is_directory` on an argument. */
  predicate ArgIsDirectory(fs: FileSystem, p: Path)
  {
    IsDirectory(fs, StripSeparators(p))
  }

  /** The output path `main` opens: `.json` appended to a path without an
      extension, the path itself otherwise. */
  function Completed(out: Path): Path
  {
    if Extension(out) == [] then ReplaceExtension(out, ".json") else out
  }

  /** `main`'s checks, in order. `args` is `argv` with the program name
      first; `opens` says whether an output stream on a path opens. The
      existence check reads the output path as given, before completion.
      A run walks the root with its trailing separators dropped. For a root
      with at most one trailing separator, and for `/`, the walk forms the
      entry paths the program forms; a root with more is reported without
      them. */
  function Validate(args: seq<string>, fs: FileSystem, opens: Path -> bool): (o: Outcome)
    ensures o == Usage <==> |args| < 3
    ensures o.Run? ==> o.dir == StripSeparators(args[1]) && IsDirectory(fs, o.dir) && opens(o.output)
    // the report goes to the given path when it ends in `.json`, and to the
    // given path with `.json` appended when it has no extension at all
    ensures o.Run? ==>
      || (Extension(args[2]) == ".json" && o.output == args[2])
      || (Extension(args[2]) == [] && o.output == args[2] + ".json")
  {
    if |args| < 3 then Usage else Decide(args[1], args[2], fs, opens)
  }

  /** The checks after the argument count, on the root `dir` and the output
      path `out`. */
  function Decide(dir: Path, out: Path, fs: FileSystem, opens: Path -> bool): Outcome
  {
    if !ArgExists(fs, dir) then NoSuchDirectory
    else if !ArgIsDirectory(fs, dir) then NotADirectory
    else if ArgExists(fs, out) then OutputExists
    else if Extension(out) != [] && Extension(out) != ".json" then BadExtension
    else if !opens(Completed(out)) then OpenFailed
    else Run(StripSeparators(dir), Completed(out))
  }

  /** Each outcome comes exactly when the checks before it pass and its own
      fails, in the order `main` makes them. */
  lemma {:induction false} ValidateOutcomes(args: seq<string>, fs: FileSystem, opens: Path -> bool)
    ensures var o := Validate(args, fs, opens);
      && (o == NoSuchDirectory <==> |args| >= 3 && !ArgExists(fs, args[1]))
      && (o == NotADirectory <==>
            |args| >= 3 && ArgExists(fs, args[1]) && !ArgIsDirectory(fs, args[1]))
      && (o == OutputExists <==>
            |args| >= 3 && ArgIsDirectory(fs, args[1]) && ArgExists(fs, args[2]))
      && (o == BadExtension <==>
            |args| >= 3 && ArgIsDirectory(fs, args[1]) && !ArgExists(fs, args[2]) &&
            Extension(args[2]) != [] && Extension(args[2]) != ".json")
      && (o == OpenFailed <==>
            |args| >= 3 && ArgIsDirectory(fs, args[1]) && !ArgExists(fs, args[2]) &&
            (Extension(args[2]) == [] || Extension(args[2]) == ".json") && !opens(Completed(args[2])))
      && (o.Run? <==>
            |args| >= 3 && ArgIsDirectory(fs, args[1]) && !ArgExists(fs, args[2]) &&
            (Extension(args[2]) == [] || Extension(args[2]) == ".json") && opens(Completed(args[2])))
  {
  }

  /** Arguments after the second are never looked at. */
  lemma {:induction false} ExtraArgumentsIgnored(args: seq<string>, fs: FileSystem, opens: Path -> bool)
    requires |args| >= 3
    ensures Validate(args, fs, opens) == Validate(args[..3], fs, opens)
  {
    var a := args[..3];
    assert a[1] == args[1] && a[2] == args[2];
    assert Validate(a, fs, opens) == Decide(args[1], args[2], fs, opens);
  }

  /** With fewer than two arguments the answer is `Usage` whatever the
      filesystem holds. */
  lemma {:induction false} UsageBeforeFilesystem(args: seq<string>, fs1: FileSystem, fs2: FileSystem, o1: Path -> bool, o2: Path -> bool)
    requires |args| < 3
    ensures Validate(args, fs1, o1) == Validate(args, fs2, o2) == Usage
    ensures ExitCode(Usage) == 1
  {
  }

  /** An accepted output path with a non-empty file name ends up with the
      extension `.json`. */
  lemma {:induction false} RunOutputIsJson(args: seq<string>, fs: FileSystem, opens: Path -> bool)
    requires Validate(args, fs, opens).Run?
    requires FileName(args[2]) != []
    ensures Extension(Validate(args, fs, opens).output) == ".json"
  {
    if Extension(args[2]) == [] {
      AppendJsonExtension(args[2]);
    }
  }

  /** The checks all pass: the root names a directory, nothing is at the
      output path as given, its extension is `.json` or absent, and the
      completed path opens. Then the program runs. */
  lemma {:induction false} RunWhenChecksPass(args: seq<string>, fs: FileSystem, opens: Path -> bool)
    requires |args| >= 3 && ArgIsDirectory(fs, args[1]) && !ArgExists(fs, args[2])
    requires Extension(args[2]) == [] || Extension(args[2]) == ".json"
    requires opens(Completed(args[2]))
    ensures Validate(args, fs, opens) == Run(StripSeparators(args[1]), Completed(args[2]))
  {
  }

  /** An output path ending in a separator names the directory before it:
      an existing directory `out` refuses `out/`. */
  lemma {:induction false} OutputDirectoryRefused(fs: FileSystem, opens: Path -> bool)
    requires IsDirectory(fs, "d") && IsDirectory(fs, "out")
    ensures Validate(["find_dup", "d", "out/"], fs, opens) == OutputExists
  {
    PlainRoot();
    SlashedOutput();
  }

  /** With nothing at `out`, the output `out/` is completed to a hidden file
      `out/.json`, which again has no extension. */
  lemma {:induction false} MissingOutputDirectoryCompleted(fs: FileSystem, opens: Path -> bool)
    requires IsDirectory(fs, "d") && !Exists(fs, "out") && opens("out/.json")
    ensures Validate(["find_dup", "d", "out/"], fs, opens) == Run("d", "out/.json")
    ensures Extension("out/.json") == []
  {
    PlainRoot();
    SlashedOutput();
    HiddenJson();
    RunWhenChecksPass(["find_dup", "d", "out/"], fs, opens);
  }

  /** A root given as `d/` is walked as `d`. */
  lemma {:induction false} RootSeparatorDropped(fs: FileSystem, opens: Path -> bool)
    requires IsDirectory(fs, "d") && !Exists(fs, "r.json") && opens("r.json")
    ensures Validate(["find_dup", "d/", "r.json"], fs, opens) == Run("d", "r.json")
  {
    SlashedRoot();
    JsonOutput();
    RunWhenChecksPass(["find_dup", "d/", "r.json"], fs, opens);
  }

  // The path facts the examples above rest on.

  lemma {:induction false} PlainRoot()
    ensures StripSeparators("d") == "d"
  {
  }

  lemma {:induction false} SlashedRoot()
    ensures StripSeparators("d/") == "d"
  {
    assert "d/"[..1] == "d";
  }

  lemma {:induction false} SlashedOutput()
    ensures StripSeparators("out/") == "out"
    ensures FileName("out/") == [] && Extension("out/") == [] && Completed("out/") == "out/.json"
  {
    assert "out/"[..3] == "out";
    LastIndexUnique("out/", '/', 3);
  }

  lemma {:induction false} HiddenJson()
    ensures FileName("out/.json") == ".json" && Extension("out/.json") == []
  {
    LastIndexUnique("out/.json", '/', 3);
    LastIndexUnique(".json", '.', 0);
  }

  lemma {:induction false} JsonOutput()
    ensures StripSeparators("r.json") == "r.json"
    ensures FileName("r.json") == "r.json" && Extension("r.json") == ".json" && Completed("r.json") == "r.json"
  {
    LastIndexUnique("r.json", '/', -1);
    LastIndexUnique("r.json", '.', 1);
  }

  /** As written, the existence check misses the completed path: with
      `out.json` present, the argument `out` is accepted and `out.json` is
      opened for writing, which truncates it. */
  lemma {:induction false} ExistingCompletedOutputAccepted()
    ensures var fs := map["d" := Dir([], true, 2), "out.json" := File([1], 1, 1, 1, 1, true)];
      var o := Validate(["find_dup", "d", "out"], fs, _ => true);
      o == Run("d", "out.json") && ArgExists(fs, o.output)
  {
    var fs := map["d" := Dir([], true, 2), "out.json" := File([1], 1, 1, 1, 1, true)];
    assert StripSeparators("d") == "d";
    assert StripSeparators("out") == "out";
    assert StripSeparators("out.json") == "out.json";
    assert ArgIsDirectory(fs, "d") && ArgExists(fs, "d") && !ArgExists(fs, "out") && ArgExists(fs, "out.json");
    LastIndexUnique("out", '/', -1);
    assert FileName("out") == "out";
    LastIndexUnique("out", '.', -1);
    assert Extension("out") == [];
    assert Completed("out") == "out.json";
  }

  /** The evident intent: refuse an output path that exists once completed. */
  function ValidateIntended(args: seq<string>, fs: FileSystem, opens: Path -> bool): (o: Outcome)
    ensures o.Run? ==> !ArgExists(fs, o.output) && opens(o.output)
    ensures o == Usage <==> |args| < 3
    // it differs from the program only where the completed path exists
    ensures |args| >= 3 && !ArgExists(fs, Completed(args[2])) ==> o == Validate(args, fs, opens)
  {
    if |args| < 3 then Usage
    else
      var dir := args[1];
      var out := args[2];
      if !ArgExists(fs, dir) then NoSuchDirectory
      else if !ArgIsDirectory(fs, dir) then NotADirectory
      else if ArgExists(fs, out) then OutputExists
      else if Extension(out) != [] && Extension(out) != ".json" then BadExtension
      else if ArgExists(fs, Completed(out)) then OutputExists
      else if !opens(Completed(out)) then OpenFailed
      else Run(StripSeparators(dir), Completed(out))
  }
}

=== FILE: walker.dfy ===
/** The directory walk of `DuplicateFinder::process`: a stack of directories
    still to list, a set of inode numbers already taken, and the buckets of
    accepted records keyed by (little hash, size). The walk reads one fixed
    filesystem. */
module Walker {
  import opened Common
  import opened FileSystem
  import opened FileRecord

  /** A directory whose path contains this string is never listed. */
  const ExcludedDir: string := "xzfs_fuse_tmp"

  /** A bucket key: (little hash, size). */
  type Key = (u64, u64)

  function KeyOf(r: Record, hasher: Hasher): Key
  {
    (hasher(r.first), r.size)
  }

  /** One accepted file: the directory it was listed in, its name there, the
      record that went into its bucket, and the inode it was admitted under. */
  datatype Accepted = Accepted(dir: Path, name: Name, record: Record, inode: u64)

  /** The walk's state: the stack `s`, `checked_inodes`, `all_files`, and the
      accepted files in traversal order. */
  datatype WalkState = WalkState(
    stack: seq<Path>,
    seen: set<u64>,
    buckets: map<Key, seq<Record>>,
    trace: seq<Accepted>
  )

  /** The records of `trace` whose key is `k`, in traversal order. */
  function RecordsWithKey(trace: seq<Accepted>, k: Key, hasher: Hasher): seq<Record>
    decreases |trace|
  {
    if trace == [] then []
    else
      var e := trace[|trace| - 1];
      RecordsWithKey(trace[..|trace| - 1], k, hasher) + (if KeyOf(e.record, hasher) == k then [e.record] else [])
  }

  /** A directory the walk lists: an existing, listable directory whose path
      does not contain the excluded string. */
  predicate Listed(fs: FileSystem, c: Path)
  {
    IsDirectory(fs, c) && fs[c].listable && !Contains(c, ExcludedDir)
  }

  /** `p` is the entry of directory `c` under a visible name: `c`, a
      separator unless `c` ends in one, then a name that `c` lists and that
      does not start with a dot. */
  predicate VisibleChild(fs: FileSystem, c: Path, p: Path)
  {
    && IsDirectory(fs, c) && |p| > |c| && p[..|c|] == c && (EndsInSeparator(c) || p[|c|] == '/')
    && p[NameStart(c)..] in fs[c].children && !Hidden(p[NameStart(c)..])
  }

  /** `p` is the root, or a directory that the walk reaches from the root by
      listing directories and descending through visible names only. */
  ghost predicate Reached(fs: FileSystem, root: Path, p: Path)
    decreases |p|
  {
    || p == root
    || exists k :: 0 <= k < |p| && Listed(fs, p[..k]) && VisibleChild(fs, p[..k], p)
                   && IsDirectory(fs, p) && Reached(fs, root, p[..k])
  }

  /** Descending from a reached, listed directory into a visible
      subdirectory reaches it. */
  lemma {:induction false} ReachedChild(fs: FileSystem, root: Path, c: Path, p: Path)
    requires Reached(fs, root, c) && Listed(fs, c) && VisibleChild(fs, c, p) && IsDirectory(fs, p)
    ensures Reached(fs, root, p)
  {
    assert p[..|c|] == c;
  }

  /** What the walk guarantees of every accepted file. */
  ghost predicate AcceptedOk(fs: FileSystem, root: Path, hasher: Hasher, e: Accepted)
  {
    var p := Join(e.dir, e.name);
    && Listed(fs, e.dir) && StartsWith(e.dir, root) && Reached(fs, root, e.dir)
    && e.name in fs[e.dir].children && !Hidden(e.name)
    && Open(fs, p).Some?
    && e.record == LittleHash(fs, Open(fs, p).value, hasher).rec
    && e.inode == GetInode(fs, p) && e.inode != UINT64_MAX
  }

  ghost predicate AllAccepted(fs: FileSystem, root: Path, hasher: Hasher, trace: seq<Accepted>)
  {
    forall m :: 0 <= m < |trace| ==> AcceptedOk(fs, root, hasher, trace[m])
  }

  ghost predicate DistinctInodes(trace: seq<Accepted>)
  {
    forall m, m' :: 0 <= m < m' < |trace| ==> trace[m].inode != trace[m'].inode
  }

  ghost predicate SeenCovers(seen: set<u64>, trace: seq<Accepted>)
  {
    forall m :: 0 <= m < |trace| ==> trace[m].inode in seen
  }

  /** Each bucket holds the records of its key in traversal order, and every
      key with a record has a bucket. */
  ghost predicate BucketsMatch(buckets: map<Key, seq<Record>>, trace: seq<Accepted>, hasher: Hasher)
  {
    && (forall k :: k in buckets ==> buckets[k] == RecordsWithKey(trace, k, hasher))
    && (forall k :: RecordsWithKey(trace, k, hasher) != [] ==> k in buckets)
  }

  /** The walk invariant over the accepted files and the buckets. */
  ghost predicate Inv(fs: FileSystem, root: Path, hasher: Hasher, st: WalkState)
  {
    && AllAccepted(fs, root, hasher, st.trace)
    && DistinctInodes(st.trace)
    && SeenCovers(st.seen, st.trace)
    && BucketsMatch(st.buckets, st.trace, hasher)
  }

  /** Appending a newly accepted file under an unseen inode to its bucket
      keeps the walk invariant. */
  lemma {:induction false} AppendKeepsInv(fs: FileSystem, root: Path, hasher: Hasher, st: WalkState, e: Accepted)
    requires Inv(fs, root, hasher, st)
    requires AcceptedOk(fs, root, hasher, e) && e.inode !in st.seen
    ensures Inv(fs, root, hasher, Append(st, e, hasher))
  {
    var r := Append(st, e, hasher);
    assert r.trace == st.trace + [e];
    AppendKeepsAccepted(fs, root, hasher, st.trace, e);
    AppendKeepsDistinct(st.seen, st.trace, e);
    AppendKeepsBuckets(st.buckets, st.trace, e, hasher);
  }

  lemma {:induction false} AppendKeepsAccepted(fs: FileSystem, root: Path, hasher: Hasher, trace: seq<Accepted>, e: Accepted)
    requires AllAccepted(fs, root, hasher, trace) && AcceptedOk(fs, root, hasher, e)
    ensures AllAccepted(fs, root, hasher, trace + [e])
  {
    assert forall m :: 0 <= m < |trace| ==> (trace + [e])[m] == trace[m];
  }

  lemma {:induction false} AppendKeepsDistinct(seen: set<u64>, trace: seq<Accepted>, e: Accepted)
    requires DistinctInodes(trace) && SeenCovers(seen, trace) && e.inode !in seen
    ensures DistinctInodes(trace + [e]) && SeenCovers(seen + {e.inode}, trace + [e])
  {
    var t := trace + [e];
    forall m, m' | 0 <= m < m' < |t| ensures t[m].inode != t[m'].inode {
      assert t[m] == trace[m];
      if m' < |trace| {
        assert t[m'] == trace[m'];
      }
    }
  }

  lemma {:induction false} AppendKeepsBuckets(buckets: map<Key, seq<Record>>, trace: seq<Accepted>, e: Accepted, hasher: Hasher)
    requires BucketsMatch(buckets, trace, hasher)
    ensures
      var key := KeyOf(e.record, hasher);
      var bucket := if key in buckets then buckets[key] else [];
      BucketsMatch(buckets[key := bucket + [e.record]], trace + [e], hasher)
  {
    var t := trace + [e];
    assert t[..|t| - 1] == trace;
    forall k
      ensures RecordsWithKey(t, k, hasher) ==
        RecordsWithKey(trace, k, hasher) + (if KeyOf(e.record, hasher) == k then [e.record] else [])
    {
    }
  }

  /** Records `e` as accepted: its inode is taken and its record appended to
      the bucket of its key. */
  function Append(st: WalkState, e: Accepted, hasher: Hasher): WalkState
  {
    var key := KeyOf(e.record, hasher);
    var bucket := if key in st.buckets then st.buckets[key] else [];
    WalkState(st.stack, st.seen + {e.inode}, st.buckets[key := bucket + [e.record]], st.trace + [e])
  }

  /** The per-file body of the listing loop: the record constructor, the inode
      lookup and dedup, `little_hash`, and the append to the bucket. */
  function AdmitFile(fs: FileSystem, root: Path, c: Path, name: Name, hasher: Hasher, st: WalkState): (r: WalkState)
    requires Listed(fs, c) && StartsWith(c, root) && Reached(fs, root, c) && name in fs[c].children && !Hidden(name)
    requires Inv(fs, root, hasher, st)
    ensures Inv(fs, root, hasher, r)
    ensures r.stack == st.stack
    ensures Grows(fs, c, st, r, 0)
    // at most one record is added: for this entry, exactly when the record
    // constructor admits it and its inode can be read and is new
    ensures |r.trace| <= |st.trace| + 1
    // a rejected entry leaves the state alone, its inode included
    ensures |r.trace| == |st.trace| ==> r == st
    ensures |r.trace| == |st.trace| + 1 <==>
      Open(fs, Join(c, name)).Some? && GetInode(fs, Join(c, name)) !in st.seen + {UINT64_MAX}
    ensures |r.trace| == |st.trace| + 1 ==>
      && r.trace[|st.trace|].dir == c && r.trace[|st.trace|].name == name
      && r.trace[|st.trace|].inode == GetInode(fs, Join(c, name))
      && r.seen == st.seen + {GetInode(fs, Join(c, name))}
  {
    var p := Join(c, name);
    match Open(fs, p)
    case None => st
    case Some(f) =>
      var inode := GetInode(fs, p);
      if inode == UINT64_MAX then st
      else if inode in st.seen then st
      else
        var h := LittleHash(fs, f, hasher);
        var e := Accepted(c, name, h.rec, inode);
        assert KeyOf(e.record, hasher) == (h.value, f.size);
        AppendKeepsInv(fs, root, hasher, st, e);
        var r := Append(st, e, hasher);
        assert r.trace[..|st.trace|] == st.trace;
        r
  }

  /** Entry `i` of directory `c` raises a filesystem error: it is not hidden,
      and its status cannot be read. */
  predicate Raises(fs: FileSystem, c: Path, i: nat)
    requires IsDirectory(fs, c) && i < |fs[c].children|
  {
    var name := fs[c].children[i];
    !Hidden(name) && Join(c, name) in fs && fs[Join(c, name)].Broken?
  }

  /** `r` extends `st`: the accepted files and the stack only grow, by at most
      `budget` pushes, each a subdirectory of `c` under a visible name. */
  ghost predicate Grows(fs: FileSystem, c: Path, st: WalkState, r: WalkState, budget: nat)
  {
    && |st.trace| <= |r.trace| && r.trace[..|st.trace|] == st.trace
    && |st.stack| <= |r.stack| && r.stack[..|st.stack|] == st.stack
    && |r.stack| - |st.stack| <= budget
    && forall m :: |st.stack| <= m < |r.stack| ==>
         IsDirectory(fs, r.stack[m]) && VisibleChild(fs, c, r.stack[m])
  }

  lemma {:induction false} GrowsTrans(fs: FileSystem, c: Path, a: WalkState, b: WalkState, d: WalkState, n1: nat, n2: nat, n: nat)
    requires Grows(fs, c, a, b, n1) && Grows(fs, c, b, d, n2) && n1 + n2 <= n
    ensures Grows(fs, c, a, d, n)
  {
    assert d.trace[..|a.trace|] == d.trace[..|b.trace|][..|a.trace|];
    assert d.stack[..|a.stack|] == d.stack[..|b.stack|][..|a.stack|];
    forall m | |a.stack| <= m < |d.stack|
      ensures IsDirectory(fs, d.stack[m]) && VisibleChild(fs, c, d.stack[m])
    {
      if m < |b.stack| {
        assert d.stack[m] == d.stack[..|b.stack|][m] == b.stack[m];
      }
    }
  }

  /** The listing loop over entries `i` up to `end` of directory `c`. A raised
      filesystem error ends the listing of `c` at once: the per-directory
      handler catches it, and what the earlier entries did stays done. */
  function ScanRange(fs: FileSystem, root: Path, c: Path, i: nat, end: nat, hasher: Hasher, st: WalkState): (r: WalkState)
    requires Listed(fs, c) && StartsWith(c, root) && Reached(fs, root, c) && end <= |fs[c].children|
    requires Inv(fs, root, hasher, st)
    ensures Inv(fs, root, hasher, r)
    // only subdirectories of c are pushed, at most one per remaining entry
    ensures Grows(fs, c, st, r, Max(0, end - i))
    decreases end - i
  {
    if i >= end then
      assert st.trace[..|st.trace|] == st.trace && st.stack[..|st.stack|] == st.stack;
      st
    else
      var name := fs[c].children[i];
      var p := Join(c, name);
      if Hidden(name) then
        var r := ScanRange(fs, root, c, i + 1, end, hasher, st);
        assert st.trace[..|st.trace|] == st.trace && st.stack[..|st.stack|] == st.stack;
        GrowsTrans(fs, c, st, st, r, 0, Max(0, end - i - 1), Max(0, end - i));
        r
      else if p in fs && fs[p].Broken? then
        assert st.trace[..|st.trace|] == st.trace && st.stack[..|st.stack|] == st.stack;
        st
      else if IsDirectory(fs, p) then
        assert VisibleChild(fs, c, p);
        var st1 := st.(stack := st.stack + [p]);
        assert st1.stack[..|st.stack|] == st.stack && st1.trace[..|st.trace|] == st.trace;
        var r := ScanRange(fs, root, c, i + 1, end, hasher, st1);
        GrowsTrans(fs, c, st, st1, r, 1, Max(0, end - i - 1), Max(0, end - i));
        r
      else if IsRegularFile(fs, p) then
        var st1 := AdmitFile(fs, root, c, name, hasher, st);
        var r := ScanRange(fs, root, c, i + 1, end, hasher, st1);
        GrowsTrans(fs, c, st, st1, r, 0, Max(0, end - i - 1), Max(0, end - i));
        r
      else
        var r := ScanRange(fs, root, c, i + 1, end, hasher, st);
        assert st.trace[..|st.trace|] == st.trace && st.stack[..|st.stack|] == st.stack;
        GrowsTrans(fs, c, st, st, r, 0, Max(0, end - i - 1), Max(0, end - i));
        r
  }

  /** What listing entry `i` of `c` does when it does not raise. */
  function EntryStep(fs: FileSystem, root: Path, c: Path, i: nat, hasher: Hasher, st: WalkState): (r: WalkState)
    requires Listed(fs, c) && StartsWith(c, root) && Reached(fs, root, c) && i < |fs[c].children|
    requires Inv(fs, root, hasher, st)
    ensures Inv(fs, root, hasher, r)
  {
    var name := fs[c].children[i];
    var p := Join(c, name);
    if Hidden(name) then st
    else if IsDirectory(fs, p) then st.(stack := st.stack + [p])
    else if IsRegularFile(fs, p) then AdmitFile(fs, root, c, name, hasher, st)
    else st
  }

  /** Listing from an entry that does not raise is that entry's step
      followed by the listing of the rest. */
  lemma {:induction false} ScanRangeUnfold(fs: FileSystem, root: Path, c: Path, i: nat, end: nat, hasher: Hasher, st: WalkState)
    requires Listed(fs, c) && StartsWith(c, root) && Reached(fs, root, c) && i < end <= |fs[c].children|
    requires Inv(fs, root, hasher, st) && !Raises(fs, c, i)
    ensures ScanRange(fs, root, c, i, end, hasher, st) ==
      ScanRange(fs, root, c, i + 1, end, hasher, EntryStep(fs, root, c, i, hasher, st))
  {
  }

  /** An entry that raises abandons the rest of its directory and nothing
      else: listing up to the first raising entry `k` and listing all of the
      directory leave the same state. */
  lemma {:induction false} RaiseAbandonsRest(fs: FileSystem, root: Path, c: Path, i: nat, k: nat, hasher: Hasher, st: WalkState)
    requires Listed(fs, c) && StartsWith(c, root) && Reached(fs, root, c) && Inv(fs, root, hasher, st)
    requires i <= k < |fs[c].children| && Raises(fs, c, k)
    requires forall m :: i <= m < k ==> !Raises(fs, c, m)
    ensures ScanRange(fs, root, c, i, |fs[c].children|, hasher, st) == ScanRange(fs, root, c, i, k, hasher, st)
    decreases k - i
  {
    if i < k {
      assert !Raises(fs, c, i);
      ScanRangeUnfold(fs, root, c, i, |fs[c].children|, hasher, st);
      ScanRangeUnfold(fs, root, c, i, k, hasher, st);
      var st1 := EntryStep(fs, root, c, i, hasher, st);
      assert Inv(fs, root, hasher, st1);
      assert forall m :: i + 1 <= m < k ==> !Raises(fs, c, m);
      RaiseAbandonsRest(fs, root, c, i + 1, k, hasher, st1);
    }
  }

  // ---- termination of the walk ----

  ghost function MaxLen(s: set<Path>): (m: nat)
    ensures forall p :: p in s ==> |p| <= m
    decreases s
  {
    if s == {} then 0 else var p :| p in s; Max(|p|, MaxLen(s - {p}))
  }

  ghost function MaxFanout(fs: FileSystem, s: set<Path>): (m: nat)
    ensures forall p :: p in s && p in fs && fs[p].Dir? ==> |fs[p].children| <= m
    decreases s
  {
    if s == {} then 0
    else
      var p :| p in s;
      Max(if p in fs && fs[p].Dir? then |fs[p].children| else 0, MaxFanout(fs, s - {p}))
  }

  /** A path's share of the work left: `b` to the number of levels below it
      that the filesystem's longest path still allows. */
  ghost function Weight(p: Path, maxLen: nat, b: nat): nat
  {
    if |p| <= maxLen then Pow(b, maxLen + 1 - |p|) else 1
  }

  ghost function StackWeight(s: seq<Path>, maxLen: nat, b: nat): nat
    decreases |s|
  {
    if s == [] then 0 else StackWeight(s[..|s| - 1], maxLen, b) + Weight(s[|s| - 1], maxLen, b)
  }

  lemma {:induction false} StackWeightPushes(s: seq<Path>, t: seq<Path>, maxLen: nat, b: nat, bound: nat)
    requires forall m :: 0 <= m < |t| ==> Weight(t[m], maxLen, b) <= bound
    ensures StackWeight(s + t, maxLen, b) <= StackWeight(s, maxLen, b) + |t| * bound
    decreases |t|
  {
    if t == [] {
      assert s + t == s;
    } else {
      var t' := t[..|t| - 1];
      assert (s + t)[..|s + t| - 1] == s + t';
      assert (s + t)[|s + t| - 1] == t[|t| - 1];
      StackWeightPushes(s, t', maxLen, b, bound);
      assert Weight(t[|t| - 1], maxLen, b) <= bound;
      assert |t| * bound == |t'| * bound + bound by {
        assert |t| == |t'| + 1;
        MulSucc(|t'|, bound);
      }
    }
  }

  /** Listing directory `c` pushes less work than popping `c` removes. */
  lemma {:induction false} ListingShrinksWork(fs: FileSystem, s: seq<Path>, c: Path, t: seq<Path>, maxLen: nat, b: nat)
    requires c in fs && |c| <= maxLen && 1 <= b && |t| < b
    requires forall m :: 0 <= m < |t| ==> t[m] in fs && |t[m]| > |c|
    requires forall p :: p in fs ==> |p| <= maxLen
    ensures StackWeight(s + t, maxLen, b) < StackWeight(s + [c], maxLen, b)
  {
    var bound := Pow(b, maxLen - |c|);
    forall m | 0 <= m < |t| ensures Weight(t[m], maxLen, b) <= bound {
      PowMonotone(b, maxLen + 1 - |t[m]|, maxLen - |c|);
    }
    StackWeightPushes(s, t, maxLen, b, bound);
    assert (s + [c])[..|s + [c]| - 1] == s;
    assert StackWeight(s + [c], maxLen, b) == StackWeight(s, maxLen, b) + Weight(c, maxLen, b);
    assert Weight(c, maxLen, b) == Pow(b, maxLen + 1 - |c|);
    assert Pow(b, maxLen + 1 - |c|) == b * bound;
    PowMonotone(b, 0, maxLen - |c|);
    MulLe(|t|, b - 1, bound);
    MulSucc(b - 1, bound);
    assert |t| * bound < b * bound;
  }

  /** Popping a directory without listing it removes work. */
  lemma {:induction false} PopShrinksWork(s: seq<Path>, c: Path, maxLen: nat, b: nat)
    requires 1 <= b
    ensures StackWeight(s, maxLen, b) < StackWeight(s + [c], maxLen, b)
  {
    assert (s + [c])[..|s + [c]| - 1] == s;
    if |c| <= maxLen {
      PowMonotone(b, 0, maxLen + 1 - |c|);
    }
  }

  lemma {:induction false} MulSucc(x: nat, y: nat)
    ensures (x + 1) * y == x * y + y
  {
  }

  lemma {:induction false} MulLe(x: nat, y: nat, z: nat)
    requires x <= y
    ensures x * z <= y * z
  {
  }

  /** The directory walk. Returns `all_files` and the accepted files in
      traversal order. */
  method Walk(fs: FileSystem, root: Path, hasher: Hasher) returns (buckets: map<Key, seq<Record>>, trace: seq<Accepted>)
    // each accepted file was listed in a non-excluded directory under the root,
    // has a visible name, passed the record constructor and has an inode
    ensures forall m :: 0 <= m < |trace| ==> AcceptedOk(fs, root, hasher, trace[m])
    // each inode number yields at most one record
    ensures forall m, m' :: 0 <= m < m' < |trace| ==> trace[m].inode != trace[m'].inode
    // each record sits in the bucket of its key, buckets in traversal order
    ensures forall k :: k in buckets ==> buckets[k] == RecordsWithKey(trace, k, hasher)
    ensures forall k :: RecordsWithKey(trace, k, hasher) != [] ==> k in buckets
    // a root whose path contains the excluded string yields nothing
    ensures Contains(root, ExcludedDir) ==> trace == []
  {
    ghost var maxLen := MaxLen(fs.Keys);
    ghost var b := 1 + MaxFanout(fs, fs.Keys);
    var st := WalkState([root], {}, map[], []);
    while |st.stack| > 0
      invariant Inv(fs, root, hasher, st)
      invariant StackOk(fs, root, st.stack)
      decreases StackWeight(st.stack, maxLen, b)
    {
      st := PopAndList(fs, root, hasher, st, maxLen, b);
    }
    buckets, trace := st.buckets, st.trace;
    ExcludedRootYieldsNothing(fs, root, hasher, trace);
  }

  /** One pass of the walk loop: pop a directory; skip it when its path
      contains the excluded string or when it cannot be listed (opening the
      iterator raises and the handler moves on); otherwise list it. */
  method PopAndList(fs: FileSystem, root: Path, hasher: Hasher, st: WalkState, ghost maxLen: nat, ghost b: nat)
    returns (st': WalkState)
    requires |st.stack| > 0 && Inv(fs, root, hasher, st) && StackOk(fs, root, st.stack)
    requires maxLen == MaxLen(fs.Keys) && b == 1 + MaxFanout(fs, fs.Keys)
    ensures Inv(fs, root, hasher, st') && StackOk(fs, root, st'.stack)
    ensures StackWeight(st'.stack, maxLen, b) < StackWeight(st.stack, maxLen, b)
  {
    var c := st.stack[|st.stack| - 1];
    var rest := st.stack[..|st.stack| - 1];
    assert st.stack == rest + [c];
    var popped := st.(stack := rest);
    if Contains(c, ExcludedDir) || !IsDirectory(fs, c) || !fs[c].listable {
      PopShrinksWork(rest, c, maxLen, b);
      return popped;
    }
    st' := ScanRange(fs, root, c, 0, |fs[c].children|, hasher, popped);
    ListingKeepsStack(fs, root, c, rest, st'.stack, maxLen, b);
  }

  /** Every path on the stack lies under the root, is the root or a
      directory, and is reached from the root through visible names. */
  ghost predicate StackOk(fs: FileSystem, root: Path, stack: seq<Path>)
  {
    forall m :: 0 <= m < |stack| ==>
      && StartsWith(stack[m], root) && (stack[m] == root || IsDirectory(fs, stack[m]))
      && Reached(fs, root, stack[m])
  }

  lemma {:induction false} ListingKeepsStack(fs: FileSystem, root: Path, c: Path, rest: seq<Path>, stack: seq<Path>, maxLen: nat, b: nat)
    requires Listed(fs, c) && StartsWith(c, root) && Reached(fs, root, c) && StackOk(fs, root, rest)
    requires maxLen == MaxLen(fs.Keys) && b == 1 + MaxFanout(fs, fs.Keys)
    requires Grows(fs, c, WalkState(rest, {}, map[], []), WalkState(stack, {}, map[], []), |fs[c].children|)
    ensures StackOk(fs, root, stack)
    ensures StackWeight(stack, maxLen, b) < StackWeight(rest + [c], maxLen, b)
  {
    var pushed := stack[|rest|..];
    assert stack == rest + pushed;
    forall m | 0 <= m < |pushed|
      ensures StartsWith(pushed[m], root) && Reached(fs, root, pushed[m])
      ensures pushed[m] in fs && |pushed[m]| > |c|
    {
      assert pushed[m] == stack[|rest| + m];
      PushedUnderRoot(fs, root, c, pushed[m]);
    }
    ListingShrinksWork(fs, rest, c, pushed, maxLen, b);
  }

  /** A visible subdirectory of a reached directory under the root is
      itself under the root and reached. */
  lemma {:induction false} PushedUnderRoot(fs: FileSystem, root: Path, c: Path, p: Path)
    requires Listed(fs, c) && StartsWith(c, root) && Reached(fs, root, c)
    requires IsDirectory(fs, p) && VisibleChild(fs, c, p)
    ensures StartsWith(p, root) && Reached(fs, root, p)
  {
    assert p[..|root|] == p[..|c|][..|root|];
    ReachedChild(fs, root, c, p);
  }

  lemma {:induction false} ExcludedRootYieldsNothing(fs: FileSystem, root: Path, hasher: Hasher, trace: seq<Accepted>)
    requires forall m :: 0 <= m < |trace| ==> AcceptedOk(fs, root, hasher, trace[m])
    ensures Contains(root, ExcludedDir) ==> trace == []
  {
    if Contains(root, ExcludedDir) && trace != [] {
      var e := trace[0];
      assert e.dir == root + e.dir[|root|..];
      ContainsExtends(root, e.dir[|root|..], ExcludedDir);
    }
  }
}
